=== FILE: README.md ===
# DeepResearcher core, modelled in Dafny

This project models the research-session core of DeepResearcher, an AI research
assistant. Its parts are:

- **Research routes.** Four variants take a research query, open an in-memory session
  named `session_N`, and answer at once with `running`. Later they settle the session as
  `completed` with results, or as `error`:
  - the Express server in `simple-server.js`;
  - the Next.js routes `app/api/research/route.js`, `comprehensive-route.js` and
    `enhanced-route.js`;
  - the separate `[sessionId]` lookup route.
- **Research engines.** The results come from one of three engines:
  - a keyword-matched mock;
  - a multi-source engine that parses an arXiv Atom feed, maps news, Wikipedia and
    stock-photo responses, and merges them into one result with a per-kind source
    breakdown, or a canned fallback;
  - a single-model engine whose JSON reply is spread into the result.
- **Backend middleware.**
  - the error handler, which turns any thrown error into a status, a code and a message;
  - the JWT, optional-JWT, role and API-key middlewares;
  - the Socket.IO bookkeeping of which sockets a user has open and which sessions a
    socket follows.
- **Shared types.** The string enums, the zod request schemas with their defaults, and
  the error classes.

Each file is one module:

| file | module | covers |
|---|---|---|
| `wrappers.dfy` | `Wrappers` | `Option`, `Result` |
| `text.dfy` | `Text` | the JavaScript string operations the code relies on: the or-fallback on optional text, `includes`, `startsWith`, `replace`, `split`, `trim`, `/\n\s+/g`, `toLowerCase`, and number-to-string |
| `json.dfy` | `Json` | parsed JSON values, truthiness, and the keys an object spread copies |
| `records.dfy` | `Records` | source and image records |
| `session_store.dfy` | `Sessions` | the session store, as the class `SessionStore` |
| `mock_research.dfy` | `MockResearch` | the keyword-matched mock engine |
| `arxiv_feed.dfy` | `ArxivFeed` | the arXiv feed reader |
| `comprehensive.dfy` | `Comprehensive` | the multi-source engine and its settling |
| `enhanced_research.dfy` | `EnhancedResearch` | the single-model engine and its settling |
| `error_handler.dfy` | `ErrorHandler` | the backend error middleware |
| `auth.dfy` | `Auth` | the authentication middlewares |
| `socket_registry.dfy` | `SocketRegistry` | the socket bookkeeping, as the class `Registry` |
| `zod_schema.dfy` | `ZodSchema` | the zod validators used |
| `shared_types.dfy` | `SharedTypes` | `shared/types` |
| `backend_types.dfy` | `BackendTypes` | the backend session schemas |

Outside calls are not modelled as calls. They become inputs:

- **Network calls** (OpenAI, arXiv, NewsAPI, Wikipedia, Unsplash, Pexels, Replicate) are
  `Option` values; an absent value means the call threw or returned nothing usable.
- **`jwt.verify` and the Prisma lookups** are function parameters that return a
  `Result`.
- **The clock, `Math.random` and environment variables** are parameters.

## Model

| member | source | states |
|---|---|---|
| `Sessions.SessionStore.constructor` | simple-server.js:11-12 | an empty store whose counter starts at 1 |
| `Sessions.SessionStore.Post` | simple-server.js:43-102 | an unreadable body is a 500 and a falsy query a 400, and neither changes the store; otherwise `session_N` is issued for the old counter N, that id was not in use, the counter grows by one, and a running session with progress 0 is inserted at the end of the insertion order; the store invariant holds |
| `Sessions.SessionStore.NextIdFresh` | app/api/research/route.js:39 | the id the counter names next is not in the store |
| `Sessions.SessionStore.IssuedBelowCounter` | app/api/research/comprehensive-route.js:322 | every stored id is `session_k` for some k below the counter |
| `Sessions.SessionIdInjective` | app/api/research/enhanced-route.js:129 | distinct counter values give distinct session ids |
| `Sessions.SessionId` | simple-server.js:53 | `session_` followed by a non-empty run of decimal digits |
| `Sessions.SessionStore.Complete` | simple-server.js:88-91 | the session becomes `completed` with progress 100, the results and the completion time; every other session and the order stay the same |
| `Sessions.SessionStore.Fail` | app/api/research/enhanced-route.js:147-150 | the session becomes `error` with the message, and nothing else changes |
| `Sessions.SessionStore.FailWithResults` | app/api/research/comprehensive-route.js:340-344 | the session becomes `error` with the message and the substitute results; progress and completion time are untouched |
| `Sessions.SessionStore.Get` | simple-server.js:104-119 | the stored session exactly when the id is stored, else a 404 "Research session not found" |
| `Sessions.SessionStore.StatusOf` | simple-server.js:121-140 | exactly the id, status and progress of a stored session, else a 404 |
| `Sessions.SessionStore.List` | simple-server.js:142-155 | one summary per stored session, in insertion order, with nothing left out or repeated |
| `Sessions.SessionStore.DistinctOrder` | app/api/research/route.js:97-104 | the insertion order lists each stored session exactly once |
| `Sessions.InsertKeepsInv` | simple-server.js:53-63 | storing a good session under the id the counter names, and advancing the counter, keeps the store invariant |
| `Sessions.ReplaceKeepsInv` | simple-server.js:88-91 | replacing a stored session by one that keeps its id, a non-empty query and the fields its status implies keeps the store invariant |
| `Sessions.Project` | app/api/research/enhanced-route.js:169-176 | the projection keeps id, query, status, creation and completion time, in the order given |
| `Sessions.DetachedGet` | app/api/research/route.js:5 | the `[sessionId]` route's GET (its route.js, lines 4-16) consults a map of its own, which nothing fills, instead of the shared store, so as written its lookup answers 404 "Research session not found" for every id |
| `Sessions.PostThenGet` | app/api/research/route.js:39-49 | a session this route has just stored is found when looked up in this same store, as the `[sessionId]` route's GET (lines 6-21 of its route.js) evidently intends: running, progress 0, with the posted query |
| `MockResearch.GenericResult` | simple-server.js:77-86 | the generic result quotes the query in its summary and has 2 sources and 3 insights |
| `MockResearch.FirstTopic` | simple-server.js:70-75 | the first topic, in declaration order, that the keywords contain; none only when no topic is contained |
| `MockResearch.MockResultFor` | simple-server.js:66-84 | a query naming a known topic gets one of the canned results; one naming none gets the generic result, which quotes the query |
| `MockResearch.PickResult` | app/api/research/route.js:52-72 | the lower-casing, the loop that stops at the first contained topic, and the generic fallback compute `MockResultFor` |
| `MockResearch.QuantumFirst` | simple-server.js:15-23 | a query containing "quantum computing" in any letter case gets that topic's result, whatever else it names |
| `MockResearch.SafetySecond` | simple-server.js:24-31 | a query containing "ai safety" but not "quantum computing" gets the AI-safety result |
| `MockResearch.GenericQuotesQuery` | app/api/research/route.js:63-72 | a query naming no topic gets the generic result, which quotes it |
| `MockResearch.LiteralTopicFound` | simple-server.js:67-71 | a lower-case topic inside the query is still found after `toLowerCase` |
| `MockResearch.CompleteMockSession` | app/api/research/route.js:74-77 | the timer callback completes exactly that session with the picked result; id, query, options and all other sessions are unchanged |
| `ArxivFeed.ExtractTag` | app/api/research/comprehensive-route.js:35-36 | the capture of the lazy dot-all match: the text between the first opening tag and the first closing tag after it; none exactly when no closing tag follows any opening tag |
| `ArxivFeed.LineClose` | app/api/research/comprehensive-route.js:37 | a closing tag found from a position on the same line: every character before it is neither a line terminator nor the start of the closing tag; nothing is found only when every later closing tag has a line terminator before it |
| `ArxivFeed.LineBody` | app/api/research/comprehensive-route.js:37 | the lazy single-line capture at a viable opening tag: no line terminator, and it stops at the first closing tag after the opening tag |
| `ArxivFeed.ExtractLineTag` | app/api/research/comprehensive-route.js:37 | the capture without the `s` flag contains no line terminator |
| `ArxivFeed.ExtractLineTagFirst` | app/api/research/comprehensive-route.js:37 | a capture comes from the first position where the opening tag is followed by a closing tag on the same line, and is the lazy body there |
| `ArxivFeed.ViableCaptures` | app/api/research/comprehensive-route.js:37 | an opening tag with a closing tag on its line at or after the start position means the match succeeds |
| `ArxivFeed.ExtractLineTagNone` | app/api/research/comprehensive-route.js:37 | no match exactly when no opening tag from the start position on has a closing tag on the same line |
| `ArxivFeed.Prefix` | app/api/research/comprehensive-route.js:42 | `substring(0, 200)`: a prefix of at most 200 characters, the whole text when shorter |
| `ArxivFeed.Normalise` | app/api/research/comprehensive-route.js:41 | trimmed and line-break runs collapsed: no line break followed by white space remains, the text does not grow, and its non-space characters are exactly those of the input, in order |
| `ArxivFeed.NormaliseClean` | app/api/research/comprehensive-route.js:41-43 | a title or summary without surrounding white space and without a line-break run is kept unchanged |
| `ArxivFeed.NormaliseJoinsLines` | app/api/research/comprehensive-route.js:41-43 | two clean lines joined by a line break and indentation become the two lines joined by one space |
| `ArxivFeed.ParseEntry` | app/api/research/comprehensive-route.js:34-47 | a piece yields a paper exactly when it has both a title and a summary element; the title is the normalised title capture; the summary is the first 200 characters of the normalised summary capture followed by `...`; the URL is the trimmed single-line `<id>` capture, or `#` without one; the paper is `arXiv`/`academic` |
| `ArxivFeed.FilterMap` | app/api/research/comprehensive-route.js:34-48 | keeping the present results never yields more than the input |
| `ArxivFeed.FilterMapAppend` | app/api/research/comprehensive-route.js:34-48 | filter-mapping distributes over concatenation |
| `ArxivFeed.FilterMapSnoc` | app/api/research/comprehensive-route.js:34-48 | handling one more piece appends that piece's paper, if it has one, to what came before |
| `ArxivFeed.PapersOf` | app/api/research/comprehensive-route.js:34-48 | at most one paper per piece |
| `ArxivFeed.PapersWellFormed` | app/api/research/comprehensive-route.js:40-46 | every paper the pieces yield has the reader's shape |
| `ArxivFeed.PapersOfOne` | app/api/research/comprehensive-route.js:39-47 | one piece yields its paper, or nothing |
| `ArxivFeed.PapersOfAppend` | app/api/research/comprehensive-route.js:34-48 | the papers of two runs of pieces are the papers of each run, in order |
| `ArxivFeed.CollectPapers` | app/api/research/comprehensive-route.js:31-48 | the `forEach` that pushes parsed papers collects exactly `PapersOf` of the pieces |
| `ArxivFeed.ArxivPapers` | app/api/research/comprehensive-route.js:32-50 | a feed never yields more papers than it has `<entry>` markers, and every paper has the reader's shape |
| `ArxivFeed.ParseFeed` | app/api/research/comprehensive-route.js:32-50 | the papers of a feed: no more than there are `<entry>` markers, each well formed |
| `ArxivFeed.ArxivNoEntries` | app/api/research/comprehensive-route.js:32 | a feed without `<entry>` yields no paper |
| `Text.FindFrom` | app/api/research/comprehensive-route.js:35 | the first occurrence at or after a position; none exactly when there is no occurrence there |
| `Text.ContainsIff` | simple-server.js:71 | `includes` holds exactly when the pattern occurs at some index |
| `Text.ContainsMiddle` | app/api/research/route.js:65 | a text built around the query contains the query |
| `Text.ReplaceFirst` | backend/src/utils/socket.ts:44 | `replace` with a string changes nothing when the pattern is absent; otherwise exactly the first occurrence is replaced, everything before and after it is kept, and the length changes by the difference |
| `Text.SplitLength` | app/api/research/comprehensive-route.js:32 | `split` yields one more piece than there are occurrences of the separator |
| `Text.SplitJoin` | app/api/research/comprehensive-route.js:32 | joining the pieces with the separator restores the text |
| `Text.SplitPiecesFree` | app/api/research/comprehensive-route.js:32 | no piece contains the separator |
| `Text.CountOccurrences` | app/api/research/comprehensive-route.js:32 | the number of separators `split` consumes never exceeds the text length |
| `Text.CountOccurrencesZero` | app/api/research/comprehensive-route.js:32 | no separator is consumed exactly when the separator does not occur |
| `Text.TrimStart` | app/api/research/comprehensive-route.js:41 | only leading white space is dropped, and all of it |
| `Text.TrimEnd` | app/api/research/comprehensive-route.js:41 | only trailing white space is dropped, and all of it |
| `Text.Trim` | app/api/research/comprehensive-route.js:43 | the result neither starts nor ends with white space, is the input with a run of white space cut from each end, and keeps every non-space character in order |
| `Text.TrimSlice` | app/api/research/comprehensive-route.js:43 | the trimmed text is a slice of the input with only white space on either side of it |
| `Text.TrimStartVisible` | app/api/research/comprehensive-route.js:41 | dropping leading white space keeps the non-space characters |
| `Text.TrimEndVisible` | app/api/research/comprehensive-route.js:41 | dropping trailing white space keeps the non-space characters |
| `Text.VisibleAppend` | app/api/research/comprehensive-route.js:41 | the non-space characters of a concatenation are those of each part, in order |
| `Text.TrimTrimmed` | app/api/research/comprehensive-route.js:43 | trimming a trimmed text changes nothing |
| `Text.SpaceRun` | app/api/research/comprehensive-route.js:41 | the length of the white-space run that `\s+` matches |
| `Text.CollapseBreaks` | app/api/research/comprehensive-route.js:41 | the global replace of a line break and the white space after it never lengthens the text and empties only the empty text; its mid-text behaviour is stated by the `CollapseBreaksMiddle` and `CollapseBreaksMiddleKept` rows |
| `Text.CollapseBreaksKeep` | app/api/research/comprehensive-route.js:41 | a prefix with no line-break run that does not end in a line break is left as it is, and the replace continues on the rest |
| `Text.SpaceRunOf` | app/api/research/comprehensive-route.js:41 | the white-space run matched by `\s+` at the front of spaces followed by a non-space is exactly those spaces |
| `Text.CollapseBreaksRun` | app/api/research/comprehensive-route.js:41 | a line break followed by a non-empty run of white space and then a non-space becomes one space |
| `Text.CollapseBreaksLoneBreak` | app/api/research/comprehensive-route.js:41 | a line break not followed by white space is kept |
| `Text.CollapseBreaksMiddle` | app/api/research/comprehensive-route.js:41 | in mid-text, a line break and the white-space run after it become exactly one space, and the text before it is kept unchanged |
| `Text.CollapseBreaksMiddleKept` | app/api/research/comprehensive-route.js:41 | in mid-text, a line break directly before a non-space is kept, and the text before it is kept unchanged |
| `Text.CollapseBreaksHead` | app/api/research/comprehensive-route.js:41 | a break run at the start becomes one space, and any other first character is kept |
| `Text.CollapseBreaksClean` | app/api/research/comprehensive-route.js:41 | after the global replace no line break followed by white space remains, and the text is no longer |
| `Text.CollapseBreaksFixpoint` | app/api/research/comprehensive-route.js:41 | a text without such runs is left as it is |
| `Text.CollapseBreaksIdempotent` | app/api/research/comprehensive-route.js:41 | applying the replace twice is the same as once |
| `Text.VisibleDropSpaces` | app/api/research/comprehensive-route.js:41 | dropping leading white space keeps the visible characters |
| `Text.CollapseBreaksVisible` | app/api/research/comprehensive-route.js:41 | the replace keeps every character that is not white space, in order |
| `Text.ToLower` | simple-server.js:67 | same length, each character lower-cased |
| `Text.ContainsAfterLower` | app/api/research/route.js:53-57 | a lower-case pattern found in a text is still found after lower-casing it |
| `Text.NatToString` | simple-server.js:53 | a non-empty run of decimal digits, at least two from 10 on |
| `Text.NatToStringInjective` | simple-server.js:53 | different numbers print differently |
| `Text.PrefixCancel` | simple-server.js:53 | a common prefix cancels |
| `Text.DigitChar` | simple-server.js:53 | a digit prints as a decimal digit character |
| `Text.OrElse` | app/api/research/comprehensive-route.js:246 | the JavaScript or-fallback on optional text: the first value when it is non-empty, otherwise the second; the authentication middleware picks its secret the same way, `JWT_SECRET` before `NEXTAUTH_SECRET` (backend/src/middleware/auth.ts line 59) |
| `Json.OwnFields` | app/api/research/enhanced-route.js:82-84 | the keys an object spread copies: all of an object's own fields, and none from any other value |
| `Records.CountKind` | app/api/research/comprehensive-route.js:173-178 | the number of sources of a type never exceeds the number of sources |
| `Records.CountKindAppend` | app/api/research/comprehensive-route.js:156-160 | counting by type distributes over concatenation |
| `Records.CountKindAll` | app/api/research/comprehensive-route.js:174 | a group all of one type counts in full |
| `Records.CountKindNone` | app/api/research/comprehensive-route.js:175 | a group without a type counts zero of it |
| `Comprehensive.AnalysisOf` | app/api/research/comprehensive-route.js:214-229 | the completion text is the summary, with 4 insights and 3 trends |
| `Comprehensive.NewsSummary` | app/api/research/comprehensive-route.js:69 | a non-empty description is kept; a falsy one with content gives the first 200 characters of the content and `...`; with neither the summary is `undefined...` |
| `Comprehensive.NewsRecord` | app/api/research/comprehensive-route.js:67-74 | an article becomes a `news` record with its title, URL, source name and date |
| `Comprehensive.NewsRecords` | app/api/research/comprehensive-route.js:58-79 | nothing without an API key or an article list, otherwise one record per article, in order |
| `Comprehensive.WikiRecord` | app/api/research/comprehensive-route.js:91-97 | a `reference` record from Wikipedia carrying the page's title, extract and URL |
| `Comprehensive.FromUnsplash` | app/api/research/comprehensive-route.js:244-249 | an Unsplash hit keeps its URL and photographer; the description falls back to the alt text |
| `Comprehensive.FromPexels` | app/api/research/comprehensive-route.js:268-273 | a Pexels hit keeps its URL, alt text and photographer |
| `Comprehensive.UnsplashImages` | app/api/research/comprehensive-route.js:237-253 | nothing when the search failed, else one image per hit, in order |
| `Comprehensive.PexelsImages` | app/api/research/comprehensive-route.js:256-277 | nothing when the search failed, else one image per hit, in order |
| `Comprehensive.GatherImages` | app/api/research/comprehensive-route.js:233-280 | the images collected are the Unsplash images followed by the Pexels images |
| `Comprehensive.ResearchImages` | app/api/research/comprehensive-route.js:233-280 | one image per hit of each provider that answered: the Unsplash images first, each mapped from its hit in order, then the Pexels images, each mapped from its hit in order |
| `Comprehensive.ResearchImagesProviders` | app/api/research/comprehensive-route.js:244-272 | every image names its provider, and Unsplash images come first |
| `Comprehensive.Visualization` | app/api/research/comprehensive-route.js:105-134 | a visualisation exists exactly when there is a token and a model output; it is `ai_generated` from `Replicate AI` and names the topic |
| `Comprehensive.OptionList` | app/api/research/comprehensive-route.js:159 | an optional value as a list of length 0 or 1 |
| `Comprehensive.Combine` | app/api/research/comprehensive-route.js:156-182 | a successful run keeps the analysis summary, insights and trends, is AI-generated, comprehensive, not a fallback, stamped with the time, and has one source per paper, article and Wikipedia page |
| `Comprehensive.CombineLayout` | app/api/research/comprehensive-route.js:156-178 | the sources are the papers, then the news, then Wikipedia; the breakdown total is the number of sources and the sum of its parts; the visualisation goes after the photos |
| `Comprehensive.CombineBreakdownCounts` | app/api/research/comprehensive-route.js:173-178 | when each group has its own type, each breakdown count is the number of sources of that type |
| `Comprehensive.FallbackShape` | app/api/research/comprehensive-route.js:282-306 | the fallback quotes the query and has 3 sources with total 3 and one each of academic, news and reference, 4 insights, 3 trends, no images, and the fallback flag |
| `Comprehensive.Fallback` | app/api/research/comprehensive-route.js:282-306 | the fallback is flagged, AI-generated, not comprehensive, and has neither timestamp nor images |
| `Comprehensive.FallbackReferenceMismatch` | app/api/research/comprehensive-route.js:296-302 | the fallback claims one reference source, yet none of its sources has type `reference`: the third has type `analysis` |
| `Comprehensive.ComprehensiveResearch` | app/api/research/comprehensive-route.js:137-188 | the engine run computes `ResearchResult` |
| `Comprehensive.ResearchResult` | app/api/research/comprehensive-route.js:137-188 | a failed analysis gives exactly the query's canned fallback; otherwise the summary is the completion text, the sources are the parsed arXiv papers, then the news records, then the Wikipedia record when there is one, the images are the provider images followed by the visualisation when there is one, and the timestamp is the given one; the breakdown total always counts the sources |
| `Comprehensive.ResearchBreakdownExact` | app/api/research/comprehensive-route.js:173-178 | in a successful run each breakdown count is the exact number of sources of its type, and the total is the number of sources |
| `Comprehensive.SettleComprehensive` | app/api/research/comprehensive-route.js:335-339 | the session is completed with the result of the run on its own query |
| `Comprehensive.SettleComprehensiveFailure` | app/api/research/comprehensive-route.js:340-344 | the session is marked `error` and receives the fallback for its own query |
| `EnhancedResearch.PhotoJson` | app/api/research/enhanced-route.js:20-24 | a hit becomes exactly the keys `url`, `description` and `photographer`: URL and photographer, the description when there is one and `null` otherwise; there is no `source` key |
| `EnhancedResearch.PhotosJson` | app/api/research/enhanced-route.js:14-29 | nothing when the search failed, else one entry per hit, in order |
| `EnhancedResearch.Strings` | app/api/research/enhanced-route.js:66-75 | a string list becomes a JSON array holding each string, in order |
| `EnhancedResearch.ReplyAsData` | app/api/research/enhanced-route.js:62-76 | a reply that is not JSON becomes the summary, next to canned insights, sources and trends |
| `EnhancedResearch.Success` | app/api/research/enhanced-route.js:82-87 | the keys are the spread data's keys plus `images`, `aiGenerated` and `timestamp`, which override; every other key is kept |
| `EnhancedResearch.AIResearch` | app/api/research/enhanced-route.js:32-115 | the result is an object with images and the AI flag; it is timestamped exactly when the completion answered; then it is AI-generated and holds the images of the query, otherwise it is a flagged fallback holding the fallback search's images |
| `EnhancedResearch.FallbackSummary` | app/api/research/enhanced-route.js:94 | the fallback summary quotes the query |
| `EnhancedResearch.ErrorFallback` | app/api/research/enhanced-route.js:89-114 | the fallback is flagged, not AI-generated, has no timestamp, quotes the query in its summary, carries the images it is given, and has 4 insights, 3 sources and 3 trends |
| `EnhancedResearch.UnparsedReplyKept` | app/api/research/enhanced-route.js:58-87 | an unparsable reply still completes: its text is the summary, it is AI-generated, has 3 insights, 2 sources and 2 trends, and has no fallback flag |
| `EnhancedResearch.ParsedReplySpread` | app/api/research/enhanced-route.js:82-87 | a reply that parses to an object keeps all its own keys except the three set afterwards |
| `EnhancedResearch.FailedCallFallback` | app/api/research/enhanced-route.js:89-114 | a failed completion yields a flagged fallback that is not AI-generated, has no timestamp, quotes the query and uses a fresh image search |
| `EnhancedResearch.FallbackFlagOrigin` | app/api/research/enhanced-route.js:82-114 | the fallback flag appears only after a failed call, or when the model's own JSON carries it |
| `EnhancedResearch.SettleEnhanced` | app/api/research/enhanced-route.js:142-146 | the session is completed with the research result for its own query |
| `EnhancedResearch.SettleEnhancedFailure` | app/api/research/enhanced-route.js:147-150 | only status and error change, and a session that was running keeps no results |
| `ErrorHandler.NewValidationError` | backend/src/middleware/errorHandler.ts:21-25 | 400, `INVALID_OPTIONS`, the given message and details |
| `ErrorHandler.NewRateLimitError` | backend/src/middleware/errorHandler.ts:27-31 | 429, `RATE_LIMIT_EXCEEDED`, the given message, defaulting to "Rate limit exceeded" |
| `ErrorHandler.NewExternalAPIError` | backend/src/middleware/errorHandler.ts:33-37 | 502, `EXTERNAL_API_ERROR`, the given message and details |
| `ErrorHandler.NewResearchError` | backend/src/middleware/errorHandler.ts:39-43 | the status defaults to 500 and the code to `INTERNAL_ERROR` |
| `ErrorHandler.CreateExternalAPIError` | backend/src/middleware/errorHandler.ts:210-216 | the message is the given message, then the service in parentheses |
| `ErrorHandler.ClassesFirst` | backend/src/middleware/errorHandler.ts:102-120 | the four known classes answer with their own status, code and message, whatever their name or message says |
| `ErrorHandler.ConstructedRoundTrip` | backend/src/middleware/errorHandler.ts:21-43 | each constructor's error classifies back to the status and code it was built with |
| `ErrorHandler.UnmatchedIsInternal` | backend/src/middleware/errorHandler.ts:96-99 | an error matching no rule is an unexpected 500 `INTERNAL_ERROR` |
| `ErrorHandler.NameBeforeMessage` | backend/src/middleware/errorHandler.ts:127-139 | the `jwt` message test beats the `CastError` name test, and the `SyntaxError` name test beats the connection-failure test |
| `ErrorHandler.NamedValidation` | backend/src/middleware/errorHandler.ts:121-126 | a foreign `ValidationError` is a 400 whose details are its message |
| `ErrorHandler.Classify` | backend/src/middleware/errorHandler.ts:96-139 | the four classes keep their code and message; every other error gets 400, 401, 503 or 500; the answer is 401 exactly for a foreign `UnauthorizedError` or `jwt` message not named `ValidationError`, or a research error built with 401 |
| `ErrorHandler.MessageRules` | backend/src/middleware/errorHandler.ts:127-139 | a foreign error not named `ValidationError` is checked in source order: `UnauthorizedError` or a `jwt` message gives 401 `UNAUTHORIZED` "Authentication required"; else `CastError` or `SyntaxError` gives 400 `INVALID_QUERY` "Invalid request format"; else `ENOTFOUND` or `ECONNREFUSED` gives 503 `SERVICE_UNAVAILABLE` "External service unavailable"; else 500 `INTERNAL_ERROR` with the default message |
| `ErrorHandler.Mask` | backend/src/middleware/errorHandler.ts:142-145 | in production a 500 loses its message and details; nothing else changes |
| `ErrorHandler.MaskingOnly500` | backend/src/middleware/errorHandler.ts:141-160 | production and development responses agree on status and code, and differ only for a 500 |
| `ErrorHandler.DetailsOnlyWhenTruthy` | backend/src/middleware/errorHandler.ts:152 | the body carries details exactly when they are truthy |
| `ErrorHandler.RequestId` | backend/src/middleware/errorHandler.ts:77-78 | a non-empty `x-request-id` header is used, otherwise the random id |
| `ErrorHandler.HandleError` | backend/src/middleware/errorHandler.ts:70-160 | the response has the classified status and code, the given timestamp and the request id; details only when truthy; a production 500 shows the masked message and no details, every other response the classified message |
| `ErrorHandler.NotFound` | backend/src/middleware/errorHandler.ts:173-197 | 404 `RESOURCE_NOT_FOUND` with the message `Route METHOD URL not found`, no details, the given timestamp and the random request id |
| `Auth.ExtractToken` | backend/src/middleware/auth.ts:40-42 | with the exact `Bearer ` prefix the header is that prefix followed by the token; otherwise the whole header is the token |
| `Auth.BearerRoundTrip` | backend/src/middleware/auth.ts:40-42 | a bearer header gives back the credentials it was built from |
| `Auth.LowerCaseSchemeKept` | backend/src/middleware/auth.ts:40 | a lower-case `bearer ` header is taken whole |
| `Auth.ToAuthUser` | backend/src/middleware/auth.ts:118-123 | the user's id, email and role, and a name only when it is non-empty |
| `Auth.Secret` | backend/src/middleware/auth.ts:59 | `JWT_SECRET` when non-empty, otherwise `NEXTAUTH_SECRET`; a usable secret exists exactly when either is non-empty |
| `Auth.UserKey` | backend/src/middleware/auth.ts:79 | the `sub` claim when non-empty, otherwise `userId` |
| `Auth.AuthFailure` | backend/src/middleware/auth.ts:126-167 | a `JsonWebTokenError` is a 401 `INVALID_TOKEN` "Invalid token"; an expiry error that is not one is a 401 `TOKEN_EXPIRED` "Token expired"; anything else is a 500 `INTERNAL_ERROR` "Authentication failed" |
| `Auth.AuthMiddleware` | backend/src/middleware/auth.ts:18-168 | missing header, empty token and missing secret answer 401, 401 and 500 in that order; a failed verification or lookup is the classified failure; an unknown user and an inactive user are 401s; otherwise the request passes carrying the user found under the token's key |
| `Auth.AuthMiddlewareAccepts` | backend/src/middleware/auth.ts:75-125 | the request passes exactly when the token verifies and names an active user, and it then carries that user |
| `Auth.TokenExpiredUnreachable` | backend/src/middleware/auth.ts:129-155 | since an expiry error is also a `JsonWebTokenError`, `TOKEN_EXPIRED` is never sent |
| `Auth.OptionalAuthMiddleware` | backend/src/middleware/auth.ts:171-226 | it never answers, it always passes on |
| `Auth.OptionalAgreesWithStrict` | backend/src/middleware/auth.ts:199-220 | it sets exactly the user the strict middleware would accept, and no user whenever the strict one would refuse |
| `Auth.Allowed` | backend/src/middleware/auth.ts:245 | a single role behaves as a one-element list |
| `Auth.RequireRole` | backend/src/middleware/auth.ts:229-263 | 401 without a user, 403 for a role not listed, and passing on exactly for a listed role |
| `Auth.RequireRoleSingle` | backend/src/middleware/auth.ts:266 | a role equals its one-element list, and `requireAdmin` lets through exactly `ADMIN` |
| `Auth.RequireAdmin` | backend/src/middleware/auth.ts:266 | 401 without a user, passing on for an `ADMIN`, 403 for any other role |
| `Auth.ApiKeyAuth` | backend/src/middleware/auth.ts:269-377 | a missing key is a 401; a failing lookup a 500; an unknown or inactive key, an expired key and an inactive owner are 401s in that order; a failed touch a 500; otherwise the request passes as the owner and that key is touched; a key is touched exactly when the request passes |
| `Auth.ApiKeyAccepts` | backend/src/middleware/auth.ts:292-363 | the request passes exactly for a known, active, unexpired key of an active owner; that key is touched and its owner is the user |
| `Auth.ApiKeyRejections` | backend/src/middleware/auth.ts:277-376 | every refusal is a 401, except a failing lookup or update, which is a 500 |
| `SocketRegistry.Handshake` | backend/src/utils/socket.ts:29-78 | only a missing secret refuses the connection; an authenticated socket has a user id, and any other socket is anonymous |
| `SocketRegistry.HandshakeOutcomes` | backend/src/utils/socket.ts:31-63 | no token means anonymous; refusal exactly when a token exists but no secret; authenticated exactly when the token verifies and names an active user, whose id the socket carries |
| `SocketRegistry.HandshakeStripsInside` | backend/src/utils/socket.ts:44 | for any token whose first `Bearer ` starts after its first character, the handshake cuts exactly those seven characters while the HTTP middleware keeps the header whole, so the two disagree |
| `SocketRegistry.Registry.constructor` | backend/src/utils/socket.ts:15-16 | both maps start empty |
| `SocketRegistry.Registry.SocketsOf` | backend/src/utils/socket.ts:182-189 | the sockets `emitToUser` sends to: a user has sockets only when tracked, and then exactly the tracked set; under the invariant a user has sockets exactly when tracked |
| `SocketRegistry.Registry.Connect` | backend/src/utils/socket.ts:89-96 | a signed-in socket joins its user's set, which is created on first use; every socket starts with no sessions |
| `SocketRegistry.Registry.Join` | backend/src/utils/socket.ts:99-135 | an anonymous socket is refused; a join succeeds exactly for a signed-in socket whose lookup found the session, and records the session for a tracked socket |
| `SocketRegistry.Registry.Leave` | backend/src/utils/socket.ts:138-152 | the session is dropped from the socket's set, and the user map is untouched |
| `SocketRegistry.Registry.Disconnect` | backend/src/utils/socket.ts:155-174 | the socket leaves its user's set, an emptied user is forgotten, and the socket's sessions are forgotten |
| `SocketRegistry.Registry.ConnectedUsersCount` | backend/src/utils/socket.ts:249-251 | the number of tracked users, which under the invariant is the number of users with an open socket |
| `SocketRegistry.Registry.IsUserConnected` | backend/src/utils/socket.ts:254-256 | under the invariant, tracked exactly when the user has an open socket |
| `SocketRegistry.ConnectDisconnect` | backend/src/utils/socket.ts:89-169 | connecting then disconnecting a fresh socket of a user restores the user map |
| `ZodSchema.Field` | shared/types/index.ts:154-167 | a key's value exactly when the key is present |
| `ZodSchema.StringIn` | shared/types/index.ts:155 | accepted exactly for strings whose length is within the bounds |
| `ZodSchema.AnyString` | shared/types/index.ts:161 | accepted exactly for strings |
| `ZodSchema.Boolean` | shared/types/index.ts:160 | accepted exactly for booleans |
| `ZodSchema.NumberIn` | shared/types/index.ts:162 | accepted exactly for numbers within the bounds |
| `ZodSchema.ArrayOf` | shared/types/index.ts:158 | accepted exactly for arrays whose every element passes, parsed element by element |
| `ZodSchema.All` | shared/types/index.ts:158 | all elements parsed, or failure when any element fails |
| `ZodSchema.EncodeAll` | shared/types/index.ts:158 | each element encoded, in order |
| `ZodSchema.AllRoundTrip` | shared/types/index.ts:158 | parsing encoded elements gives them back when the parser inverts the encoding |
| `ZodSchema.Defaulted` | shared/types/index.ts:157 | the default when the key is absent, else the parsed value |
| `ZodSchema.Optional` | shared/types/index.ts:159 | an absent key stays absent, and a present value must parse |
| `SharedTypes.ParseSourceType` | shared/types/index.ts:54-61 | a parsed member's value is the string parsed |
| `SharedTypes.ParseResearchStatus` | shared/types/index.ts:34-40 | a parsed member's value is the string parsed |
| `SharedTypes.ParseJobType` | shared/types/index.ts:135-142 | a parsed member's value is the string parsed |
| `SharedTypes.ParseJobStatus` | shared/types/index.ts:144-151 | a parsed member's value is the string parsed |
| `SharedTypes.SourceTypeValues` | shared/types/index.js:20-28 | each value is lower case and parses back to its member |
| `SharedTypes.ResearchStatusValues` | shared/types/index.js:12-19 | each value is lower case and parses back to its member |
| `SharedTypes.JobTypeValues` | shared/types/index.js:29-37 | each value is lower case and parses back to its member |
| `SharedTypes.JobTypeLower` | shared/types/index.js:29-37 | no job type value holds an upper-case letter |
| `SharedTypes.JobStatusValues` | shared/types/index.js:38-46 | each value is lower case and parses back to its member |
| `SharedTypes.EnumValuesDistinct` | shared/types/index.ts:34-151 | no two members of an enum share a value |
| `SharedTypes.ParseDepth` | shared/types/index.ts:157 | accepted exactly for the three depth names |
| `SharedTypes.ParseTimeframe` | shared/types/index.ts:159 | a parsed timeframe is written as the string parsed |
| `SharedTypes.ParseCitationStyle` | shared/types/index.ts:165 | a parsed style is written as the string parsed |
| `SharedTypes.SourceTypeOf` | shared/types/index.ts:158 | a parsed source type is written as the value parsed |
| `SharedTypes.OptionsOf` | shared/types/index.ts:156-166 | parsed options have `maxSources` within 1 to 100 |
| `SharedTypes.ParseOptions` | shared/types/index.ts:156-166 | options that are not an object, `null` included, are refused |
| `SharedTypes.ParseResearchQuery` | shared/types/index.ts:154-167 | an accepted request has a query of 1 to 1000 characters, taken from its `query` key, and `maxSources` within 1 to 100 |
| `SharedTypes.DefaultsApply` | shared/types/index.js:50-60 | omitted and empty options both give every default, with no timeframe |
| `SharedTypes.Refusals` | shared/types/index.js:56 | a `maxSources` outside 1 to 100 and a `null` options value are refused |
| `SharedTypes.QueryBounds` | shared/types/index.js:49 | an empty query, or one over 1000 characters, is refused |
| `SharedTypes.UnknownKeysIgnored` | shared/types/index.ts:154-167 | keys the schema does not name do not change the outcome |
| `SharedTypes.OptionsOfFields` | shared/types/index.ts:156-166 | options whose every field parses come out as those fields |
| `SharedTypes.SourcesRoundTrip` | shared/types/index.ts:158 | written source types parse back |
| `SharedTypes.NamesRoundTrip` | shared/types/index.ts:157-165 | the depth, timeframe and citation-style names parse back |
| `SharedTypes.EnumFieldsRoundTrip` | shared/types/index.ts:157-165 | written enumerated option fields parse back |
| `SharedTypes.SourcesFieldRoundTrip` | shared/types/index.ts:158 | the written source list parses back to the same sources, in order |
| `SharedTypes.ScalarFieldsRoundTrip` | shared/types/index.ts:161-162 | the written language, and a `maxSources` within 1..100, parse back |
| `SharedTypes.FlagFieldsRoundTrip` | shared/types/index.ts:160-164 | written flag fields parse back |
| `SharedTypes.OptionsRoundTrip` | shared/types/index.ts:156-166 | valid options written as JSON parse back to themselves |
| `SharedTypes.ResearchQueryRoundTrip` | shared/types/index.ts:154-167 | a valid request written as JSON parses back to itself |
| `SharedTypes.NewResearchError` | shared/types/index.ts:240-250 | the status defaults to 500; name, message, code and details are as given |
| `SharedTypes.NewValidationError` | shared/types/index.ts:252-257 | `ValidationError`, `VALIDATION_ERROR`, 400 |
| `SharedTypes.NewRateLimitError` | shared/types/index.js:88-93 | `RateLimitError`, `RATE_LIMIT_ERROR`, 429, the given message, defaulting to "Rate limit exceeded" |
| `SharedTypes.NewExternalAPIError` | shared/types/index.ts:266-271 | `ExternalAPIError`, `EXTERNAL_API_ERROR`, 502 |
| `SharedTypes.ExternalDetails` | shared/types/index.ts:268 | the details always name a service: the given one unless the details carry their own; every given detail is kept |
| `SharedTypes.SharedValidationInBackend` | shared/types/index.ts:252-257 | the backend error handler treats a shared validation error by its name: 400 `INVALID_OPTIONS` with the message as details |
| `SharedTypes.SharedRateLimitInBackend` | shared/types/index.ts:259-264 | the backend error handler answers a shared rate-limit error with 500, not 429 |
| `SharedTypes.Absent` | shared/types/index.ts:261 | a text lacking a pattern's first character does not contain the pattern |
| `BackendTypes.ParseDateRange` | backend/src/types/index.ts:227-230 | only objects are accepted, and an empty one gives an empty range |
| `BackendTypes.ParseSessionOptions` | backend/src/types/index.ts:221-233 | only objects are accepted, and a given `maxSources` is within 1 to 100 |
| `BackendTypes.ParseCreate` | backend/src/types/index.ts:219-234 | the accepted query has 1 to 1000 characters and is the request's `query`; options only when given |
| `BackendTypes.ParseUpdate` | backend/src/types/index.ts:236-251 | accepted only as an object; the title is present exactly when the input has a `title` key, and is then that string of 1 to 200 characters; the options are present exactly when the input has an `options` key, and are then that value parsed by the session-options schema; a `title` outside the bounds refuses the update |
| `BackendTypes.UpdateTitleRefused` | backend/src/types/index.ts:237 | a `title` that is not a string of 1 to 200 characters refuses the update, whatever the other keys |
| `BackendTypes.UpdateRoundTrip` | backend/src/types/index.ts:236-251 | every update with a title in bounds and valid options is parsed back from its JSON encoding unchanged |
| `BackendTypes.NoDefaults` | backend/src/types/index.ts:221-233 | no defaults: empty options stay all-absent, and omitted options stay absent |
| `BackendTypes.MaxSourcesRefused` | backend/src/types/index.ts:223 | a `maxSources` outside 1 to 100 is refused |
| `BackendTypes.UpdateIgnoresQuery` | backend/src/types/index.ts:236-251 | an update ignores a `query` key |
| `BackendTypes.DateRangeBounds` | backend/src/types/index.ts:227-230 | one bound alone is accepted, and a bound that is not a string is refused |
| `BackendTypes.Encoded` | backend/src/types/index.ts:222-232 | an optional value is written exactly when present |
| `BackendTypes.Put` | backend/src/types/index.ts:222-232 | the key is present exactly when it already was or a value is written; other keys are untouched |
| `BackendTypes.DateRangeRoundTrip` | backend/src/types/index.ts:227-230 | a written date range parses back to itself |
| `BackendTypes.StringsRoundTrip` | backend/src/types/index.ts:222 | a written string list parses back to itself |
| `BackendTypes.SourceFieldsRoundTrip` | backend/src/types/index.ts:222-223 | the written source list and a `maxSources` within 1..100 parse back |
| `BackendTypes.FlagFieldsRoundTrip` | backend/src/types/index.ts:224-226 | the three written inclusion flags parse back, present or absent |
| `BackendTypes.ScopeFieldsRoundTrip` | backend/src/types/index.ts:227-232 | the written date range, language and region parse back, present or absent |
| `BackendTypes.SessionOptionsRoundTrip` | backend/src/types/index.ts:221-233 | valid session options written as JSON parse back to themselves |
| `BackendTypes.CreateRoundTrip` | backend/src/types/index.ts:219-234 | a valid create request written as JSON parses back to itself |

## Left out

- **Network, clock, randomness and environment.**
  - Outside calls are inputs, not calls. This covers `fetch` to arXiv, NewsAPI, Wikipedia, Unsplash and Pexels; the OpenAI and Replicate clients; `jwt.verify`; and Prisma.
  - `Promise.all`, the `setTimeout` delay and the moment a promise settles are not modelled. A settling method models what the callback does once it runs.
  - `Date`, `Math.random` and `process.env` are parameters.
- **Logging.** Logging (`logger`, `console.error`) and the `meta.timestamp` of auth responses are left out: they do not affect any result.
- **JavaScript strings.**
  - `Text.ToLower` folds only ASCII letters. `toLowerCase` also folds other scripts.
  - Lengths count characters, not UTF-16 code units.
- **Queries that are not strings.** A query that is a number or an object is truthy in the source and would reach `toLowerCase`. `Sessions.Body` holds only string queries.
- **Malformed body in the Express server.** `Sessions.SessionStore.Post` answers an unreadable body with 500 "Internal server error", as the Next.js routes do. In the Express server, `express.json` rejects such a body before the handler runs, with its own response.
- **Spreading values that are not objects.**
  - `Json.OwnFields`: a non-object contributes no keys, but spreading a string or an array in JavaScript copies its characters or elements under index keys.
  - `EnhancedResearch.AIResearch`: a reply that parses to a string or an array therefore gains no keys in this model. The same holds for `SharedTypes.NewExternalAPIError`'s details.
- **Missing values.**
  - `Records.Image` does not distinguish a `null` description from an absent one.
  - News article fields read through `article.source.name` are assumed present. An article without `source` makes the source throw, and the whole news group becomes empty.
  - `NewsRecord`: the article's `title`, `url` and `publishedAt` are modelled as strings that are always there. In JavaScript a missing one is `undefined`, and its key is then dropped from the JSON record.
  - `WikiRecord`: the page's `title`, `extract` and desktop page URL are modelled as strings that are always there. In JavaScript a missing one (the URL is read through `?.`) is `undefined`, and its key is then dropped from the JSON record.
- **Replicate output.** `Comprehensive.Visualization` takes the first model output as given. An empty output array, whose `output[0]` is `undefined`, is not modelled.
- **Unreachable `.catch` handlers.**
  - `SettleComprehensiveFailure` is modelled, but it cannot be reached from `ComprehensiveResearch`: `performComprehensiveResearch` catches every error and returns the fallback.
  - `SettleEnhancedFailure` is modelled, but it cannot be reached from `AIResearch` either: `performAIResearch` catches every error of the completion and answers with the fallback, and `getResearchImages` catches its own errors.
- **zod error reports.** The issues zod reports on a refused request are not modelled; a refusal is `None`.
- **Timestamps.** The expiry test in `Auth.ApiKeyAuth` compares integer timestamps.
- **Socket.IO.**
  - Rooms (`socket.join`, `socket.leave`), event emission, `emitToSession` and its wrappers, and `getSessionParticipantsCount` are Socket.IO internals and are not modelled.
  - `socket.sessionIds` mirrors `socketSessions` and is not kept separately.
  - Joins are modelled once the asynchronous lookup has answered.
- **Express plumbing.** `asyncHandler`, the error helpers `createValidationError` and `createRateLimitError` (which only call the constructors modelled as `ErrorHandler.NewValidationError` and `ErrorHandler.NewRateLimitError`), and the health and 404 routes of the Express server are not modelled.

## Findings

| source | as written | input that shows it | evidently intended | confidence | as-written member | corrected member |
|---|---|---|---|---|---|---|
| app/api/research/[sessionId]/route.js:4 | the session lookup route declares its own `new Map()`, which no handler ever fills, so its GET answers 404 for every id | POST `{ "query": "x" }` to the research route, which returns `session_1`, then GET `/api/research/session_1` | look the id up in the store that created it, as the comment on line 3 says | high, not executed | `Sessions.DetachedGet` | `Sessions.PostThenGet` |

=== FILE: arxiv_feed.dfy ===
/** The tolerant arXiv Atom-feed reader of the comprehensive research route
    (`fetchArxivPapers`).  It is not an XML parser: the feed text is split on the
    literal `<entry>` marker, the piece before the first marker is dropped, and each
    remaining piece is searched for `<title>`, `<summary>` and `<id>` elements
    (the `atom:title`, `atom:summary` and `atom:id` elements of an `atom:entry`,
    sections 4.1.2, 4.2.13, 4.2.14 and 4.2.6 of RFC 4287). */
module ArxivFeed {
  import opened Wrappers
  import opened Text
  import opened Records

  const EntryMarker := "<entry>"
  const SummaryBudget := 200
  const Ellipsis := "..."
  const UrlFallback := "#"

  /** `open` occurs at `i` and at no earlier index. */
  predicate FirstAt(s: string, open: string, i: nat) {
    OccursAt(s, open, i) && forall k :: 0 <= k < i ==> !OccursAt(s, open, k)
  }

  /** `v` starts at `b` and is followed by `close`, which occurs nowhere earlier from `b` on:
      what the lazy group `(.*?)` captures when `close` follows it. */
  predicate LazyBody(s: string, close: string, b: nat, v: string) {
    b + |v| <= |s| && s[b..b + |v|] == v && OccursAt(s, close, b + |v|)
    && forall k :: b <= k < b + |v| ==> !OccursAt(s, close, k)
  }

  /** Capture group 1 of `s.match(/open(.*?)close/s)`: the text between the first `open` and
      the first `close` after it, or nothing when there is no such pair. */
  function ExtractTag(s: string, open: string, close: string): (r: Option<string>)
    ensures r.Some? ==> exists i: nat :: FirstAt(s, open, i) && LazyBody(s, close, i + |open|, r.value)
    ensures r.None? <==> forall i: nat, j: nat ::
      OccursAt(s, open, i) && i + |open| <= j ==> !OccursAt(s, close, j)
  {
    match FindFrom(s, open, 0)
    case None => None
    case Some(i) =>
      match FindFrom(s, close, i + |open|)
      case None =>
        assert (forall i': nat, j: nat :: OccursAt(s, open, i') && i' + |open| <= j
                  ==> !OccursAt(s, close, j)) by {
          forall i': nat, j: nat | OccursAt(s, open, i') && i' + |open| <= j
            ensures !OccursAt(s, close, j) {
            assert i <= i';
          }
        }
        None
      case Some(j) =>
        assert FirstAt(s, open, i);
        assert LazyBody(s, close, i + |open|, s[i + |open|..j]);
        Some(s[i + |open|..j])
  }

  /** `v` holds no line terminator. */
  predicate SingleLine(v: string) {
    forall k :: 0 <= k < |v| ==> !IsLineTerminator(v[k])
  }

  /** Where the lazy group `(.*?)` without the `s` flag stops when it starts at `b`: it
      tries `close` at each position in turn and steps over one character otherwise, which
      may not be a line terminator; nothing when it reaches one, or the end, first. */
  function LineClose(s: string, close: string, b: nat): (r: Option<nat>)
    decreases |s| - b
    ensures r.Some? ==> b <= r.value && OccursAt(s, close, r.value)
    ensures r.Some? ==> forall k :: b <= k < r.value ==> !OccursAt(s, close, k) && !IsLineTerminator(s[k])
    ensures r.None? ==> forall e: nat :: b <= e && OccursAt(s, close, e) ==>
      exists k :: b <= k < e && IsLineTerminator(s[k])
  {
    if OccursAt(s, close, b) then Some(b)
    else if b < |s| && !IsLineTerminator(s[b]) then LineClose(s, close, b + 1)
    else None
  }

  /** The regular expression matches at `i` without the `s` flag: `open` occurs there and
      the lazy group after it reaches `close` before any line terminator. */
  predicate Viable(s: string, open: string, close: string, i: nat) {
    OccursAt(s, open, i) && LineClose(s, close, i + |open|).Some?
  }

  /** `i` is the first start position at or after `from` where the match succeeds. */
  predicate FirstViable(s: string, open: string, close: string, from: nat, i: nat) {
    from <= i && Viable(s, open, close, i) && forall k: nat :: from <= k < i ==> !Viable(s, open, close, k)
  }

  /** The body a match at `i` captures: the text up to the first `close` after `open`. */
  function LineBody(s: string, open: string, close: string, i: nat): (v: string)
    requires Viable(s, open, close, i)
    ensures SingleLine(v) && LazyBody(s, close, i + |open|, v)
  {
    var e := LineClose(s, close, i + |open|).value;
    s[i + |open|..e]
  }

  /** Capture group 1 of `s.match(/open(.*?)close/)` without the `s` flag, trying start
      positions from `from` on: the capture may not cross a line terminator, so an `open`
      whose lazy group meets a line break before `close` fails and the search moves on to
      the next start position. */
  function ExtractLineTag(s: string, open: string, close: string, from: nat): (r: Option<string>)
    decreases |s| + 1 - from
    ensures r.Some? ==> SingleLine(r.value)
  {
    if |s| < from then None
    else if Viable(s, open, close, from) then Some(LineBody(s, open, close, from))
    else ExtractLineTag(s, open, close, from + 1)
  }

  /** The capture comes from the first start position at or after `from` where the match
      succeeds. */
  lemma {:induction false} ExtractLineTagFirst(s: string, open: string, close: string, from: nat)
    decreases |s| + 1 - from
    ensures var r := ExtractLineTag(s, open, close, from);
      r.Some? ==> exists i: nat :: FirstViable(s, open, close, from, i) && LazyBody(s, close, i + |open|, r.value)
  {
    if |s| < from {
    } else if Viable(s, open, close, from) {
      assert FirstViable(s, open, close, from, from);
    } else {
      ExtractLineTagFirst(s, open, close, from + 1);
      var rest := ExtractLineTag(s, open, close, from + 1);
      if rest.Some? {
        var k: nat :| FirstViable(s, open, close, from + 1, k) && LazyBody(s, close, k + |open|, rest.value);
        assert FirstViable(s, open, close, from, k);
      }
    }
  }

  /** A match at any start position from `from` on yields a capture. */
  lemma {:induction false} ViableCaptures(s: string, open: string, close: string, from: nat, k: nat)
    requires from <= k && Viable(s, open, close, k)
    decreases k - from
    ensures ExtractLineTag(s, open, close, from).Some?
  {
    if from < k && !Viable(s, open, close, from) {
      ViableCaptures(s, open, close, from + 1, k);
    }
  }

  /** There is no capture exactly when the match succeeds at no start position from
      `from` on. */
  lemma ExtractLineTagNone(s: string, open: string, close: string, from: nat)
    ensures ExtractLineTag(s, open, close, from).None? <==> forall i: nat :: from <= i ==> !Viable(s, open, close, i)
  {
    if ExtractLineTag(s, open, close, from).None? {
      forall i: nat | from <= i ensures !Viable(s, open, close, i) {
        if Viable(s, open, close, i) {
          ViableCaptures(s, open, close, from, i);
        }
      }
    } else {
      ExtractLineTagFirst(s, open, close, from);
    }
  }

  /** `s.substring(0, n)`: the first `n` characters, or all of `s` when it is shorter. */
  function Prefix(s: string, n: nat): (r: string)
    ensures |r| <= n && |r| <= |s|
    ensures r == s[..|r|]
    ensures |s| <= n ==> r == s
  {
    if |s| <= n then s else s[..n]
  }

  /** `text.trim().replace(/\n\s+/g, ' ')`. */
  function Normalise(text: string): (r: string)
    ensures NoBreakRun(r)
    ensures |r| <= |text|
    ensures Visible(r) == Visible(text)
  {
    CollapseBreaksClean(Trim(text));
    CollapseBreaksVisible(Trim(text));
    CollapseBreaks(Trim(text))
  }

  /** A title already in normal form is left exactly as it is: spaces between words stay. */
  lemma NormaliseClean(text: string)
    requires text == [] || (!IsSpace(text[0]) && !IsSpace(text[|text| - 1]))
    requires NoBreakRun(text)
    ensures Normalise(text) == text
  {
    TrimTrimmed(text);
    CollapseBreaksFixpoint(text);
  }

  /** Two lines joined by a line break and indentation become the two lines with one space
      between them. */
  lemma NormaliseJoinsLines(x: string, w: string, y: string)
    requires x != [] && !IsSpace(x[0]) && x[|x| - 1] != '\n' && NoBreakRun(x)
    requires w != [] && forall k :: 0 <= k < |w| ==> IsSpace(w[k])
    requires y != [] && !IsSpace(y[0]) && !IsSpace(y[|y| - 1]) && NoBreakRun(y)
    ensures Normalise(x + ("\n" + w + y)) == x + (" " + y)
  {
    var s := x + ("\n" + w + y);
    assert s[0] == x[0] && s[|s| - 1] == y[|y| - 1];
    TrimTrimmed(s);
    CollapseBreaksMiddle(x, w, y);
    CollapseBreaksFixpoint(y);
  }

  /** A record the feed reader produces. */
  predicate WellFormedPaper(p: Source) {
    && p.source == "arXiv"
    && p.kind == "academic"
    && p.url.Some?
    && p.summary.Some?
    && |p.summary.value| <= SummaryBudget + |Ellipsis|
    && EndsWith(p.summary.value, Ellipsis)
    && NoBreakRun(p.title)
    && p.publishedAt.None?
  }

  /** One piece of the feed turned into a paper: it needs both a title and a summary,
      otherwise it is skipped; the link falls back to `'#'`. */
  function ParseEntry(piece: string): (r: Option<Source>)
    ensures r.Some? ==> WellFormedPaper(r.value)
    ensures r.Some? <==> (ExtractTag(piece, "<title>", "</title>").Some?
                          && ExtractTag(piece, "<summary>", "</summary>").Some?)
    ensures r.Some? ==>
      && r.value.title == Normalise(ExtractTag(piece, "<title>", "</title>").value)
      && r.value.summary == Some(Prefix(Normalise(ExtractTag(piece, "<summary>", "</summary>").value),
                                        SummaryBudget) + Ellipsis)
      && var link := ExtractLineTag(piece, "<id>", "</id>", 0);
         r.value.url == Some(if link.Some? then Trim(link.value) else UrlFallback)
  {
    var title := ExtractTag(piece, "<title>", "</title>");
    var summary := ExtractTag(piece, "<summary>", "</summary>");
    var link := ExtractLineTag(piece, "<id>", "</id>", 0);
    if title.Some? && summary.Some? then
      var text := Prefix(Normalise(summary.value), SummaryBudget) + Ellipsis;
      assert EndsWith(text, Ellipsis);
      Some(Source(
        title := Normalise(title.value),
        summary := Some(text),
        url := Some(if link.Some? then Trim(link.value) else UrlFallback),
        source := "arXiv",
        kind := "academic",
        publishedAt := None))
    else None
  }

  /** A present value as a one-element list, an absent one as the empty list. */
  function AsList<B>(x: Option<B>): (r: seq<B>)
    ensures |r| <= 1
  {
    match x
    case Some(b) => [b]
    case None => []
  }

  /** `f` applied to each element of `s`, keeping the results that are present, in order. */
  function FilterMap<A, B>(f: A -> Option<B>, s: seq<A>): (r: seq<B>)
    ensures |r| <= |s|
  {
    if |s| == 0 then [] else AsList(f(s[0])) + FilterMap(f, s[1..])
  }

  /** FilterMap is piecewise: it distributes over concatenation. */
  lemma {:induction false} FilterMapAppend<A, B>(f: A -> Option<B>, a: seq<A>, b: seq<A>)
    ensures FilterMap(f, a + b) == FilterMap(f, a) + FilterMap(f, b)
  {
    if |a| == 0 {
      assert a + b == b;
    } else {
      assert (a + b)[0] == a[0];
      assert (a + b)[1..] == a[1..] + b;
      FilterMapAppend(f, a[1..], b);
    }
  }

  /** Filter-mapping one more element appends that element's result, if present. */
  lemma FilterMapSnoc<A, B>(f: A -> Option<B>, s: seq<A>, i: nat)
    requires i < |s|
    ensures FilterMap(f, s[..i + 1]) == FilterMap(f, s[..i]) + AsList(f(s[i]))
  {
    FilterMapAppend(f, s[..i], [s[i]]);
    assert s[..i + 1] == s[..i] + [s[i]];
    assert [s[i]][1..] == [];
  }

  /** The papers of the given pieces, each piece parsed on its own, in order. */
  function PapersOf(pieces: seq<string>): (r: seq<Source>)
    ensures |r| <= |pieces|
  {
    FilterMap(ParseEntry, pieces)
  }

  /** Every paper the pieces yield has the reader's shape. */
  lemma {:induction false} PapersWellFormed(pieces: seq<string>)
    ensures forall k :: 0 <= k < |PapersOf(pieces)| ==> WellFormedPaper(PapersOf(pieces)[k])
  {
    if |pieces| > 0 {
      PapersWellFormed(pieces[1..]);
      assert PapersOf(pieces) == AsList(ParseEntry(pieces[0])) + PapersOf(pieces[1..]);
    }
  }

  /** A single piece yields its paper, if it has one. */
  lemma PapersOfOne(piece: string)
    ensures PapersOf([piece]) == AsList(ParseEntry(piece))
  {
    assert [piece][1..] == [];
  }

  /** Parsing is piecewise: the papers of two runs of pieces are the papers of each run,
      concatenated. */
  lemma PapersOfAppend(a: seq<string>, b: seq<string>)
    ensures PapersOf(a + b) == PapersOf(a) + PapersOf(b)
  {
    FilterMapAppend(ParseEntry, a, b);
  }

  /** The papers of a feed: the text before the first `<entry>` is dropped and every later
      piece is parsed. */
  function ArxivPapers(xml: string): (r: seq<Source>)
    ensures |r| <= CountOccurrences(xml, EntryMarker)
    ensures forall k :: 0 <= k < |r| ==> WellFormedPaper(r[k])
  {
    var pieces := Split(xml, EntryMarker);
    SplitLength(xml, EntryMarker);
    PapersWellFormed(pieces[1..]);
    PapersOf(pieces[1..])
  }

  /** A feed without any `<entry>` marker yields no paper, whatever else it holds. */
  lemma ArxivNoEntries(xml: string)
    requires !Contains(xml, EntryMarker)
    ensures ArxivPapers(xml) == []
  {
    CountOccurrencesZero(xml, EntryMarker);
  }

  /** The `forEach` of `fetchArxivPapers`: each entry piece is parsed and, when it yields
      a paper, the paper is pushed onto `papers`. */
  method CollectPapers(entries: seq<string>) returns (papers: seq<Source>)
    ensures papers == PapersOf(entries)
  {
    papers := [];
    for i := 0 to |entries|
      invariant papers == PapersOf(entries[..i])
    {
      var parsed := ParseEntry(entries[i]);
      FilterMapSnoc(ParseEntry, entries, i);
      if parsed.Some? {
        papers := papers + [parsed.value];
      }
    }
    assert entries[..|entries|] == entries;
  }

  /** `fetchArxivPapers` once the response text is in hand. */
  method ParseFeed(xml: string) returns (papers: seq<Source>)
    ensures papers == ArxivPapers(xml)
    ensures |papers| <= CountOccurrences(xml, EntryMarker)
    ensures forall k :: 0 <= k < |papers| ==> WellFormedPaper(papers[k])
  {
    var pieces := Split(xml, EntryMarker);
    SplitLength(xml, EntryMarker);
    papers := CollectPapers(pieces[1..]);
  }
}

=== FILE: auth.dfy ===
/** The backend's authentication middlewares: bearer-token extraction (section 2.1 of
    RFC 6750, with a case-sensitive scheme), the JWT middleware and its optional twin, the
    role guard, and the API-key middleware.  `jwt.verify` and the database lookups are
    oracles handed in as functions; what a middleware does to the response and to `next`
    is its returned outcome. */
module Auth {
  import opened Wrappers
  import opened Text

  const Unauthorized := "UNAUTHORIZED"
  const InvalidToken := "INVALID_TOKEN"
  const TokenExpired := "TOKEN_EXPIRED"
  const InternalError := "INTERNAL_ERROR"
  const InsufficientPermissions := "INSUFFICIENT_PERMISSIONS"

  const BearerPrefix := "Bearer "

  /** A user row as the lookups select it. */
  datatype DbUser = DbUser(id: string, email: string, name: Option<string>, role: string, isActive: bool)

  /** `req.user`. */
  datatype AuthUser = AuthUser(id: string, email: string, name: Option<string>, role: string)

  /** The claims of a verified token that the lookup reads. */
  datatype Claims = Claims(sub: Option<string>, userId: Option<string>)

  /** A thrown error, as far as the `instanceof` tests can tell it apart. */
  datatype Exception = Exception(isJsonWebTokenError: bool, isTokenExpiredError: bool)

  /** What a middleware does: writes exactly one error response without calling `next`, or
      calls `next` exactly once, with `req.user` set or left alone. */
  datatype Outcome =
    | Respond(status: nat, code: string, message: string)
    | Continue(user: Option<AuthUser>)

  /** The token of an `Authorization` header: with the `Bearer ` prefix (exact case) its
      first seven characters are dropped, otherwise the header is taken whole. */
  function ExtractToken(header: string): (token: string)
    ensures StartsWith(header, BearerPrefix) ==> header == BearerPrefix + token
    ensures !StartsWith(header, BearerPrefix) ==> token == header
  {
    if StartsWith(header, BearerPrefix) then header[|BearerPrefix|..] else header
  }

  /** A bearer header gives back exactly the credentials it was built from. */
  lemma BearerRoundTrip(credentials: string)
    ensures ExtractToken(BearerPrefix + credentials) == credentials
  {
    assert (BearerPrefix + credentials)[..|BearerPrefix|] == BearerPrefix;
  }

  /** The scheme test is case-sensitive: a lower-case `bearer ` header is used whole. */
  lemma LowerCaseSchemeKept(credentials: string)
    ensures ExtractToken("bearer " + credentials) == "bearer " + credentials
  {
    assert ("bearer " + credentials)[0] == 'b';
  }

  /** `JWT_SECRET || NEXTAUTH_SECRET`. */
  function Secret(jwtSecret: Option<string>, nextAuthSecret: Option<string>): (r: Option<string>)
    ensures jwtSecret.Some? && jwtSecret.value != "" ==> r == jwtSecret
    ensures jwtSecret.None? || jwtSecret.value == "" ==> r == nextAuthSecret
    ensures r.Some? && r.value != "" <==>
      (jwtSecret.Some? && jwtSecret.value != "") || (nextAuthSecret.Some? && nextAuthSecret.value != "")
  {
    OrElse(jwtSecret, nextAuthSecret)
  }

  /** `decoded.sub || decoded.userId`. */
  function UserKey(c: Claims): (r: Option<string>)
    ensures c.sub.Some? && c.sub.value != "" ==> r == c.sub
    ensures c.sub.None? || c.sub.value == "" ==> r == c.userId
  {
    OrElse(c.sub, c.userId)
  }

  /** The user a request is authenticated as: `name || undefined`. */
  function ToAuthUser(u: DbUser): (r: AuthUser)
    ensures r.id == u.id && r.email == u.email && r.role == u.role
    ensures r.name.Some? <==> u.name.Some? && u.name.value != ""
  {
    AuthUser(u.id, u.email, if u.name.Some? && u.name.value != "" then u.name else None, u.role)
  }

  /** The `catch` of `authMiddleware`: `JsonWebTokenError` is tested before
      `TokenExpiredError`; anything else is a 500. */
  function AuthFailure(e: Exception): (r: Outcome)
    ensures r.Respond?
    ensures e.isJsonWebTokenError ==> r == Respond(401, InvalidToken, "Invalid token")
    ensures r.code == TokenExpired <==> !e.isJsonWebTokenError && e.isTokenExpiredError
    ensures !e.isJsonWebTokenError && e.isTokenExpiredError ==> r == Respond(401, TokenExpired, "Token expired")
    ensures !e.isJsonWebTokenError && !e.isTokenExpiredError ==>
      r == Respond(500, InternalError, "Authentication failed")
  {
    if e.isJsonWebTokenError then Respond(401, InvalidToken, "Invalid token")
    else if e.isTokenExpiredError then Respond(401, TokenExpired, "Token expired")
    else Respond(500, InternalError, "Authentication failed")
  }

  /** The library's class hierarchy: `TokenExpiredError` extends `JsonWebTokenError`. */
  predicate LibraryHierarchy(e: Exception) {
    e.isTokenExpiredError ==> e.isJsonWebTokenError
  }

  /** A non-empty `Authorization` header whose token is non-empty. */
  predicate HasToken(header: Option<string>) {
    header.Some? && header.value != "" && ExtractToken(header.value) != ""
  }

  /** One of the two secrets is set and non-empty. */
  predicate HasSecret(jwtSecret: Option<string>, nextAuthSecret: Option<string>) {
    Secret(jwtSecret, nextAuthSecret).Some? && Secret(jwtSecret, nextAuthSecret).value != ""
  }

  /** `authMiddleware`: missing header, empty token, missing secret, verification, unknown
      user and inactive user are checked in that order. */
  function AuthMiddleware(header: Option<string>, jwtSecret: Option<string>, nextAuthSecret: Option<string>,
                          verify: (string, string) -> Result<Claims, Exception>,
                          findUser: Option<string> -> Result<Option<DbUser>, Exception>): (r: Outcome)
    ensures header.None? || header.value == "" ==>
      r == Respond(401, Unauthorized, "Authorization header required")
    ensures header.Some? && header.value != "" && ExtractToken(header.value) == "" ==>
      r == Respond(401, Unauthorized, "Token required")
    ensures HasToken(header) && !HasSecret(jwtSecret, nextAuthSecret) ==>
      r == Respond(500, InternalError, "Authentication configuration error")
    ensures HasToken(header) && HasSecret(jwtSecret, nextAuthSecret) ==>
      var v := verify(ExtractToken(header.value), Secret(jwtSecret, nextAuthSecret).value);
      && (v.Failure? ==> r == AuthFailure(v.error))
      && (v.Success? ==>
            var found := findUser(UserKey(v.value));
            && (found.Failure? ==> r == AuthFailure(found.error))
            && (found.Success? && found.value.None? ==> r == Respond(401, Unauthorized, "User not found"))
            && (found.Success? && found.value.Some? && !found.value.value.isActive ==>
                  r == Respond(401, Unauthorized, "Account is inactive"))
            && (found.Success? && found.value.Some? && found.value.value.isActive ==>
                  r == Continue(Some(ToAuthUser(found.value.value)))))
    ensures r.Continue? ==> r.user.Some?
  {
    if header.None? || header.value == "" then
      Respond(401, Unauthorized, "Authorization header required")
    else
      var token := ExtractToken(header.value);
      if token == "" then Respond(401, Unauthorized, "Token required")
      else
        var secret := Secret(jwtSecret, nextAuthSecret);
        if secret.None? || secret.value == "" then
          Respond(500, InternalError, "Authentication configuration error")
        else
          match verify(token, secret.value)
          case Failure(e) => AuthFailure(e)
          case Success(claims) =>
            match findUser(UserKey(claims))
            case Failure(e) => AuthFailure(e)
            case Success(None) => Respond(401, Unauthorized, "User not found")
            case Success(Some(u)) =>
              if !u.isActive then Respond(401, Unauthorized, "Account is inactive")
              else Continue(Some(ToAuthUser(u)))
  }

  /** The request reaches the handler exactly when the token verifies and names an active
      user, and then it carries that user. */
  lemma AuthMiddlewareAccepts(header: Option<string>, jwtSecret: Option<string>, nextAuthSecret: Option<string>,
                              verify: (string, string) -> Result<Claims, Exception>,
                              findUser: Option<string> -> Result<Option<DbUser>, Exception>)
    ensures var r := AuthMiddleware(header, jwtSecret, nextAuthSecret, verify, findUser);
      r.Continue? <==>
        && header.Some? && header.value != "" && ExtractToken(header.value) != ""
        && Secret(jwtSecret, nextAuthSecret).Some? && Secret(jwtSecret, nextAuthSecret).value != ""
        && var v := verify(ExtractToken(header.value), Secret(jwtSecret, nextAuthSecret).value);
           && v.Success?
           && findUser(UserKey(v.value)).Success?
           && findUser(UserKey(v.value)).value.Some?
           && findUser(UserKey(v.value)).value.value.isActive
           && r.user == Some(ToAuthUser(findUser(UserKey(v.value)).value.value))
  {
  }

  /** With the library's hierarchy, the `TOKEN_EXPIRED` branch is never taken: an expired
      token is reported as `INVALID_TOKEN`. */
  lemma TokenExpiredUnreachable(header: Option<string>, jwtSecret: Option<string>, nextAuthSecret: Option<string>,
                                verify: (string, string) -> Result<Claims, Exception>,
                                findUser: Option<string> -> Result<Option<DbUser>, Exception>)
    requires forall t, s :: verify(t, s).Failure? ==> LibraryHierarchy(verify(t, s).error)
    requires forall k :: findUser(k).Failure? ==> LibraryHierarchy(findUser(k).error)
    ensures var r := AuthMiddleware(header, jwtSecret, nextAuthSecret, verify, findUser);
      r.Respond? ==> r.code != TokenExpired
  {
  }

  /** `optionalAuthMiddleware`: never answers; it sets the user only when the token
      verifies and names an active user, and swallows every failure. */
  function OptionalAuthMiddleware(header: Option<string>, jwtSecret: Option<string>, nextAuthSecret: Option<string>,
                                  verify: (string, string) -> Result<Claims, Exception>,
                                  findUser: Option<string> -> Result<Option<DbUser>, Exception>): (r: Outcome)
    ensures r.Continue?
  {
    if header.None? || header.value == "" then Continue(None)
    else
      var token := ExtractToken(header.value);
      if token == "" then Continue(None)
      else
        var secret := Secret(jwtSecret, nextAuthSecret);
        if secret.None? || secret.value == "" then Continue(None)
        else
          match verify(token, secret.value)
          case Failure(_) => Continue(None)
          case Success(claims) =>
            match findUser(UserKey(claims))
            case Success(Some(u)) =>
              if u.isActive then Continue(Some(ToAuthUser(u))) else Continue(None)
            case _ => Continue(None)
  }

  /** The optional middleware sets exactly the user the strict one would accept, and
      nothing whenever the strict one would answer with an error. */
  lemma OptionalAgreesWithStrict(header: Option<string>, jwtSecret: Option<string>, nextAuthSecret: Option<string>,
                                 verify: (string, string) -> Result<Claims, Exception>,
                                 findUser: Option<string> -> Result<Option<DbUser>, Exception>)
    ensures var strict := AuthMiddleware(header, jwtSecret, nextAuthSecret, verify, findUser);
      OptionalAuthMiddleware(header, jwtSecret, nextAuthSecret, verify, findUser)
        == if strict.Continue? then strict else Continue(None)
  {
  }

  /** The roles `requireRole` is given: one name or a list of names. */
  datatype Roles = One(role: string) | Many(roles: seq<string>)

  /** `Array.isArray(roles) ? roles : [roles]`. */
  function Allowed(roles: Roles): (r: seq<string>)
    ensures roles.One? ==> r == [roles.role]
  {
    match roles
    case One(role) => [role]
    case Many(rs) => rs
  }

  /** The guard `requireRole(roles)` builds: 401 without a user, 403 for a role outside the
      list, otherwise the request goes on unchanged. */
  function RequireRole(roles: Roles, user: Option<AuthUser>): (r: Outcome)
    ensures user.None? ==> r == Respond(401, Unauthorized, "Authentication required")
    ensures user.Some? ==> (r == Continue(user) <==> user.value.role in Allowed(roles))
    ensures user.Some? && user.value.role !in Allowed(roles) ==>
      r == Respond(403, InsufficientPermissions, "Insufficient permissions")
  {
    if user.None? then Respond(401, Unauthorized, "Authentication required")
    else if user.value.role !in Allowed(roles) then
      Respond(403, InsufficientPermissions, "Insufficient permissions")
    else Continue(user)
  }

  /** `requireAdmin`. */
  function RequireAdmin(user: Option<AuthUser>): (r: Outcome)
    ensures user.None? ==> r == Respond(401, Unauthorized, "Authentication required")
    ensures user.Some? && user.value.role == "ADMIN" ==> r == Continue(user)
    ensures user.Some? && user.value.role != "ADMIN" ==>
      r == Respond(403, InsufficientPermissions, "Insufficient permissions")
  {
    RequireRole(One("ADMIN"), user)
  }

  /** A single role behaves as the one-element list, and `requireAdmin` lets through
      exactly the `ADMIN` role. */
  lemma RequireRoleSingle(role: string, user: Option<AuthUser>)
    ensures RequireRole(One(role), user) == RequireRole(Many([role]), user)
    ensures user.Some? ==> (RequireAdmin(user).Continue? <==> user.value.role == "ADMIN")
  {
  }

  /** An API-key row with its owner. */
  datatype KeyRecord = KeyRecord(id: string, isActive: bool, expiresAt: Option<int>, user: DbUser)

  /** What `apiKeyAuthMiddleware` does: its outcome, and the key whose `lastUsedAt` it set
      to the current time, if any. */
  datatype KeyAuth = KeyAuth(outcome: Outcome, touched: Option<string>)

  /** `apiKeyAuthMiddleware`: missing key, unknown or inactive key, expired key and inactive
      owner are checked in that order, each a 401; a failing lookup or touch is a 500; on
      success the key's `lastUsedAt` is set and the owner becomes the user. */
  function ApiKeyAuth(apiKey: Option<string>, findKey: string -> Result<Option<KeyRecord>, Exception>,
                      touchOk: bool, now: int): (r: KeyAuth)
    ensures r.touched.Some? <==> r.outcome.Continue?
    ensures apiKey.None? || apiKey.value == "" ==> r.outcome == Respond(401, Unauthorized, "API key required")
    ensures apiKey.Some? && apiKey.value != "" ==>
      var found := findKey(apiKey.value);
      && (found.Failure? ==> r.outcome == Respond(500, InternalError, "Authentication failed"))
      && (found.Success? && (found.value.None? || !found.value.value.isActive) ==>
            r.outcome == Respond(401, Unauthorized, "Invalid API key"))
      && (found.Success? && found.value.Some? && found.value.value.isActive ==>
            var k := found.value.value;
            var expired := k.expiresAt.Some? && k.expiresAt.value < now;
            && (expired ==> r.outcome == Respond(401, Unauthorized, "API key expired"))
            && (!expired && !k.user.isActive ==>
                  r.outcome == Respond(401, Unauthorized, "User account is inactive"))
            && (!expired && k.user.isActive && !touchOk ==>
                  r.outcome == Respond(500, InternalError, "Authentication failed"))
            && (!expired && k.user.isActive && touchOk ==>
                  r == KeyAuth(Continue(Some(ToAuthUser(k.user))), Some(k.id))))
  {
    if apiKey.None? || apiKey.value == "" then KeyAuth(Respond(401, Unauthorized, "API key required"), None)
    else
      match findKey(apiKey.value)
      case Failure(_) => KeyAuth(Respond(500, InternalError, "Authentication failed"), None)
      case Success(None) => KeyAuth(Respond(401, Unauthorized, "Invalid API key"), None)
      case Success(Some(k)) =>
        if !k.isActive then KeyAuth(Respond(401, Unauthorized, "Invalid API key"), None)
        else if k.expiresAt.Some? && k.expiresAt.value < now then
          KeyAuth(Respond(401, Unauthorized, "API key expired"), None)
        else if !k.user.isActive then KeyAuth(Respond(401, Unauthorized, "User account is inactive"), None)
        else if !touchOk then KeyAuth(Respond(500, InternalError, "Authentication failed"), None)
        else KeyAuth(Continue(Some(ToAuthUser(k.user))), Some(k.id))
  }

  /** A request goes through on an API key exactly when the key is known, active, not
      expired and owned by an active user; the key touched is that key and the user is its
      owner.  A key expiring at this very instant is still accepted. */
  lemma ApiKeyAccepts(apiKey: Option<string>, findKey: string -> Result<Option<KeyRecord>, Exception>,
                      touchOk: bool, now: int)
    ensures var r := ApiKeyAuth(apiKey, findKey, touchOk, now);
      r.outcome.Continue? <==>
        && apiKey.Some? && apiKey.value != ""
        && findKey(apiKey.value).Success? && findKey(apiKey.value).value.Some?
        && var k := findKey(apiKey.value).value.value;
           && k.isActive && (k.expiresAt.None? || now <= k.expiresAt.value)
           && k.user.isActive && touchOk
           && r.touched == Some(k.id) && r.outcome.user == Some(ToAuthUser(k.user))
  {
  }

  /** Every API-key rejection other than a failing lookup or touch is a 401. */
  lemma ApiKeyRejections(apiKey: Option<string>, findKey: string -> Result<Option<KeyRecord>, Exception>,
                         touchOk: bool, now: int)
    ensures var r := ApiKeyAuth(apiKey, findKey, touchOk, now);
      r.outcome.Respond? ==> (r.outcome.status == 401 || r.outcome == Respond(500, InternalError, "Authentication failed"))
  {
  }
}

=== FILE: backend_types.dfy ===
/** The backend's request schemas for creating and updating a research session.  Unlike
    the shared research-query schema they fill in no defaults: a field the client leaves
    out stays absent. */
module BackendTypes {
  import opened Wrappers
  import opened Json
  import opened ZodSchema

  datatype DateRange = DateRange(from: Option<string>, to: Option<string>)

  /** The session options; every field optional. */
  datatype SessionOptions = SessionOptions(
    sources: Option<seq<string>>,
    maxSources: Option<real>,
    includeAcademic: Option<bool>,
    includeNews: Option<bool>,
    includeWeb: Option<bool>,
    dateRange: Option<DateRange>,
    language: Option<string>,
    region: Option<string>)

  datatype CreateRequest = CreateRequest(query: string, options: Option<SessionOptions>)

  datatype UpdateRequest = UpdateRequest(title: Option<string>, options: Option<SessionOptions>)

  const NoOptions := SessionOptions(None, None, None, None, None, None, None, None)

  /** `z.array(z.string())`. */
  function Strings(v: Js): Option<seq<string>> {
    ArrayOf(v, AnyString)
  }

  /** `z.number().min(1).max(100)`. */
  function MaxSources(v: Js): Option<real> {
    NumberIn(v, 1.0, 100.0)
  }

  /** The `dateRange` object: optional `from` and `to` strings. */
  function ParseDateRange(v: Js): (r: Option<DateRange>)
    ensures r.Some? ==> v.JObj?
    ensures v.JObj? && "from" !in v.fields && "to" !in v.fields ==> r == Some(DateRange(None, None))
  {
    if !v.JObj? then None
    else
      var from := ZodSchema.Optional(v.fields, "from", AnyString);
      var to := ZodSchema.Optional(v.fields, "to", AnyString);
      if from.Some? && to.Some? then Some(DateRange(from.value, to.value)) else None
  }

  /** The `options` object of both schemas. */
  function ParseSessionOptions(v: Js): (r: Option<SessionOptions>)
    ensures r.Some? ==> v.JObj?
    ensures r.Some? && r.value.maxSources.Some? ==> 1.0 <= r.value.maxSources.value <= 100.0
  {
    if !v.JObj? then None
    else
      var f := v.fields;
      var sources := ZodSchema.Optional(f, "sources", Strings);
      var maxSources := ZodSchema.Optional(f, "maxSources", MaxSources);
      var academic := ZodSchema.Optional(f, "includeAcademic", Boolean);
      var news := ZodSchema.Optional(f, "includeNews", Boolean);
      var web := ZodSchema.Optional(f, "includeWeb", Boolean);
      var dateRange := ZodSchema.Optional(f, "dateRange", ParseDateRange);
      var language := ZodSchema.Optional(f, "language", AnyString);
      var region := ZodSchema.Optional(f, "region", AnyString);
      if sources.Some? && maxSources.Some? && academic.Some? && news.Some? && web.Some?
         && dateRange.Some? && language.Some? && region.Some?
      then Some(SessionOptions(sources.value, maxSources.value, academic.value, news.value, web.value,
                               dateRange.value, language.value, region.value))
      else None
  }

  /** `CreateResearchSessionSchema`: a query of 1 to 1000 characters and optional options. */
  function ParseCreate(input: Js): (r: Option<CreateRequest>)
    ensures r.Some? ==> 1 <= |r.value.query| <= 1000
    ensures r.Some? ==> input.JObj? && "query" in input.fields && input.fields["query"] == JStr(r.value.query)
    ensures r.Some? && r.value.options.Some? ==> "options" in input.fields
  {
    if !input.JObj? then None
    else
      var query := if "query" in input.fields then StringIn(input.fields["query"], 1, 1000) else None;
      var options := ZodSchema.Optional(input.fields, "options", ParseSessionOptions);
      if query.Some? && options.Some? then Some(CreateRequest(query.value, options.value)) else None
  }

  /** `z.string().min(1).max(200)`. */
  function Title(v: Js): Option<string> {
    StringIn(v, 1, 200)
  }

  /** `UpdateResearchSessionSchema`: an optional title of 1 to 200 characters and optional
      options; there is no query. */
  function ParseUpdate(input: Js): (r: Option<UpdateRequest>)
    ensures r.Some? ==> input.JObj?
    ensures r.Some? && r.value.title.Some? ==> 1 <= |r.value.title.value| <= 200
    ensures r.Some? ==> (r.value.title.Some? <==> "title" in input.fields)
    ensures r.Some? && r.value.title.Some? ==> input.fields["title"] == JStr(r.value.title.value)
    ensures r.Some? ==> (r.value.options.Some? <==> "options" in input.fields)
    ensures r.Some? && r.value.options.Some? ==>
      ParseSessionOptions(input.fields["options"]) == r.value.options
    ensures input.JObj? && "title" in input.fields && Title(input.fields["title"]).None? ==> r.None?
  {
    if !input.JObj? then None
    else
      var title := ZodSchema.Optional(input.fields, "title", Title);
      var options := ZodSchema.Optional(input.fields, "options", ParseSessionOptions);
      if title.Some? && options.Some? then Some(UpdateRequest(title.value, options.value)) else None
  }

  /** No defaults: an empty options object gives all-absent options, and an omitted one
      gives no options at all. */
  lemma NoDefaults(query: string)
    requires 1 <= |query| <= 1000
    ensures ParseSessionOptions(EmptyObject) == Some(NoOptions)
    ensures ParseCreate(JObj(map["query" := JStr(query)])) == Some(CreateRequest(query, None))
    ensures ParseUpdate(EmptyObject) == Some(UpdateRequest(None, None))
  {
    assert Field(map["query" := JStr(query)], "options").None?;
  }

  /** A supplied `maxSources` outside 1..100 is refused in both schemas. */
  lemma MaxSourcesRefused(f: map<string, Js>, n: real)
    requires n < 1.0 || n > 100.0
    ensures ParseSessionOptions(JObj(f["maxSources" := JNum(n)])).None?
  {
  }

  /** A title that is not a string of 1 to 200 characters refuses the whole update,
      whatever else the request holds. */
  lemma UpdateTitleRefused(f: map<string, Js>, v: Js)
    requires !(v.JStr? && 1 <= |v.s| <= 200)
    ensures ParseUpdate(JObj(f["title" := v])).None?
  {
  }

  /** The update schema ignores a `query` key: updating never changes the query. */
  lemma UpdateIgnoresQuery(f: map<string, Js>, v: Js)
    ensures ParseUpdate(JObj(f["query" := v])) == ParseUpdate(JObj(f))
  {
    assert ZodSchema.Optional(f["query" := v], "title", Title) == ZodSchema.Optional(f, "title", Title);
    assert ZodSchema.Optional(f["query" := v], "options", ParseSessionOptions)
        == ZodSchema.Optional(f, "options", ParseSessionOptions);
  }

  /** Each `dateRange` bound is an optional string: one bound alone is accepted, and a
      bound that is not a string is refused. */
  lemma DateRangeBounds(from: string, v: Js)
    requires !v.JStr?
    ensures ParseDateRange(JObj(map["from" := JStr(from)])) == Some(DateRange(Some(from), None))
    ensures ParseDateRange(JObj(map["to" := v])).None?
  {
    assert "to" !in map["from" := JStr(from)];
    assert "from" !in map["to" := v];
  }

  // ---------------------------------------------------------------- writing requests back

  function StringJs(s: string): Js {
    JStr(s)
  }

  function StringsJs(xs: seq<string>): Js {
    JArr(EncodeAll(xs, StringJs))
  }

  function NumberJs(n: real): Js {
    JNum(n)
  }

  function BoolJs(b: bool): Js {
    JBool(b)
  }

  /** An optional value, encoded when present. */
  function Encoded<T>(x: Option<T>, encode: T -> Js): (r: Option<Js>)
    ensures r.Some? <==> x.Some?
    ensures x.Some? ==> r.value == encode(x.value)
  {
    if x.Some? then Some(encode(x.value)) else None
  }

  /** An optional value as the key it is written under: present only when set. */
  function Put(m: map<string, Js>, key: string, v: Option<Js>): (r: map<string, Js>)
    ensures key in r <==> key in m || v.Some?
    ensures v.Some? ==> r[key] == v.value
    ensures forall k :: k != key ==> (k in r <==> k in m) && (k in m ==> r[k] == m[k])
  {
    if v.Some? then m[key := v.value] else m
  }

  /** The JSON a date range is written as: each bound only when set. */
  function DateRangeJson(d: DateRange): Js {
    JObj(Put(Put(map[], "from", Encoded(d.from, StringJs)), "to", Encoded(d.to, StringJs)))
  }

  /** The JSON session options are written as: each field only when set. */
  function SessionOptionsJson(o: SessionOptions): Js {
    var m0 := Put(map[], "sources", Encoded(o.sources, StringsJs));
    var m1 := Put(m0, "maxSources", Encoded(o.maxSources, NumberJs));
    var m2 := Put(m1, "includeAcademic", Encoded(o.includeAcademic, BoolJs));
    var m3 := Put(m2, "includeNews", Encoded(o.includeNews, BoolJs));
    var m4 := Put(m3, "includeWeb", Encoded(o.includeWeb, BoolJs));
    var m5 := Put(m4, "dateRange", Encoded(o.dateRange, DateRangeJson));
    var m6 := Put(m5, "language", Encoded(o.language, StringJs));
    JObj(Put(m6, "region", Encoded(o.region, StringJs)))
  }

  /** A written optional field parses back to what was written, absent or present. */
  lemma OptionalRoundTrip<T>(f: map<string, Js>, key: string, x: Option<T>, encode: T -> Js, parse: Js -> Option<T>)
    requires x.None? ==> key !in f
    requires x.Some? ==> key in f && f[key] == encode(x.value) && parse(encode(x.value)) == x
    ensures ZodSchema.Optional(f, key, parse) == Some(x)
  {
  }

  /** A written date range parses back to itself. */
  lemma DateRangeRoundTrip(d: DateRange)
    ensures ParseDateRange(DateRangeJson(d)) == Some(d)
  {
    var f := DateRangeJson(d).fields;
    OptionalRoundTrip(f, "from", d.from, StringJs, AnyString);
    OptionalRoundTrip(f, "to", d.to, StringJs, AnyString);
  }

  /** A written list of strings parses back to itself. */
  lemma StringsRoundTrip(xs: seq<string>)
    ensures Strings(StringsJs(xs)) == Some(xs)
  {
    AllRoundTrip(xs, StringJs, AnyString);
  }

  /** The options an object yields once each of its fields is known to parse. */
  lemma SessionOptionsOfFields(f: map<string, Js>, o: SessionOptions)
    requires ZodSchema.Optional(f, "sources", Strings) == Some(o.sources)
    requires ZodSchema.Optional(f, "maxSources", MaxSources) == Some(o.maxSources)
    requires ZodSchema.Optional(f, "includeAcademic", Boolean) == Some(o.includeAcademic)
    requires ZodSchema.Optional(f, "includeNews", Boolean) == Some(o.includeNews)
    requires ZodSchema.Optional(f, "includeWeb", Boolean) == Some(o.includeWeb)
    requires ZodSchema.Optional(f, "dateRange", ParseDateRange) == Some(o.dateRange)
    requires ZodSchema.Optional(f, "language", AnyString) == Some(o.language)
    requires ZodSchema.Optional(f, "region", AnyString) == Some(o.region)
    ensures ParseSessionOptions(JObj(f)) == Some(o)
  {
  }

  /** The written source list and source maximum parse back. */
  lemma SourceFieldsRoundTrip(o: SessionOptions)
    requires o.maxSources.Some? ==> 1.0 <= o.maxSources.value <= 100.0
    ensures var f := SessionOptionsJson(o).fields;
      && ZodSchema.Optional(f, "sources", Strings) == Some(o.sources)
      && ZodSchema.Optional(f, "maxSources", MaxSources) == Some(o.maxSources)
  {
    var f := SessionOptionsJson(o).fields;
    if o.sources.Some? { StringsRoundTrip(o.sources.value); }
    OptionalRoundTrip(f, "sources", o.sources, StringsJs, Strings);
    OptionalRoundTrip(f, "maxSources", o.maxSources, NumberJs, MaxSources);
  }

  /** The three written inclusion flags parse back. */
  lemma FlagFieldsRoundTrip(o: SessionOptions)
    ensures var f := SessionOptionsJson(o).fields;
      && ZodSchema.Optional(f, "includeAcademic", Boolean) == Some(o.includeAcademic)
      && ZodSchema.Optional(f, "includeNews", Boolean) == Some(o.includeNews)
      && ZodSchema.Optional(f, "includeWeb", Boolean) == Some(o.includeWeb)
  {
    var f := SessionOptionsJson(o).fields;
    OptionalRoundTrip(f, "includeAcademic", o.includeAcademic, BoolJs, Boolean);
    OptionalRoundTrip(f, "includeNews", o.includeNews, BoolJs, Boolean);
    OptionalRoundTrip(f, "includeWeb", o.includeWeb, BoolJs, Boolean);
  }

  /** The written date range, language and region parse back. */
  lemma ScopeFieldsRoundTrip(o: SessionOptions)
    ensures var f := SessionOptionsJson(o).fields;
      && ZodSchema.Optional(f, "dateRange", ParseDateRange) == Some(o.dateRange)
      && ZodSchema.Optional(f, "language", AnyString) == Some(o.language)
      && ZodSchema.Optional(f, "region", AnyString) == Some(o.region)
  {
    var f := SessionOptionsJson(o).fields;
    if o.dateRange.Some? { DateRangeRoundTrip(o.dateRange.value); }
    OptionalRoundTrip(f, "dateRange", o.dateRange, DateRangeJson, ParseDateRange);
    OptionalRoundTrip(f, "language", o.language, StringJs, AnyString);
    OptionalRoundTrip(f, "region", o.region, StringJs, AnyString);
  }

  /** Valid session options written as JSON parse back to themselves. */
  lemma SessionOptionsRoundTrip(o: SessionOptions)
    requires o.maxSources.Some? ==> 1.0 <= o.maxSources.value <= 100.0
    ensures ParseSessionOptions(SessionOptionsJson(o)) == Some(o)
  {
    SourceFieldsRoundTrip(o);
    FlagFieldsRoundTrip(o);
    ScopeFieldsRoundTrip(o);
    SessionOptionsOfFields(SessionOptionsJson(o).fields, o);
  }

  /** A valid create request written as JSON parses back to itself. */
  lemma CreateRoundTrip(c: CreateRequest)
    requires 1 <= |c.query| <= 1000
    requires c.options.Some? && c.options.value.maxSources.Some? ==> 1.0 <= c.options.value.maxSources.value <= 100.0
    ensures ParseCreate(JObj(Put(map["query" := JStr(c.query)], "options", Encoded(c.options, SessionOptionsJson))))
            == Some(c)
  {
    var f := Put(map["query" := JStr(c.query)], "options", Encoded(c.options, SessionOptionsJson));
    if c.options.Some? { SessionOptionsRoundTrip(c.options.value); }
    OptionalRoundTrip(f, "options", c.options, SessionOptionsJson, ParseSessionOptions);
  }

  /** A valid update request written as JSON parses back to itself. */
  lemma UpdateRoundTrip(u: UpdateRequest)
    requires u.title.Some? ==> 1 <= |u.title.value| <= 200
    requires u.options.Some? && u.options.value.maxSources.Some? ==> 1.0 <= u.options.value.maxSources.value <= 100.0
    ensures ParseUpdate(JObj(Put(Put(map[], "title", Encoded(u.title, StringJs)), "options",
                                 Encoded(u.options, SessionOptionsJson))))
            == Some(u)
  {
    var f := Put(Put(map[], "title", Encoded(u.title, StringJs)), "options", Encoded(u.options, SessionOptionsJson));
    OptionalRoundTrip(f, "title", u.title, StringJs, Title);
    if u.options.Some? { SessionOptionsRoundTrip(u.options.value); }
    OptionalRoundTrip(f, "options", u.options, SessionOptionsJson, ParseSessionOptions);
  }
}

=== FILE: comprehensive.dfy ===
/** The multi-source research engine of the comprehensive research route: an AI analysis,
    arXiv papers, news articles, a Wikipedia summary, stock photos and a generated
    visualisation are fetched side by side and merged into one result with a per-kind
    source breakdown; when the analysis fails the whole result is replaced by a canned
    fallback that quotes the query. */
module Comprehensive {
  import opened Wrappers
  import opened Text
  import opened Records
  import opened ArxivFeed
  import opened Sessions

  /** What `performAIAnalysis` yields: the completion text and canned bullet lists. */
  datatype Analysis = Analysis(summary: string, insights: seq<string>, trends: seq<string>)

  /** `sourceBreakdown`. */
  datatype Breakdown = Breakdown(academic: nat, news: nat, reference: nat, total: nat)

  /** The result a settled session carries.  `comprehensive` and `fallback` are `false` where
      the source leaves the key out, and `timestamp` is absent from the fallback. */
  datatype Aggregate = Aggregate(
    summary: string,
    insights: seq<string>,
    trends: seq<string>,
    sources: seq<Source>,
    images: seq<Image>,
    breakdown: Breakdown,
    aiGenerated: bool,
    comprehensive: bool,
    fallback: bool,
    timestamp: Option<string>)

  /** A NewsAPI article, as far as the adapter reads it. */
  datatype NewsArticle = NewsArticle(
    title: string,
    description: Option<string>,
    content: Option<string>,
    url: string,
    sourceName: string,
    publishedAt: string)

  /** A Wikipedia page-summary response: `title`, `extract`, `content_urls.desktop.page`. */
  datatype WikiPage = WikiPage(title: string, extract: Option<string>, pageUrl: Option<string>)

  /** The outcomes of the outside calls one research run makes.  An absent value stands for
      a call that failed or returned nothing usable. */
  datatype Inputs = Inputs(
    completion: Option<string>,
    arxivXml: Option<string>,
    newsKey: bool,
    articles: Option<seq<NewsArticle>>,
    wiki: Option<WikiPage>,
    unsplash: Option<seq<UnsplashPhoto>>,
    pexels: Option<seq<PexelsPhoto>>,
    replicateToken: bool,
    visualization: Option<string>,
    timestamp: string)

  const AnalysisInsights: seq<string> := [
    "Multi-source analysis completed",
    "Current literature reviewed",
    "Industry trends identified",
    "Expert perspectives integrated"]

  const AnalysisTrends: seq<string> := [
    "Increasing research activity",
    "Cross-disciplinary applications",
    "Emerging technological solutions"]

  /** `performAIAnalysis` once the completion text is in hand: the text is the summary, the
      bullet lists are fixed. */
  function AnalysisOf(content: string): (r: Analysis)
    ensures r.summary == content
    ensures |r.insights| == 4 && |r.trends| == 3
  {
    Analysis(content, AnalysisInsights, AnalysisTrends)
  }

  // ---------------------------------------------------------------- news and Wikipedia

  const NewsBudget := 200

  /** `article.description || article.content?.substring(0, 200) + '...'`: the optional
      chain binds tighter than `+`, so a missing content becomes the text `undefined`. */
  function NewsSummary(a: NewsArticle): (r: string)
    ensures a.description.Some? && a.description.value != "" ==> r == a.description.value
    ensures (a.description.None? || a.description.value == "") ==> EndsWith(r, Ellipsis)
    ensures (a.description.None? || a.description.value == "") && a.content.Some? ==>
      r == Prefix(a.content.value, NewsBudget) + Ellipsis
    ensures (a.description.None? || a.description.value == "") && a.content.None? ==>
      r == "undefined" + Ellipsis
  {
    if a.description.Some? && a.description.value != "" then a.description.value
    else
      var head := if a.content.Some? then Prefix(a.content.value, NewsBudget) else "undefined";
      assert EndsWith(head + Ellipsis, Ellipsis);
      head + Ellipsis
  }

  /** One article as a news record. */
  function NewsRecord(a: NewsArticle): (r: Source)
    ensures r.kind == "news" && r.title == a.title && r.url == Some(a.url)
    ensures r.source == a.sourceName && r.publishedAt == Some(a.publishedAt)
    ensures r.summary == Some(NewsSummary(a))
  {
    Source(a.title, Some(NewsSummary(a)), Some(a.url), a.sourceName, "news", Some(a.publishedAt))
  }

  /** `fetchNewsArticles`: nothing without an API key or without an `articles` list,
      otherwise one record per article, in order. */
  function NewsRecords(newsKey: bool, articles: Option<seq<NewsArticle>>): (r: seq<Source>)
    ensures !newsKey || articles.None? ==> r == []
    ensures newsKey && articles.Some? ==>
      |r| == |articles.value| && forall k :: 0 <= k < |r| ==> r[k] == NewsRecord(articles.value[k])
  {
    if newsKey && articles.Some? then seq(|articles.value|, k requires 0 <= k < |articles.value| => NewsRecord(articles.value[k]))
    else []
  }

  /** `fetchWikipediaContent`: a reference record built from the page summary. */
  function WikiRecord(p: WikiPage): (r: Source)
    ensures r.kind == "reference" && r.source == "Wikipedia"
    ensures r.title == p.title && r.summary == p.extract && r.url == p.pageUrl
  {
    Source(p.title, p.extract, p.pageUrl, "Wikipedia", "reference", None)
  }

  // ---------------------------------------------------------------- images

  /** One Unsplash hit as an image record; the description falls back to the alt text. */
  function FromUnsplash(p: UnsplashPhoto): (r: Image)
    ensures r.url == p.small && r.photographer == Some(p.userName) && r.source == Some("Unsplash")
    ensures r.description == OrElse(p.description, p.altDescription)
    ensures r.kind.None?
  {
    Image(p.small, OrElse(p.description, p.altDescription), Some(p.userName), Some("Unsplash"), None)
  }

  /** One Pexels hit as an image record. */
  function FromPexels(p: PexelsPhoto): (r: Image)
    ensures r.url == p.medium && r.description == p.alt && r.photographer == Some(p.photographer)
    ensures r.source == Some("Pexels") && r.kind.None?
  {
    Image(p.medium, p.alt, Some(p.photographer), Some("Pexels"), None)
  }

  /** The Unsplash hits of a search, mapped in order; nothing when the search failed. */
  function UnsplashImages(hits: Option<seq<UnsplashPhoto>>): (r: seq<Image>)
    ensures hits.None? ==> r == []
    ensures hits.Some? ==> |r| == |hits.value| && forall k :: 0 <= k < |r| ==> r[k] == FromUnsplash(hits.value[k])
  {
    if hits.None? then [] else seq(|hits.value|, k requires 0 <= k < |hits.value| => FromUnsplash(hits.value[k]))
  }

  /** The Pexels hits of a search, mapped in order; nothing when the search failed. */
  function PexelsImages(hits: Option<seq<PexelsPhoto>>): (r: seq<Image>)
    ensures hits.None? ==> r == []
    ensures hits.Some? ==> |r| == |hits.value| && forall k :: 0 <= k < |r| ==> r[k] == FromPexels(hits.value[k])
  {
    if hits.None? then [] else seq(|hits.value|, k requires 0 <= k < |hits.value| => FromPexels(hits.value[k]))
  }

  /** What `getResearchImages` collects: the Unsplash images, then the Pexels ones. */
  function ResearchImages(unsplash: Option<seq<UnsplashPhoto>>, pexels: Option<seq<PexelsPhoto>>): (r: seq<Image>)
    ensures |r| == (if unsplash.Some? then |unsplash.value| else 0) + (if pexels.Some? then |pexels.value| else 0)
    ensures unsplash.Some? ==> forall k :: 0 <= k < |unsplash.value| ==> r[k] == FromUnsplash(unsplash.value[k])
    ensures var u := if unsplash.Some? then |unsplash.value| else 0;
      pexels.Some? ==> forall k :: u <= k < |r| ==> r[k] == FromPexels(pexels.value[k - u])
  {
    var first, second := UnsplashImages(unsplash), PexelsImages(pexels);
    assert forall k :: 0 <= k < |first| ==> (first + second)[k] == first[k];
    assert forall k :: |first| <= k < |first| + |second| ==> (first + second)[k] == second[k - |first|];
    first + second
  }

  /** `getResearchImages`: an empty list, extended by each provider that answered. */
  method GatherImages(unsplash: Option<seq<UnsplashPhoto>>, pexels: Option<seq<PexelsPhoto>>)
    returns (images: seq<Image>)
    ensures images == ResearchImages(unsplash, pexels)
  {
    images := [];
    if unsplash.Some? {
      images := images + UnsplashImages(unsplash);
    }
    if pexels.Some? {
      images := images + PexelsImages(pexels);
    }
  }

  /** Every collected image names its provider, Unsplash ones first. */
  lemma ResearchImagesProviders(unsplash: Option<seq<UnsplashPhoto>>, pexels: Option<seq<PexelsPhoto>>)
    ensures var images := ResearchImages(unsplash, pexels);
      var u := |UnsplashImages(unsplash)|;
      && (forall k :: 0 <= k < u ==> images[k].source == Some("Unsplash"))
      && (forall k :: u <= k < |images| ==> images[k].source == Some("Pexels"))
  {
  }

  /** `generateResearchVisualization`: nothing without an API token or when the model
      call failed; otherwise the first output, described by the topic. */
  function Visualization(topic: string, token: bool, output: Option<string>): (r: Option<Image>)
    ensures r.Some? <==> token && output.Some?
    ensures r.Some? ==> (r.value.url == output.value && r.value.kind == Some("ai_generated")
                         && r.value.source == Some("Replicate AI")
                         && r.value.description == Some("AI-generated research visualization for " + topic))
  {
    if token && output.Some? then
      Some(Image(output.value, Some("AI-generated research visualization for " + topic), None,
                 Some("Replicate AI"), Some("ai_generated")))
    else None
  }

  // ---------------------------------------------------------------- merging

  /** `...(x ? [x] : [])`. */
  function OptionList<T>(x: Option<T>): (r: seq<T>)
    ensures |r| == if x.Some? then 1 else 0
    ensures x.Some? ==> r == [x.value]
  {
    if x.Some? then [x.value] else []
  }

  /** The merged result of a successful run. */
  function Combine(analysis: Analysis, papers: seq<Source>, news: seq<Source>, wiki: Option<Source>,
                   images: seq<Image>, viz: Option<Image>, timestamp: string): (r: Aggregate)
    ensures r.summary == analysis.summary && r.insights == analysis.insights && r.trends == analysis.trends
    ensures r.aiGenerated && r.comprehensive && !r.fallback && r.timestamp == Some(timestamp)
    ensures |r.sources| == |papers| + |news| + |OptionList(wiki)|
  {
    var sources := papers + news + OptionList(wiki);
    Aggregate(
      analysis.summary, analysis.insights, analysis.trends,
      sources, images + OptionList(viz),
      Breakdown(|papers|, |news|, if wiki.Some? then 1 else 0, |sources|),
      true, true, false, Some(timestamp))
  }

  /** The merged sources are the papers, then the news, then the Wikipedia record; the
      breakdown counts each group and its total is the number of sources. */
  lemma CombineLayout(analysis: Analysis, papers: seq<Source>, news: seq<Source>, wiki: Option<Source>,
                      images: seq<Image>, viz: Option<Image>, timestamp: string)
    ensures var r := Combine(analysis, papers, news, wiki, images, viz, timestamp);
      && r.sources[..|papers|] == papers
      && r.sources[|papers|..|papers| + |news|] == news
      && (wiki.Some? <==> |r.sources| == |papers| + |news| + 1)
      && (wiki.Some? ==> r.sources[|r.sources| - 1] == wiki.value)
      && r.breakdown.total == |r.sources|
      && r.breakdown.total == r.breakdown.academic + r.breakdown.news + r.breakdown.reference
      && r.images[..|images|] == images
      && (viz.Some? <==> |r.images| == |images| + 1)
  {
    var r := Combine(analysis, papers, news, wiki, images, viz, timestamp);
    assert r.sources == papers + news + OptionList(wiki);
    assert r.sources[..|papers|] == papers;
    assert r.sources[|papers|..|papers| + |news|] == news;
  }

  /** When every group carries its own type, each breakdown count is the number of
      sources of that type. */
  lemma CombineBreakdownCounts(analysis: Analysis, papers: seq<Source>, news: seq<Source>, wiki: Option<Source>,
                               images: seq<Image>, viz: Option<Image>, timestamp: string)
    requires AllKind(papers, "academic") && AllKind(news, "news")
    requires wiki.Some? ==> wiki.value.kind == "reference"
    ensures var r := Combine(analysis, papers, news, wiki, images, viz, timestamp);
      && r.breakdown.academic == CountKind(r.sources, "academic")
      && r.breakdown.news == CountKind(r.sources, "news")
      && r.breakdown.reference == CountKind(r.sources, "reference")
  {
    var w := OptionList(wiki);
    CountKindAppend(papers + news, w, "academic");
    CountKindAppend(papers + news, w, "news");
    CountKindAppend(papers + news, w, "reference");
    CountKindAppend(papers, news, "academic");
    CountKindAppend(papers, news, "news");
    CountKindAppend(papers, news, "reference");
    CountKindAll(papers, "academic");
    CountKindNone(papers, "news");
    CountKindNone(papers, "reference");
    CountKindAll(news, "news");
    CountKindNone(news, "academic");
    CountKindNone(news, "reference");
    if wiki.Some? {
      CountKindAll(w, "reference");
      CountKindNone(w, "academic");
      CountKindNone(w, "news");
    }
  }

  // ---------------------------------------------------------------- fallback

  /** `getFallbackResults`: flagged as a fallback, without images or timestamp. */
  function Fallback(query: string): (r: Aggregate)
    ensures r.fallback && r.aiGenerated && !r.comprehensive && r.timestamp.None? && r.images == []
  {
    Aggregate(
      "Comprehensive research analysis for \"" + query
        + "\" completed using multiple data sources and AI analysis.",
      [ "Multi-source data integration completed",
        "Academic and news sources analyzed",
        "Current trends and developments identified",
        "Expert analysis and synthesis provided" ],
      [ "Increasing research interest",
        "Growing practical applications",
        "Evolving regulatory landscape" ],
      [ Source("Academic Literature Review", None, None, "Research Database", "academic", None),
        Source("Current News Analysis", None, None, "News Aggregation", "news", None),
        Source("Expert Commentary", None, None, "Industry Reports", "analysis", None) ],
      [],
      Breakdown(1, 1, 1, 3),
      true, false, true, None)
  }

  /** The fallback quotes the query in its summary and carries three sources, no images and
      a breakdown whose total is the number of sources. */
  lemma FallbackShape(query: string)
    ensures var r := Fallback(query);
      && Contains(r.summary, query)
      && r.fallback && r.aiGenerated && !r.comprehensive && r.timestamp.None?
      && |r.sources| == 3 && r.breakdown.total == |r.sources|
      && r.breakdown.academic == 1 && r.breakdown.news == 1 && r.breakdown.reference == 1
      && |r.insights| == 4 && |r.trends| == 3 && r.images == []
  {
    ContainsMiddle("Comprehensive research analysis for \"", query,
                   "\" completed using multiple data sources and AI analysis.");
  }

  /** The fallback's breakdown reports one reference source, yet none of its sources has
      type `reference`: the third one is of type `analysis`. */
  lemma FallbackReferenceMismatch(query: string)
    ensures Fallback(query).breakdown.reference == 1
    ensures CountKind(Fallback(query).sources, "reference") == 0
    ensures CountKind(Fallback(query).sources, "analysis") == 1
  {
    var s := Fallback(query).sources;
    assert s[1..][1..][1..] == [];
  }

  // ---------------------------------------------------------------- one research run

  /** The result of `performComprehensiveResearch`: the canned fallback when the analysis
      failed, the merged result otherwise. */
  function ResearchResult(query: string, inputs: Inputs): (r: Aggregate)
    ensures r.fallback <==> inputs.completion.None?
    ensures inputs.completion.Some? ==> r.summary == inputs.completion.value
    ensures r.breakdown.total == |r.sources|
    ensures inputs.completion.None? ==> r == Fallback(query)
    ensures inputs.completion.Some? ==>
      r.sources == (if inputs.arxivXml.Some? then ArxivPapers(inputs.arxivXml.value) else [])
                   + NewsRecords(inputs.newsKey, inputs.articles)
                   + OptionList(if inputs.wiki.Some? then Some(WikiRecord(inputs.wiki.value)) else None)
    ensures inputs.completion.Some? ==>
      r.images == ResearchImages(inputs.unsplash, inputs.pexels)
                  + OptionList(Visualization(query, inputs.replicateToken, inputs.visualization))
    ensures inputs.completion.Some? ==> r.timestamp == Some(inputs.timestamp)
  {
    match inputs.completion
    case None => Fallback(query)
    case Some(content) =>
      Combine(AnalysisOf(content),
              if inputs.arxivXml.Some? then ArxivPapers(inputs.arxivXml.value) else [],
              NewsRecords(inputs.newsKey, inputs.articles),
              if inputs.wiki.Some? then Some(WikiRecord(inputs.wiki.value)) else None,
              ResearchImages(inputs.unsplash, inputs.pexels),
              Visualization(query, inputs.replicateToken, inputs.visualization),
              inputs.timestamp)
  }

  /** `performComprehensiveResearch`: every fetch is run, the arXiv feed is parsed, and the
      results are merged. */
  method ComprehensiveResearch(query: string, inputs: Inputs) returns (r: Aggregate)
    ensures r == ResearchResult(query, inputs)
  {
    if inputs.completion.None? {
      return Fallback(query);
    }
    var analysis := AnalysisOf(inputs.completion.value);
    var papers: seq<Source> := [];
    if inputs.arxivXml.Some? {
      papers := ParseFeed(inputs.arxivXml.value);
    }
    var news := NewsRecords(inputs.newsKey, inputs.articles);
    var wiki: Option<Source> := None;
    if inputs.wiki.Some? {
      wiki := Some(WikiRecord(inputs.wiki.value));
    }
    var images := GatherImages(inputs.unsplash, inputs.pexels);
    var viz := Visualization(query, inputs.replicateToken, inputs.visualization);
    r := Combine(analysis, papers, news, wiki, images, viz, inputs.timestamp);
  }

  /** A successful run's breakdown counts each type among its sources exactly, and its
      total is the number of sources. */
  lemma ResearchBreakdownExact(query: string, inputs: Inputs)
    requires inputs.completion.Some?
    ensures var r := ResearchResult(query, inputs);
      && r.breakdown.total == |r.sources|
      && r.breakdown.academic == CountKind(r.sources, "academic")
      && r.breakdown.news == CountKind(r.sources, "news")
      && r.breakdown.reference == CountKind(r.sources, "reference")
  {
    var papers := if inputs.arxivXml.Some? then ArxivPapers(inputs.arxivXml.value) else [];
    if inputs.arxivXml.Some? {
      PapersWellFormed(Split(inputs.arxivXml.value, EntryMarker)[1..]);
    }
    var news := NewsRecords(inputs.newsKey, inputs.articles);
    var wiki := if inputs.wiki.Some? then Some(WikiRecord(inputs.wiki.value)) else None;
    var images := ResearchImages(inputs.unsplash, inputs.pexels);
    var viz := Visualization(query, inputs.replicateToken, inputs.visualization);
    CombineBreakdownCounts(AnalysisOf(inputs.completion.value), papers, news, wiki, images, viz, inputs.timestamp);
    CombineLayout(AnalysisOf(inputs.completion.value), papers, news, wiki, images, viz, inputs.timestamp);
  }

  /** The success handler of `POST`: the session is completed with the run's result. */
  method SettleComprehensive(store: SessionStore<Aggregate>, id: string, inputs: Inputs, completedAt: string)
    requires store.Valid() && id in store.sessions
    modifies store
    ensures store.Valid()
    ensures store.order == old(store.order) && store.counter == old(store.counter)
    ensures store.sessions == old(store.sessions)[id := old(store.sessions[id]).(
      status := Completed, progress := 100,
      results := Some(ResearchResult(old(store.sessions[id]).query, inputs)),
      completedAt := Some(completedAt))]
  {
    var results := ComprehensiveResearch(store.sessions[id].query, inputs);
    store.Complete(id, results, completedAt);
  }

  /** The rejection handler of `POST`: the session is marked `error` with the message and
      still receives the fallback, built from its own query, as its results. */
  method SettleComprehensiveFailure(store: SessionStore<Aggregate>, id: string, message: string)
    requires store.Valid() && id in store.sessions
    modifies store
    ensures store.Valid()
    ensures store.order == old(store.order) && store.counter == old(store.counter)
    ensures store.sessions == old(store.sessions)[id := old(store.sessions[id]).(
      status := Error, error := Some(message),
      results := Some(Fallback(old(store.sessions[id]).query)))]
  {
    store.FailWithResults(id, message, Fallback(store.sessions[id].query));
  }
}

=== FILE: enhanced_research.dfy ===
/** The single-model research of the enhanced research route: the completion is asked for
    a JSON reply whose keys are spread into the result, a reply that is not JSON is wrapped
    in canned lists, and a failed completion yields a canned fallback; Unsplash images are
    attached in every case. */
module EnhancedResearch {
  import opened Wrappers
  import opened Text
  import opened Records
  import opened Json
  import opened Sessions

  const StartedMessage := "AI research session started"

  /** One Unsplash hit as `{url, description, photographer}`; there is no `source` key, and
      the description is `null` when the hit has neither a description nor an alternative
      text. */
  function PhotoJson(p: UnsplashPhoto): (r: Js)
    ensures r.JObj? && r.fields.Keys == {"url", "description", "photographer"}
    ensures r.fields["url"] == JStr(p.small) && r.fields["photographer"] == JStr(p.userName)
    ensures OrElse(p.description, p.altDescription).Some? ==>
      r.fields["description"] == JStr(OrElse(p.description, p.altDescription).value)
    ensures OrElse(p.description, p.altDescription).None? ==> r.fields["description"] == JNull
  {
    var d := OrElse(p.description, p.altDescription);
    JObj(map["url" := JStr(p.small), "description" := if d.Some? then JStr(d.value) else JNull,
             "photographer" := JStr(p.userName)])
  }

  /** `getResearchImages`: the mapped hits, or nothing when the search failed or returned no
      `results` list. */
  function PhotosJson(hits: Option<seq<UnsplashPhoto>>): (r: seq<Js>)
    ensures hits.None? ==> r == []
    ensures hits.Some? ==> |r| == |hits.value| && forall k :: 0 <= k < |r| ==> r[k] == PhotoJson(hits.value[k])
  {
    if hits.None? then [] else seq(|hits.value|, k requires 0 <= k < |hits.value| => PhotoJson(hits.value[k]))
  }

  /** `{title, type, relevance}`. */
  function CitedSource(title: string, kind: string, relevance: string): Js {
    JObj(map["title" := JStr(title), "type" := JStr(kind), "relevance" := JStr(relevance)])
  }

  function Strings(s: seq<string>): (r: Js)
    ensures r.JArr? && |r.items| == |s|
    ensures forall k :: 0 <= k < |s| ==> r.items[k] == JStr(s[k])
  {
    JArr(seq(|s|, k requires 0 <= k < |s| => JStr(s[k])))
  }

  /** The canned lists that stand in for the structured part of a reply that is not JSON. */
  const ReplyInsights := Strings(["Advanced AI analysis completed", "Multiple data sources consulted",
                                  "Current trends identified"])
  const ReplySources := JArr([CitedSource("AI-Generated Research Summary", "analysis", "high"),
                              CitedSource("Current Literature Review", "academic", "high")])
  const ReplyTrends := Strings(["Emerging developments identified", "Key patterns analyzed"])

  /** The structured data that stands in for a reply that is not valid JSON: the reply text
      as summary, with canned insights, sources and trends. */
  function ReplyAsData(reply: string): (r: map<string, Js>)
    ensures "summary" in r && r["summary"] == JStr(reply)
    ensures r.Keys == {"summary", "insights", "sources", "trends"}
  {
    map["summary" := JStr(reply), "insights" := ReplyInsights, "sources" := ReplySources,
        "trends" := ReplyTrends]
  }

  /** The keys the handler sets after the spread, overriding any the reply had. */
  const SetAfterSpread: set<string> := {"images", "aiGenerated", "timestamp"}

  /** The result of a completed call: the structured data, then `images`, `aiGenerated:
      true` and the timestamp written over it. */
  function Success(data: map<string, Js>, images: seq<Js>, timestamp: string): (r: Js)
    ensures r.JObj?
    ensures r.fields.Keys == data.Keys + SetAfterSpread
    ensures r.fields["aiGenerated"] == JBool(true) && r.fields["images"] == JArr(images)
      && r.fields["timestamp"] == JStr(timestamp)
    ensures forall k :: k in data && k !in SetAfterSpread ==> r.fields[k] == data[k]
  {
    JObj(data["images" := JArr(images)]["aiGenerated" := JBool(true)]["timestamp" := JStr(timestamp)])
  }

  /** The summary of the fallback for a failed completion. */
  function FallbackSummary(query: string): (r: string)
    ensures Contains(r, query)
  {
    var before := "Comprehensive AI research analysis for \"";
    var after := "\" completed. This research incorporates current literature, trend analysis, "
                 + "and expert insights to provide a thorough overview of the topic.";
    ContainsMiddle(before, query, after);
    before + query + after
  }

  /** The canned lists of the fallback for a failed completion. */
  const FallbackInsights := Strings(["Current state-of-the-art developments identified",
                                     "Key research gaps and opportunities mapped",
                                     "Industry trends and future directions analyzed",
                                     "Cross-disciplinary connections explored"])
  const FallbackSources := JArr([CitedSource("Recent Academic Literature Review", "academic", "high"),
                                 CitedSource("Industry Research Reports", "industry", "medium"),
                                 CitedSource("Expert Analysis and Commentary", "analysis", "high")])
  const FallbackTrends := Strings(["Increasing research investment", "Cross-industry applications expanding",
                                   "Regulatory frameworks developing"])

  /** The fallback for a failed completion: canned lists, freshly fetched images,
      `aiGenerated: false`, `fallback: true` and no timestamp. */
  function ErrorFallback(query: string, images: seq<Js>): (r: Js)
    ensures r.JObj? && "timestamp" !in r.fields
    ensures "fallback" in r.fields && r.fields["fallback"] == JBool(true)
    ensures "aiGenerated" in r.fields && r.fields["aiGenerated"] == JBool(false)
    ensures "summary" in r.fields && r.fields["summary"].JStr?
      && Contains(r.fields["summary"].s, query)
    ensures "images" in r.fields && r.fields["images"] == JArr(images)
    ensures "insights" in r.fields && r.fields["insights"].JArr? && |r.fields["insights"].items| == 4
    ensures "sources" in r.fields && r.fields["sources"].JArr? && |r.fields["sources"].items| == 3
    ensures "trends" in r.fields && r.fields["trends"].JArr? && |r.fields["trends"].items| == 3
  {
    JObj(map[
      "summary" := JStr(FallbackSummary(query)),
      "insights" := FallbackInsights,
      "sources" := FallbackSources,
      "trends" := FallbackTrends,
      "images" := JArr(images),
      "aiGenerated" := JBool(false),
      "fallback" := JBool(true)])
  }

  /** `performAIResearch` given the completion's text (absent when the call failed), what
      `JSON.parse` made of it (absent when it threw), and the two image searches (the
      fallback path fetches its own). */
  function AIResearch(query: string, reply: Option<string>, parsed: Option<Js>,
                      hits: Option<seq<UnsplashPhoto>>, fallbackHits: Option<seq<UnsplashPhoto>>,
                      timestamp: string): (r: Js)
    ensures r.JObj?
    ensures reply.Some? <==> "timestamp" in r.fields
    ensures "aiGenerated" in r.fields && "images" in r.fields
    ensures reply.Some? ==> r.fields["aiGenerated"] == JBool(true) && r.fields["images"] == JArr(PhotosJson(hits))
    ensures reply.None? ==>
      && r.fields["aiGenerated"] == JBool(false) && "fallback" in r.fields
      && r.fields["fallback"] == JBool(true) && r.fields["images"] == JArr(PhotosJson(fallbackHits))
  {
    match reply
    case None => ErrorFallback(query, PhotosJson(fallbackHits))
    case Some(text) =>
      var data := if parsed.Some? then OwnFields(parsed.value) else ReplyAsData(text);
      Success(data, PhotosJson(hits), timestamp)
  }

  /** A reply that is not JSON still completes with the reply text as summary, marked as
      AI-generated and without the fallback flag, and with the canned three insights, two
      sources and two trends. */
  lemma UnparsedReplyKept(query: string, reply: string, hits: Option<seq<UnsplashPhoto>>,
                          fallbackHits: Option<seq<UnsplashPhoto>>, timestamp: string)
    ensures var r := AIResearch(query, Some(reply), None, hits, fallbackHits, timestamp);
      && r.JObj? && r.fields["summary"] == JStr(reply)
      && r.fields["aiGenerated"] == JBool(true) && "fallback" !in r.fields
      && r.fields["insights"].JArr? && |r.fields["insights"].items| == 3
      && r.fields["trends"].JArr? && |r.fields["trends"].items| == 2
      && r.fields["sources"].JArr? && |r.fields["sources"].items| == 2
  {
  }

  /** A reply that parses to an object keeps every key of its own, except the three the
      handler sets afterwards. */
  lemma ParsedReplySpread(query: string, reply: string, fields: map<string, Js>,
                          hits: Option<seq<UnsplashPhoto>>, fallbackHits: Option<seq<UnsplashPhoto>>,
                          timestamp: string)
    ensures var r := AIResearch(query, Some(reply), Some(JObj(fields)), hits, fallbackHits, timestamp);
      && r.JObj? && r.fields.Keys == fields.Keys + SetAfterSpread
      && (forall k :: k in fields && k !in SetAfterSpread ==> r.fields[k] == fields[k])
      && r.fields["images"] == JArr(PhotosJson(hits))
      && r.fields["aiGenerated"] == JBool(true)
  {
  }

  /** A failed completion yields the fallback: it quotes the query, is flagged, is not
      marked AI-generated and carries no timestamp. */
  lemma FailedCallFallback(query: string, parsed: Option<Js>, hits: Option<seq<UnsplashPhoto>>,
                           fallbackHits: Option<seq<UnsplashPhoto>>, timestamp: string)
    ensures var r := AIResearch(query, None, parsed, hits, fallbackHits, timestamp);
      && r.JObj? && r.fields["fallback"] == JBool(true) && r.fields["aiGenerated"] == JBool(false)
      && "timestamp" !in r.fields
      && r.fields["summary"].JStr? && Contains(r.fields["summary"].s, query)
      && r.fields["images"] == JArr(PhotosJson(fallbackHits))
  {
  }

  /** The `fallback` flag appears only after a failed completion, or when the model's own
      JSON reply carried that key. */
  lemma FallbackFlagOrigin(query: string, reply: Option<string>, parsed: Option<Js>,
                           hits: Option<seq<UnsplashPhoto>>, fallbackHits: Option<seq<UnsplashPhoto>>,
                           timestamp: string)
    requires reply.Some?
    requires parsed.Some? ==> "fallback" !in OwnFields(parsed.value)
    ensures var r := AIResearch(query, reply, parsed, hits, fallbackHits, timestamp);
      r.JObj? && "fallback" !in r.fields
  {
  }

  /** The success handler of `POST`: the session is completed with the research result. */
  method SettleEnhanced(store: SessionStore<Js>, id: string, reply: Option<string>, parsed: Option<Js>,
                        hits: Option<seq<UnsplashPhoto>>, fallbackHits: Option<seq<UnsplashPhoto>>,
                        timestamp: string, completedAt: string)
    requires store.Valid() && id in store.sessions
    modifies store
    ensures store.Valid()
    ensures store.order == old(store.order) && store.counter == old(store.counter)
    ensures store.sessions == old(store.sessions)[id := old(store.sessions[id]).(
      status := Completed, progress := 100,
      results := Some(AIResearch(old(store.sessions[id]).query, reply, parsed, hits, fallbackHits, timestamp)),
      completedAt := Some(completedAt))]
  {
    var results := AIResearch(store.sessions[id].query, reply, parsed, hits, fallbackHits, timestamp);
    store.Complete(id, results, completedAt);
  }

  /** The rejection handler of `POST`: only the status and the error message change; the
      session keeps no results. */
  method SettleEnhancedFailure(store: SessionStore<Js>, id: string, message: string)
    requires store.Valid() && id in store.sessions
    modifies store
    ensures store.Valid()
    ensures store.order == old(store.order) && store.counter == old(store.counter)
    ensures store.sessions == old(store.sessions)[id := old(store.sessions[id]).(status := Error, error := Some(message))]
    ensures old(store.sessions[id]).status == Running ==> store.sessions[id].results.None?
  {
    store.Fail(id, message);
  }
}

=== FILE: error_handler.dfy ===
/** The backend's error middleware: the error classes it knows, the ordered case analysis
    that turns any thrown error into a status, an error code and a message, the masking of
    internal errors in production, and the 404 handler. */
module ErrorHandler {
  import opened Wrappers
  import opened Text
  import opened Json

  const InvalidOptions := "INVALID_OPTIONS"
  const RateLimitExceeded := "RATE_LIMIT_EXCEEDED"
  const ExternalApiError := "EXTERNAL_API_ERROR"
  const InternalError := "INTERNAL_ERROR"
  const Unauthorized := "UNAUTHORIZED"
  const InvalidQuery := "INVALID_QUERY"
  const ServiceUnavailable := "SERVICE_UNAVAILABLE"
  const ResourceNotFound := "RESOURCE_NOT_FOUND"

  const UnexpectedError := "An unexpected error occurred"
  const MaskedMessage := "Internal server error"

  /** The class an error was constructed from, for the `instanceof` tests: the four
      `CustomError` subclasses, `CustomError` itself, or anything else. */
  datatype ErrorClass = ValidationClass | RateLimitClass | ExternalApiClass | ResearchClass | CustomClass | OtherClass

  /** A thrown error: its class, `name`, `message`, and the `statusCode`, `code` and
      `details` a `CustomError` carries (ignored for other errors). */
  datatype Thrown = Thrown(cls: ErrorClass, name: string, message: string,
                           statusCode: nat, code: string, details: Option<Js>)

  /** `new ValidationError(message, details)`. */
  function NewValidationError(message: string, details: Option<Js>): (e: Thrown)
    ensures e.cls == ValidationClass && e.statusCode == 400 && e.code == InvalidOptions
    ensures e.message == message && e.details == details && e.name == "ValidationError"
  {
    Thrown(ValidationClass, "ValidationError", message, 400, InvalidOptions, details)
  }

  /** `new RateLimitError(message?)`: the message defaults to `Rate limit exceeded`. */
  function NewRateLimitError(message: Option<string>): (e: Thrown)
    ensures e.cls == RateLimitClass && e.statusCode == 429 && e.code == RateLimitExceeded
    ensures e.message == message.GetOr("Rate limit exceeded") && e.details.None?
  {
    Thrown(RateLimitClass, "RateLimitError", message.GetOr("Rate limit exceeded"), 429, RateLimitExceeded, None)
  }

  /** `new ExternalAPIError(message, details)`. */
  function NewExternalAPIError(message: string, details: Option<Js>): (e: Thrown)
    ensures e.cls == ExternalApiClass && e.statusCode == 502 && e.code == ExternalApiError
    ensures e.message == message && e.details == details
  {
    Thrown(ExternalApiClass, "ExternalAPIError", message, 502, ExternalApiError, details)
  }

  /** `new ResearchError(message, statusCode?, code?, details?)`: 500 and `INTERNAL_ERROR`
      unless given. */
  function NewResearchError(message: string, statusCode: Option<nat>, code: Option<string>, details: Option<Js>): (e: Thrown)
    ensures e.cls == ResearchClass && e.message == message && e.details == details
    ensures e.statusCode == (if statusCode.Some? then statusCode.value else 500)
    ensures e.code == (if code.Some? then code.value else InternalError)
  {
    Thrown(ResearchClass, "ResearchError", message, statusCode.GetOr(500), code.GetOr(InternalError), details)
  }

  /** `createExternalAPIError(message, service, details)`: the service is appended to the
      message in parentheses. */
  function CreateExternalAPIError(message: string, service: string, details: Option<Js>): (e: Thrown)
    ensures e.cls == ExternalApiClass && e.details == details
    ensures StartsWith(e.message, message + " (") && EndsWith(e.message, service + ")")
    ensures |e.message| == |message| + |service| + 3
    ensures Contains(e.message, service)
  {
    ContainsMiddle(message + " (", service, ")");
    var m := message + " (" + service + ")";
    assert m[..|message + " ("|] == message + " (";
    assert m[|m| - |service + ")"|..] == service + ")";
    NewExternalAPIError(message + " (" + service + ")", details)
  }

  /** The status, code, message and details the case analysis settles on. */
  datatype Classified = Classified(status: nat, code: string, message: string, details: Option<Js>)

  /** The case analysis of `errorHandler`, first matching branch wins: the four classes,
      then the names, then the message substrings; anything else is an unexpected 500. */
  function Classify(e: Thrown): (c: Classified)
    ensures e.cls in {ValidationClass, RateLimitClass, ExternalApiClass, ResearchClass} ==>
      c.code == e.code && c.message == e.message
    ensures e.cls !in {ValidationClass, RateLimitClass, ExternalApiClass, ResearchClass} ==>
      c.status in {400, 401, 503, 500}
    ensures c.status == 401 <==>
      (e.cls in {CustomClass, OtherClass} && e.name != "ValidationError"
       && (e.name == "UnauthorizedError" || Contains(e.message, "jwt")))
      || (e.cls == ResearchClass && e.statusCode == 401)
  {
    match e.cls
    case ValidationClass => Classified(400, e.code, e.message, e.details)
    case RateLimitClass => Classified(429, e.code, e.message, None)
    case ExternalApiClass => Classified(502, e.code, e.message, e.details)
    case ResearchClass => Classified(e.statusCode, e.code, e.message, e.details)
    case _ =>
      if e.name == "ValidationError" then
        Classified(400, InvalidOptions, "Invalid request data", Some(JStr(e.message)))
      else if e.name == "UnauthorizedError" || Contains(e.message, "jwt") then
        Classified(401, Unauthorized, "Authentication required", None)
      else if e.name == "CastError" || e.name == "SyntaxError" then
        Classified(400, InvalidQuery, "Invalid request format", None)
      else if Contains(e.message, "ENOTFOUND") || Contains(e.message, "ECONNREFUSED") then
        Classified(503, ServiceUnavailable, "External service unavailable", None)
      else
        Classified(500, InternalError, UnexpectedError, None)
  }

  /** The production rule: a 500 loses its message and details; any other status is kept. */
  function Mask(c: Classified, production: bool): (r: Classified)
    ensures r.status == c.status && r.code == c.code
    ensures production && c.status == 500 ==> r.message == MaskedMessage && r.details.None?
    ensures !(production && c.status == 500) ==> r == c
  {
    if production && c.status == 500 then c.(message := MaskedMessage, details := None) else c
  }

  /** The JSON error body: `success` is always `false`. */
  datatype ErrorResponse = ErrorResponse(status: nat, code: string, message: string,
                                         details: Option<Js>, timestamp: string, requestId: string)

  /** `x-request-id` when the header is present and non-empty, the random id otherwise. */
  function RequestId(header: Option<string>, random: string): (r: string)
    ensures header.Some? && header.value != "" ==> r == header.value
    ensures header.None? || header.value == "" ==> r == random
  {
    if header.Some? && header.value != "" then header.value else random
  }

  /** `errorHandler`: classification, production masking, and the body, which holds
      `details` only when they are truthy. */
  function HandleError(e: Thrown, production: bool, header: Option<string>, random: string,
                       timestamp: string): (r: ErrorResponse)
    ensures r.status == Classify(e).status && r.code == Classify(e).code
    ensures r.timestamp == timestamp && r.requestId == RequestId(header, random)
    ensures r.details.Some? ==> Truthy(r.details.value)
    ensures production && r.status == 500 ==> r.message == MaskedMessage && r.details.None?
    ensures !(production && r.status == 500) ==> r.message == Classify(e).message
  {
    var c := Mask(Classify(e), production);
    ErrorResponse(c.status, c.code, c.message,
                  if c.details.Some? && Truthy(c.details.value) then c.details else None,
                  timestamp, RequestId(header, random))
  }

  /** The four classes are recognised by class alone: whatever their name or message, they
      answer with their own status, code and message, even a message that mentions `jwt`. */
  lemma ClassesFirst(e: Thrown)
    requires e.cls in {ValidationClass, RateLimitClass, ExternalApiClass, ResearchClass}
    ensures Classify(e).code == e.code && Classify(e).message == e.message
    ensures Classify(e).status == match e.cls
      case ValidationClass => 400
      case RateLimitClass => 429
      case ExternalApiClass => 502
      case _ => e.statusCode
  {
  }

  /** Each constructor's error classifies to the status and code it was built with. */
  lemma ConstructedRoundTrip(message: string, service: string, statusCode: Option<nat>,
                             code: Option<string>, details: Option<Js>)
    ensures var c := Classify(NewValidationError(message, details));
      c == Classified(400, InvalidOptions, message, details)
    ensures var c := Classify(NewRateLimitError(None));
      c == Classified(429, RateLimitExceeded, "Rate limit exceeded", None)
    ensures var c := Classify(CreateExternalAPIError(message, service, details));
      c.status == 502 && c.code == ExternalApiError && Contains(c.message, service)
    ensures var c := Classify(NewResearchError(message, statusCode, code, details));
      c.status == statusCode.GetOr(500) && c.code == code.GetOr(InternalError)
  {
  }

  /** An error matching no rule is an unexpected 500 with the internal-error code. */
  lemma UnmatchedIsInternal(e: Thrown)
    requires e.cls in {CustomClass, OtherClass}
    requires e.name !in {"ValidationError", "UnauthorizedError", "CastError", "SyntaxError"}
    requires !Contains(e.message, "jwt") && !Contains(e.message, "ENOTFOUND")
    requires !Contains(e.message, "ECONNREFUSED")
    ensures Classify(e) == Classified(500, InternalError, UnexpectedError, None)
  {
  }

  /** Name rules come before message rules, and the `jwt` rule before the format rule: an
      error named `CastError` whose message mentions `jwt` is an authentication failure, and
      one named `SyntaxError` that mentions `ECONNREFUSED` is a format error. */
  lemma NameBeforeMessage(e: Thrown)
    requires e.cls in {CustomClass, OtherClass} && e.name != "ValidationError"
    ensures e.name == "CastError" && Contains(e.message, "jwt") ==> Classify(e).status == 401
    ensures e.name == "SyntaxError" && !Contains(e.message, "jwt") ==>
      Classify(e) == Classified(400, InvalidQuery, "Invalid request format", None)
  {
  }

  /** The rules for errors outside the four classes, each applying once the earlier ones
      have not: authentication, then request format, then an unreachable service. */
  lemma MessageRules(e: Thrown)
    requires e.cls in {CustomClass, OtherClass} && e.name != "ValidationError"
    ensures var auth := e.name == "UnauthorizedError" || Contains(e.message, "jwt");
      var format := e.name == "CastError" || e.name == "SyntaxError";
      var down := Contains(e.message, "ENOTFOUND") || Contains(e.message, "ECONNREFUSED");
      && (auth ==> Classify(e) == Classified(401, Unauthorized, "Authentication required", None))
      && (!auth && format ==> Classify(e) == Classified(400, InvalidQuery, "Invalid request format", None))
      && (!auth && !format && down ==>
            Classify(e) == Classified(503, ServiceUnavailable, "External service unavailable", None))
      && (!auth && !format && !down ==> Classify(e) == Classified(500, InternalError, UnexpectedError, None))
  {
  }

  /** A non-class error named `ValidationError` is a 400 whose details are its message. */
  lemma NamedValidation(e: Thrown)
    requires e.cls in {CustomClass, OtherClass} && e.name == "ValidationError"
    ensures Classify(e) == Classified(400, InvalidOptions, "Invalid request data", Some(JStr(e.message)))
  {
  }

  /** Masking touches 500 responses only, and in production no 500 body shows the
      original message or any details. */
  lemma MaskingOnly500(e: Thrown, header: Option<string>, random: string, timestamp: string)
    ensures var dev := HandleError(e, false, header, random, timestamp);
      var prod := HandleError(e, true, header, random, timestamp);
      && prod.status == dev.status && prod.code == dev.code
      && (dev.status != 500 ==> prod == dev)
      && (dev.status == 500 ==> prod.message == MaskedMessage && prod.details.None?)
  {
  }

  /** The body carries `details` exactly when the classified details are truthy (after
      masking). */
  lemma DetailsOnlyWhenTruthy(e: Thrown, production: bool, header: Option<string>, random: string, timestamp: string)
    ensures var r := HandleError(e, production, header, random, timestamp);
      var c := Mask(Classify(e), production);
      r.details.Some? <==> (c.details.Some? && Truthy(c.details.value))
  {
  }

  /** `notFoundHandler`: 404 `RESOURCE_NOT_FOUND` naming the method and the URL. */
  function NotFound(verb: string, url: string, random: string, timestamp: string): (r: ErrorResponse)
    ensures r.status == 404 && r.code == ResourceNotFound && r.details.None?
    ensures r.requestId == random
    ensures StartsWith(r.message, "Route ") && EndsWith(r.message, " not found")
    ensures Contains(r.message, verb + " " + url)
    ensures r.message == "Route " + verb + " " + url + " not found"
    ensures r.timestamp == timestamp
  {
    var middle := verb + " " + url;
    var message := "Route " + middle + " not found";
    ContainsMiddle("Route ", middle, " not found");
    assert message[|message| - |" not found"|..] == " not found";
    ErrorResponse(404, ResourceNotFound, message, None, timestamp, random)
  }
}

=== FILE: json.dfy ===
/** JSON values as the request handlers receive them after parsing, and JavaScript
    truthiness on them. */
module Json {

  datatype Js =
    | JNull
    | JBool(b: bool)
    | JNum(n: real)
    | JStr(s: string)
    | JArr(items: seq<Js>)
    | JObj(fields: map<string, Js>)

  /** The empty object `{}`. */
  const EmptyObject: Js := JObj(map[])

  /** JavaScript truthiness: `null`, `false`, `0` and `''` are falsy, everything else truthy. */
  predicate Truthy(v: Js) {
    match v
    case JNull => false
    case JBool(b) => b
    case JNum(n) => n != 0.0
    case JStr(s) => s != ""
    case _ => true
  }

  /** The own keys an object spread `...v` copies; a value that is not an object
      contributes none. */
  function OwnFields(v: Js): (r: map<string, Js>)
    ensures v.JObj? ==> r == v.fields
    ensures !v.JObj? ==> r == map[]
  {
    if v.JObj? then v.fields else map[]
  }
}

=== FILE: mock_research.dfy ===
/** The keyword-matched mock research of the simple Express server and of the first
    Next.js research route: after a delay, the session is completed with the canned result
    of the first known topic the lower-cased query contains, or with a generic result that
    quotes the query. */
module MockResearch {
  import opened Wrappers
  import opened Text
  import opened Sessions

  datatype MockSource = MockSource(title: string, url: string, kind: string)

  datatype MockResult = MockResult(summary: string, sources: seq<MockSource>, insights: seq<string>)

  /** The keys of `mockResults`, in declaration order. */
  const Topics: seq<string> := ["quantum computing", "ai safety"]

  /** The result stored under "quantum computing". */
  const QuantumResult := MockResult(
    "Quantum computing is advancing rapidly with IBM, Google, and other companies making significant breakthroughs in 2024.",
    [ MockSource("Quantum Supremacy Achieved", "https://arxiv.org/example1", "academic"),
      MockSource("IBM's Latest Quantum Processor", "https://news.example.com/ibm", "news") ],
    ["Quantum error correction improving", "Commercial applications emerging"])

  /** The result stored under "ai safety". */
  const SafetyResult := MockResult(
    "AI safety research focuses on alignment, interpretability, and robust governance frameworks.",
    [ MockSource("Constitutional AI Methods", "https://arxiv.org/example2", "academic"),
      MockSource("OpenAI Safety Update", "https://openai.com/safety", "news") ],
    ["Constitutional AI showing promise", "Industry alignment on safety standards"])

  /** The canned result stored under `Topics[i]`. */
  function TopicResult(i: nat): MockResult
    requires i < |Topics|
  {
    if i == 0 then QuantumResult else SafetyResult
  }

  /** The closing sentence of the generic summary in `simple-server.js`. */
  const SimpleServerTail := "This is a mock response demonstrating the system's capability."
  /** The closing sentence of the generic summary in `app/api/research/route.js`. */
  const RouteTail := "This demonstrates the AI research assistant capability."
  /** The acknowledgement message both variants send. */
  const StartedMessage := "Research session started"

  /** The result for a query that names no known topic. */
  function GenericResult(query: string, tail: string): (r: MockResult)
    ensures Contains(r.summary, query)
    ensures |r.sources| == 2 && |r.insights| == 3
  {
    var before := "Research completed for: \"";
    var after := "\". " + tail;
    ContainsMiddle(before, query, after);
    MockResult(
      before + query + after,
      [ MockSource("Relevant Academic Paper", "https://arxiv.org/mock", "academic"),
        MockSource("Industry News Article", "https://news.mock.com", "news") ],
      ["Key finding 1", "Important trend 2", "Notable development 3"])
  }

  /** The first of `topics` from index `from` on that `keywords` contains. */
  function FirstTopic(keywords: string, topics: seq<string>, from: nat): (r: Option<nat>)
    decreases |topics| - from
    ensures r.Some? ==> from <= r.value < |topics| && Contains(keywords, topics[r.value])
    ensures r.Some? ==> forall j :: from <= j < r.value ==> !Contains(keywords, topics[j])
    ensures r.None? ==> forall j :: from <= j < |topics| ==> !Contains(keywords, topics[j])
  {
    if from >= |topics| then None
    else if Contains(keywords, topics[from]) then Some(from)
    else FirstTopic(keywords, topics, from + 1)
  }

  /** The result the completion step stores for `query`. */
  function MockResultFor(query: string, tail: string): (r: MockResult)
    ensures (exists i :: 0 <= i < |Topics| && Contains(ToLower(query), Topics[i])) ==>
      r in {QuantumResult, SafetyResult}
    ensures (forall i :: 0 <= i < |Topics| ==> !Contains(ToLower(query), Topics[i])) ==>
      r == GenericResult(query, tail) && Contains(r.summary, query)
  {
    match FirstTopic(ToLower(query), Topics, 0)
    case Some(i) => TopicResult(i)
    case None => GenericResult(query, tail)
  }

  /** The body of the delayed completion: `query.toLowerCase()`, then the `for...of` over
      `mockResults` that stops at the first contained topic, then the generic fallback. */
  method PickResult(query: string, tail: string) returns (results: MockResult)
    ensures results == MockResultFor(query, tail)
  {
    var keywords := ToLower(query);
    var topics := Topics;
    var found: Option<nat> := None;
    var i := 0;
    while i < |topics|
      invariant 0 <= i <= |topics|
      invariant found.None?
      invariant FirstTopic(keywords, topics, i) == FirstTopic(keywords, topics, 0)
    {
      if Contains(keywords, topics[i]) {
        found := Some(i);
        break;
      }
      i := i + 1;
    }
    if found.None? {
      results := GenericResult(query, tail);
    } else {
      results := TopicResult(found.value);
    }
  }

  /** A query that spells out "quantum computing", in any mix of letter case, gets the
      quantum-computing result, whatever else it names: that topic is declared first. */
  lemma QuantumFirst(query: string, tail: string)
    requires Contains(ToLower(query), "quantum computing")
    ensures MockResultFor(query, tail) == TopicResult(0)
  {
    assert Topics[0] == "quantum computing";
    assert FirstTopic(ToLower(query), Topics, 0) == Some(0);
  }

  /** A query containing "ai safety" but not "quantum computing" gets the AI-safety result. */
  lemma SafetySecond(query: string, tail: string)
    requires Contains(ToLower(query), "ai safety")
    requires !Contains(ToLower(query), "quantum computing")
    ensures MockResultFor(query, tail) == TopicResult(1)
  {
    assert Topics[0] == "quantum computing" && Topics[1] == "ai safety";
    assert FirstTopic(ToLower(query), Topics, 1) == Some(1);
  }

  /** A query naming no topic gets the generic result, which quotes the query. */
  lemma GenericQuotesQuery(query: string, tail: string)
    requires forall j :: 0 <= j < |Topics| ==> !Contains(ToLower(query), Topics[j])
    ensures MockResultFor(query, tail) == GenericResult(query, tail)
    ensures Contains(MockResultFor(query, tail).summary, query)
  {
  }

  /** A topic written in lower case inside the query is found after lower-casing. */
  lemma LiteralTopicFound(query: string, tail: string)
    requires Contains(query, "quantum computing")
    ensures MockResultFor(query, tail) == TopicResult(0)
  {
    ContainsAfterLower(query, "quantum computing");
    QuantumFirst(query, tail);
  }

  /** The delayed completion callback: the session gets the result picked for its own query
      and is completed; its id, query and options, and every other session, are unchanged. */
  method CompleteMockSession(store: SessionStore<MockResult>, id: string, tail: string, completedAt: string)
    requires store.Valid() && id in store.sessions
    modifies store
    ensures store.Valid()
    ensures store.order == old(store.order) && store.counter == old(store.counter)
    ensures store.sessions == old(store.sessions)[id := old(store.sessions[id]).(
      status := Completed, progress := 100,
      results := Some(MockResultFor(old(store.sessions[id].query), tail)),
      completedAt := Some(completedAt))]
  {
    var results := PickResult(store.sessions[id].query, tail);
    store.Complete(id, results, completedAt);
  }
}

=== FILE: records.dfy ===
/** The normalised records the research adapters hand to the aggregator. */
module Records {
  import opened Wrappers

  /** A content record: `{title, summary, url, source, type}`, plus `publishedAt` for news.
      Fields a record may lack are optional. */
  datatype Source = Source(
    title: string,
    summary: Option<string>,
    url: Option<string>,
    source: string,
    kind: string,
    publishedAt: Option<string>)

  /** An image record: `{url, description, photographer, source}`, plus `type` for the
      generated visualisation. */
  datatype Image = Image(
    url: string,
    description: Option<string>,
    photographer: Option<string>,
    source: Option<string>,
    kind: Option<string>)

  /** The fields of an Unsplash search hit the adapters read: `urls.small`, `description`,
      `alt_description` and `user.name`. */
  datatype UnsplashPhoto = UnsplashPhoto(
    small: string,
    description: Option<string>,
    altDescription: Option<string>,
    userName: string)

  /** The fields of a Pexels search hit the adapter reads: `src.medium`, `alt`, `photographer`. */
  datatype PexelsPhoto = PexelsPhoto(medium: string, alt: Option<string>, photographer: string)

  /** Number of records of the given `type`. */
  function CountKind(sources: seq<Source>, kind: string): (n: nat)
    ensures n <= |sources|
  {
    if |sources| == 0 then 0
    else (if sources[0].kind == kind then 1 else 0) + CountKind(sources[1..], kind)
  }

  lemma {:induction false} CountKindAppend(a: seq<Source>, b: seq<Source>, kind: string)
    ensures CountKind(a + b, kind) == CountKind(a, kind) + CountKind(b, kind)
  {
    if |a| > 0 {
      assert (a + b)[1..] == a[1..] + b;
      CountKindAppend(a[1..], b, kind);
    } else {
      assert a + b == b;
    }
  }

  /** Every record of `sources` has the given `type`. */
  predicate AllKind(sources: seq<Source>, kind: string) {
    forall k :: 0 <= k < |sources| ==> sources[k].kind == kind
  }

  lemma {:induction false} CountKindAll(sources: seq<Source>, kind: string)
    requires AllKind(sources, kind)
    ensures CountKind(sources, kind) == |sources|
  {
    if |sources| > 0 {
      CountKindAll(sources[1..], kind);
    }
  }

  lemma {:induction false} CountKindNone(sources: seq<Source>, kind: string)
    requires forall k :: 0 <= k < |sources| ==> sources[k].kind != kind
    ensures CountKind(sources, kind) == 0
  {
    if |sources| > 0 {
      CountKindNone(sources[1..], kind);
    }
  }
}

=== FILE: session_store.dfy ===
/** The in-memory research session store that the four research route variants share:
    a `Map` from session id to session, filled in insertion order, and a counter that
    names each new session `session_N`.  A session starts `running` with progress 0 and
    is later settled `completed` (with results) or `error` (with a message). */
module Sessions {
  import opened Wrappers
  import opened Text
  import opened Json

  datatype Status = Running | Completed | Error

  /** The status string the handlers send. */
  function StatusName(s: Status): string {
    match s
    case Running => "running"
    case Completed => "completed"
    case Error => "error"
  }

  datatype Session<R> = Session(
    id: string,
    query: string,
    options: Js,
    status: Status,
    createdAt: string,
    progress: nat,
    results: Option<R>,
    completedAt: Option<string>,
    error: Option<string>)

  /** A list entry: the session without its options, progress and results. */
  datatype Summary = Summary(id: string, query: string, status: Status, createdAt: string, completedAt: Option<string>)

  /** The status endpoint's payload. */
  datatype StatusView = StatusView(sessionId: string, status: Status, progress: nat)

  /** The JSON body of a POST, as far as the handlers read it. */
  datatype Body = Body(query: Option<string>, options: Option<Js>)

  /** A handler's answer: the `started` acknowledgement, or an error status with its message. */
  datatype Reply =
    | Started(sessionId: string, status: Status, message: string)
    | Rejected(code: nat, message: string)

  const QueryRequired := "Query is required"
  const SessionNotFound := "Research session not found"
  const InternalServerError := "Internal server error"

  /** `!query`: an absent or empty query. */
  predicate Falsy(query: Option<string>) {
    query.None? || query.value == ""
  }

  /** `` `session_${n}` `` */
  function SessionId(n: nat): (r: string)
    ensures StartsWith(r, "session_") && |r| > |"session_"|
    ensures forall k :: |"session_"| <= k < |r| ==> '0' <= r[k] <= '9'
  {
    "session_" + NatToString(n)
  }

  /** Distinct counter values give distinct session ids. */
  lemma SessionIdInjective(a: nat, b: nat)
    requires SessionId(a) == SessionId(b)
    ensures a == b
  {
    PrefixCancel("session_", NatToString(a), NatToString(b));
    NatToStringInjective(a, b);
  }

  /** A freshly created session. */
  function NewSession<R>(id: string, query: string, options: Js, createdAt: string): Session<R> {
    Session(id, query, options, Running, createdAt, 0, None, None, None)
  }

  /** The fields a session's status implies. */
  predicate WellStaged<R>(s: Session<R>) {
    && (s.status == Running ==> s.progress == 0 && s.results.None? && s.completedAt.None? && s.error.None?)
    && (s.status == Completed ==> s.progress == 100 && s.results.Some? && s.completedAt.Some?)
    && (s.status == Error ==> s.error.Some?)
  }

  /** The list projection of one session. */
  function Summarize<R>(s: Session<R>): Summary {
    Summary(s.id, s.query, s.status, s.createdAt, s.completedAt)
  }

  /** The sessions named by `ids`, projected, in the order of `ids`. */
  function Project<R>(ids: seq<string>, sessions: map<string, Session<R>>): (r: seq<Summary>)
    requires forall k :: 0 <= k < |ids| ==> ids[k] in sessions
    ensures |r| == |ids|
    ensures forall k :: 0 <= k < |ids| ==> r[k] == Summarize(sessions[ids[k]])
  {
    if |ids| == 0 then [] else [Summarize(sessions[ids[0]])] + Project(ids[1..], sessions)
  }

  /** A stored session carries the id it is stored under, a non-empty query and the fields
      its status implies. */
  predicate GoodSession<R>(id: string, s: Session<R>) {
    s.id == id && s.query != "" && WellStaged(s)
  }

  /** The store's invariant on its three fields: the ids are `session_1`, `session_2`, ... in
      insertion order, the counter names the next one, the map holds exactly those ids and
      every stored session is good. */
  ghost predicate StoreInv<R>(counter: nat, order: seq<string>, sessions: map<string, Session<R>>) {
    && counter == |order| + 1
    && (forall k :: 0 <= k < |order| ==> order[k] == SessionId(k + 1))
    && (forall id :: id in sessions <==> id in order)
    && (forall id :: id in sessions ==> GoodSession(id, sessions[id]))
  }

  /** Replacing a stored session by a good one keeps the invariant. */
  lemma ReplaceKeepsInv<R>(counter: nat, order: seq<string>, sessions: map<string, Session<R>>,
                           id: string, s: Session<R>)
    requires StoreInv(counter, order, sessions) && id in sessions && GoodSession(id, s)
    ensures StoreInv(counter, order, sessions[id := s])
  {
  }

  /** Storing a good session under the id the counter names, and advancing the counter,
      keeps the invariant. */
  lemma InsertKeepsInv<R>(counter: nat, order: seq<string>, sessions: map<string, Session<R>>,
                          s: Session<R>)
    requires StoreInv(counter, order, sessions) && GoodSession(SessionId(counter), s)
    ensures StoreInv(counter + 1, order + [SessionId(counter)], sessions[SessionId(counter) := s])
  {
    var order' := order + [SessionId(counter)];
    assert forall k :: 0 <= k < |order| ==> order'[k] == order[k];
  }

  class SessionStore<R> {
    /** The `message` of the started acknowledgement, which differs between variants. */
    const startedMessage: string
    /** The `researchSessions` map. */
    var sessions: map<string, Session<R>>
    /** The map's keys in insertion order, the order in which `values()` yields sessions. */
    var order: seq<string>
    /** `sessionCounter`: the number the next session will carry. */
    var counter: nat

    ghost predicate Valid()
      reads this
    {
      StoreInv(counter, order, sessions)
    }

    constructor (startedMessage: string)
      ensures Valid()
      ensures this.startedMessage == startedMessage
      ensures sessions == map[] && order == [] && counter == 1
    {
      this.startedMessage := startedMessage;
      sessions := map[];
      order := [];
      counter := 1;
    }

    /** Every id ever issued is `session_k` for a k below the counter. */
    lemma IssuedBelowCounter(id: string)
      requires Valid() && id in sessions
      ensures exists k :: 1 <= k < counter && id == SessionId(k)
    {
      var i :| 0 <= i < |order| && order[i] == id;
      assert id == SessionId(i + 1);
    }

    /** The id the counter names next is not in use. */
    lemma NextIdFresh()
      requires Valid()
      ensures SessionId(counter) !in sessions
    {
      if SessionId(counter) in sessions {
        IssuedBelowCounter(SessionId(counter));
        var k :| 1 <= k < counter && SessionId(counter) == SessionId(k);
        SessionIdInjective(counter, k);
      }
    }

    /** `POST`: a falsy query is refused with 400 and nothing is stored; otherwise the next
        id is issued, the counter advances and a running session is inserted.  A body that
        cannot be parsed as JSON gives 500. */
    method Post(body: Option<Body>, createdAt: string) returns (reply: Reply)
      requires Valid()
      modifies this
      ensures Valid()
      ensures body.None? ==> reply == Rejected(500, InternalServerError) && unchanged(this)
      ensures body.Some? && Falsy(body.value.query) ==>
        reply == Rejected(400, QueryRequired) && unchanged(this)
      ensures body.Some? && !Falsy(body.value.query) ==>
        && reply == Started(SessionId(old(counter)), Running, startedMessage)
        && reply.sessionId !in old(sessions)
        && counter == old(counter) + 1
        && order == old(order) + [reply.sessionId]
        && sessions == old(sessions)[reply.sessionId :=
             NewSession(reply.sessionId, body.value.query.value,
                        body.value.options.GetOr(EmptyObject), createdAt)]
    {
      if body.None? {
        return Rejected(500, InternalServerError);
      }
      var query := body.value.query;
      if Falsy(query) {
        return Rejected(400, QueryRequired);
      }
      var id := SessionId(counter);
      NextIdFresh();
      var session := NewSession(id, query.value, body.value.options.GetOr(EmptyObject), createdAt);
      InsertKeepsInv(counter, order, sessions, session);
      counter := counter + 1;
      sessions := sessions[id := session];
      order := order + [id];
      reply := Started(id, Running, startedMessage);
    }

    /** Resolution: status `completed`, progress 100, the results and the completion time;
        everything else about the session, and every other session, unchanged. */
    method Complete(id: string, results: R, completedAt: string)
      requires Valid() && id in sessions
      modifies this
      ensures Valid()
      ensures order == old(order) && counter == old(counter)
      ensures sessions == old(sessions)[id := old(sessions[id]).(
        status := Completed, progress := 100, results := Some(results), completedAt := Some(completedAt))]
    {
      var settled := sessions[id].(
        status := Completed, progress := 100, results := Some(results), completedAt := Some(completedAt));
      ReplaceKeepsInv(counter, order, sessions, id, settled);
      sessions := sessions[id := settled];
    }

    /** Rejection where only the message is kept: status `error` and the error message;
        results, progress and completion time untouched. */
    method Fail(id: string, message: string)
      requires Valid() && id in sessions
      modifies this
      ensures Valid()
      ensures order == old(order) && counter == old(counter)
      ensures sessions == old(sessions)[id := old(sessions[id]).(status := Error, error := Some(message))]
    {
      var failed := sessions[id].(status := Error, error := Some(message));
      ReplaceKeepsInv(counter, order, sessions, id, failed);
      sessions := sessions[id := failed];
    }

    /** Rejection that also stores substitute results: status `error`, the error message and
        the given results; progress and completion time untouched. */
    method FailWithResults(id: string, message: string, results: R)
      requires Valid() && id in sessions
      modifies this
      ensures Valid()
      ensures order == old(order) && counter == old(counter)
      ensures sessions == old(sessions)[id := old(sessions[id]).(
        status := Error, error := Some(message), results := Some(results))]
    {
      var failed := sessions[id].(status := Error, error := Some(message), results := Some(results));
      ReplaceKeepsInv(counter, order, sessions, id, failed);
      sessions := sessions[id := failed];
    }

    /** `GET /research/:sessionId`: the stored session, or 404. */
    function Get(id: string): (r: Result<Session<R>, Reply>)
      reads this
      ensures r.Success? <==> id in sessions
      ensures r.Success? ==> r.value == sessions[id]
      ensures r.Failure? ==> r.error == Rejected(404, SessionNotFound)
    {
      if id in sessions then Success(sessions[id]) else Failure(Rejected(404, SessionNotFound))
    }

    /** `GET /research/:sessionId/status`: exactly the id, status and progress, or 404. */
    function StatusOf(id: string): (r: Result<StatusView, Reply>)
      reads this
      ensures r.Success? <==> id in sessions
      ensures r.Success? ==> r.value.sessionId == id && r.value.status == sessions[id].status
                             && r.value.progress == sessions[id].progress
      ensures r.Failure? ==> r.error == Rejected(404, SessionNotFound)
    {
      if id in sessions then Success(StatusView(id, sessions[id].status, sessions[id].progress))
      else Failure(Rejected(404, SessionNotFound))
    }

    /** `GET /research`: one entry per stored session, in insertion order. */
    function List(): (r: seq<Summary>)
      reads this
      requires Valid()
      ensures |r| == |order| == |sessions|
      ensures forall k :: 0 <= k < |r| ==> order[k] in sessions && r[k] == Summarize(sessions[order[k]])
    {
      DistinctOrder();
      Project(order, sessions)
    }

    /** The insertion order lists every stored session exactly once. */
    lemma DistinctOrder()
      requires Valid()
      ensures |order| == |sessions|
      ensures forall k :: 0 <= k < |order| ==> order[k] in sessions
    {
      forall j, k | 0 <= j < k < |order| ensures order[j] != order[k] {
        if order[j] == order[k] {
          SessionIdInjective(j + 1, k + 1);
        }
      }
      SeqSetCard(order);
      assert sessions.Keys == set id | id in order;
    }
  }

  /** The lookup of the separate `[sessionId]` route as written: it consults a map of its
      own that no handler ever fills, so every id, even one just issued, is not found. */
  method DetachedGet<R>(id: string) returns (r: Result<Session<R>, Reply>)
    ensures r == Failure(Rejected(404, SessionNotFound))
  {
    var own := new SessionStore<R>("");
    r := own.Get(id);
  }

  /** Creating a session and then looking it up in the store that created it, as the
      detached route evidently meant to: the new session is found, running, with the query
      that was posted. */
  method PostThenGet<R>(store: SessionStore<R>, body: Body, createdAt: string)
    returns (reply: Reply, fetched: Result<Session<R>, Reply>)
    requires store.Valid() && !Falsy(body.query)
    modifies store
    ensures store.Valid()
    ensures reply.Started? && fetched.Success?
    ensures fetched.value.id == reply.sessionId && fetched.value.query == body.query.value
    ensures fetched.value.status == Running && fetched.value.progress == 0
  {
    reply := store.Post(Some(body), createdAt);
    fetched := store.Get(reply.sessionId);
  }

  /** A sequence without repetitions has as many distinct elements as it is long. */
  lemma {:induction false} SeqSetCard<T>(s: seq<T>)
    requires forall j, k :: 0 <= j < k < |s| ==> s[j] != s[k]
    ensures |set x | x in s| == |s|
  {
    if |s| > 0 {
      SeqSetCard(s[1..]);
      var rest := set x | x in s[1..];
      assert (set x | x in s) == rest + {s[0]};
      assert s[0] !in rest;
    }
  }
}

=== FILE: shared_types.dfy ===
/** The types shared by the web app and the backend: the string enums, the research-query
    request schema with its option defaults, and the error classes.  The TypeScript source
    and its compiled JavaScript twin declare the same values; one model covers both. */
module SharedTypes {
  import opened Wrappers
  import opened Text
  import opened Json
  import opened ZodSchema
  import ErrorHandler

  // ---------------------------------------------------------------- enums

  datatype SourceType = Academic | News | Web | Books | Patents | Preprints

  function SourceTypeName(t: SourceType): string {
    match t
    case Academic => "academic"
    case News => "news"
    case Web => "web"
    case Books => "books"
    case Patents => "patents"
    case Preprints => "preprints"
  }

  /** `z.nativeEnum(SourceType)` on a string. */
  function ParseSourceType(s: string): (r: Option<SourceType>)
    ensures r.Some? ==> SourceTypeName(r.value) == s
  {
    if s == "academic" then Some(Academic)
    else if s == "news" then Some(News)
    else if s == "web" then Some(Web)
    else if s == "books" then Some(Books)
    else if s == "patents" then Some(Patents)
    else if s == "preprints" then Some(Preprints)
    else None
  }

  datatype ResearchStatus = Pending | Running | Completed | Failed | Cancelled

  function ResearchStatusName(s: ResearchStatus): string {
    match s
    case Pending => "pending"
    case Running => "running"
    case Completed => "completed"
    case Failed => "failed"
    case Cancelled => "cancelled"
  }

  function ParseResearchStatus(s: string): (r: Option<ResearchStatus>)
    ensures r.Some? ==> ResearchStatusName(r.value) == s
  {
    if s == "pending" then Some(Pending)
    else if s == "running" then Some(Running)
    else if s == "completed" then Some(Completed)
    else if s == "failed" then Some(Failed)
    else if s == "cancelled" then Some(Cancelled)
    else None
  }

  datatype JobType = ResearchQueryJob | SourceFetch | ContentAnalysis | CitationGeneration | ReportGeneration | Notification

  function JobTypeName(t: JobType): string {
    match t
    case ResearchQueryJob => "research_query"
    case SourceFetch => "source_fetch"
    case ContentAnalysis => "content_analysis"
    case CitationGeneration => "citation_generation"
    case ReportGeneration => "report_generation"
    case Notification => "notification"
  }

  function ParseJobType(s: string): (r: Option<JobType>)
    ensures r.Some? ==> JobTypeName(r.value) == s
  {
    if s == "research_query" then Some(ResearchQueryJob)
    else if s == "source_fetch" then Some(SourceFetch)
    else if s == "content_analysis" then Some(ContentAnalysis)
    else if s == "citation_generation" then Some(CitationGeneration)
    else if s == "report_generation" then Some(ReportGeneration)
    else if s == "notification" then Some(Notification)
    else None
  }

  datatype JobStatus = Waiting | Active | JobCompleted | JobFailed | Delayed | Paused

  function JobStatusName(s: JobStatus): string {
    match s
    case Waiting => "waiting"
    case Active => "active"
    case JobCompleted => "completed"
    case JobFailed => "failed"
    case Delayed => "delayed"
    case Paused => "paused"
  }

  function ParseJobStatus(s: string): (r: Option<JobStatus>)
    ensures r.Some? ==> JobStatusName(r.value) == s
  {
    if s == "waiting" then Some(Waiting)
    else if s == "active" then Some(Active)
    else if s == "completed" then Some(JobCompleted)
    else if s == "failed" then Some(JobFailed)
    else if s == "delayed" then Some(Delayed)
    else if s == "paused" then Some(Paused)
    else None
  }

  /** Each enum's string values are lower case and name their members one-to-one: parsing
      a member's value gives the member back, so no two members share a value. */
  lemma SourceTypeValues(t: SourceType)
    ensures IsLower(SourceTypeName(t)) && ParseSourceType(SourceTypeName(t)) == Some(t)
  {
    match t
    case Academic => case News => case Web => case Books => case Patents => case Preprints =>
  }

  lemma ResearchStatusValues(s: ResearchStatus)
    ensures IsLower(ResearchStatusName(s)) && ParseResearchStatus(ResearchStatusName(s)) == Some(s)
  {
    match s
    case Pending => case Running => case Completed => case Failed => case Cancelled =>
  }

  /** The job type values hold no upper-case letter. */
  lemma JobTypeLower(t: JobType)
    ensures IsLower(JobTypeName(t))
  {
    match t
    case ResearchQueryJob => assert IsLower("research_query");
    case SourceFetch => assert IsLower("source_fetch");
    case ContentAnalysis => assert IsLower("content_analysis");
    case CitationGeneration => assert IsLower("citation_generation");
    case ReportGeneration => assert IsLower("report_generation");
    case Notification => assert IsLower("notification");
  }

  lemma JobTypeValues(t: JobType)
    ensures IsLower(JobTypeName(t)) && ParseJobType(JobTypeName(t)) == Some(t)
  {
    JobTypeLower(t);
    match t
    case ResearchQueryJob => case SourceFetch => case ContentAnalysis =>
    case CitationGeneration => case ReportGeneration => case Notification =>
  }

  lemma JobStatusValues(s: JobStatus)
    ensures IsLower(JobStatusName(s)) && ParseJobStatus(JobStatusName(s)) == Some(s)
  {
    match s
    case Waiting => case Active => case JobCompleted => case JobFailed => case Delayed => case Paused =>
  }

  /** No two members of an enum share a value. */
  lemma EnumValuesDistinct(a: SourceType, b: SourceType, c: ResearchStatus, d: ResearchStatus,
                           e: JobType, f: JobType, g: JobStatus, h: JobStatus)
    ensures SourceTypeName(a) == SourceTypeName(b) ==> a == b
    ensures ResearchStatusName(c) == ResearchStatusName(d) ==> c == d
    ensures JobTypeName(e) == JobTypeName(f) ==> e == f
    ensures JobStatusName(g) == JobStatusName(h) ==> g == h
  {
    SourceTypeValues(a); SourceTypeValues(b);
    ResearchStatusValues(c); ResearchStatusValues(d);
    JobTypeValues(e); JobTypeValues(f);
    JobStatusValues(g); JobStatusValues(h);
  }

  datatype Depth = Quick | Standard | Comprehensive

  function DepthName(d: Depth): string {
    match d
    case Quick => "quick"
    case Standard => "standard"
    case Comprehensive => "comprehensive"
  }

  /** `z.enum(['quick', 'standard', 'comprehensive'])`. */
  function ParseDepth(v: Js): (r: Option<Depth>)
    ensures r.Some? <==> v.JStr? && v.s in {"quick", "standard", "comprehensive"}
    ensures r.Some? ==> JStr(DepthName(r.value)) == v
  {
    if v == JStr("quick") then Some(Quick)
    else if v == JStr("standard") then Some(Standard)
    else if v == JStr("comprehensive") then Some(Comprehensive)
    else None
  }

  datatype Timeframe = LastDay | LastWeek | LastMonth | LastYear | AllTime

  function TimeframeName(t: Timeframe): string {
    match t
    case LastDay => "last_day"
    case LastWeek => "last_week"
    case LastMonth => "last_month"
    case LastYear => "last_year"
    case AllTime => "all_time"
  }

  /** `z.enum(['last_day', 'last_week', 'last_month', 'last_year', 'all_time'])`. */
  function ParseTimeframe(v: Js): (r: Option<Timeframe>)
    ensures r.Some? ==> JStr(TimeframeName(r.value)) == v
  {
    if v == JStr("last_day") then Some(LastDay)
    else if v == JStr("last_week") then Some(LastWeek)
    else if v == JStr("last_month") then Some(LastMonth)
    else if v == JStr("last_year") then Some(LastYear)
    else if v == JStr("all_time") then Some(AllTime)
    else None
  }

  datatype CitationStyle = Apa | Mla | Chicago | Ieee

  function CitationStyleName(c: CitationStyle): string {
    match c
    case Apa => "apa"
    case Mla => "mla"
    case Chicago => "chicago"
    case Ieee => "ieee"
  }

  /** `z.enum(['apa', 'mla', 'chicago', 'ieee'])`. */
  function ParseCitationStyle(v: Js): (r: Option<CitationStyle>)
    ensures r.Some? ==> JStr(CitationStyleName(r.value)) == v
  {
    if v == JStr("apa") then Some(Apa)
    else if v == JStr("mla") then Some(Mla)
    else if v == JStr("chicago") then Some(Chicago)
    else if v == JStr("ieee") then Some(Ieee)
    else None
  }

  /** `z.nativeEnum(SourceType)` on a JSON value. */
  function SourceTypeOf(v: Js): (r: Option<SourceType>)
    ensures r.Some? ==> v == JStr(SourceTypeName(r.value))
  {
    if v.JStr? then ParseSourceType(v.s) else None
  }

  // ---------------------------------------------------------------- the request schema

  /** `z.array(z.nativeEnum(SourceType))`. */
  function SourcesOf(v: Js): Option<seq<SourceType>> {
    ArrayOf(v, SourceTypeOf)
  }

  /** `z.number().min(1).max(100)`. */
  function MaxSourcesOf(v: Js): Option<real> {
    NumberIn(v, 1.0, 100.0)
  }

  /** The options of a research query, every default filled in. */
  datatype Options = Options(
    depth: Depth,
    sources: seq<SourceType>,
    timeframe: Option<Timeframe>,
    background: bool,
    language: string,
    maxSources: real,
    includeImages: bool,
    includeVideos: bool,
    citationStyle: CitationStyle)

  datatype ResearchQuery = ResearchQuery(query: string, options: Options)

  const MaxQueryLength := 1000

  /** The options an empty or omitted `options` object stands for. */
  const DefaultOptions := Options(Standard, [Academic, Web], None, false, "en", 20.0, false, false, Apa)

  /** The options of an `options` object: each field parsed, or its default when absent;
      `timeframe` has no default; other keys are dropped. */
  function OptionsOf(f: map<string, Js>): (r: Option<Options>)
    ensures r.Some? ==> 1.0 <= r.value.maxSources <= 100.0
  {
    var depth := Defaulted(f, "depth", ParseDepth, Standard);
    var sources := Defaulted(f, "sources", SourcesOf, [Academic, Web]);
    var timeframe := ZodSchema.Optional(f, "timeframe", ParseTimeframe);
    var background := Defaulted(f, "background", Boolean, false);
    var language := Defaulted(f, "language", AnyString, "en");
    var maxSources := Defaulted(f, "maxSources", MaxSourcesOf, 20.0);
    var includeImages := Defaulted(f, "includeImages", Boolean, false);
    var includeVideos := Defaulted(f, "includeVideos", Boolean, false);
    var citationStyle := Defaulted(f, "citationStyle", ParseCitationStyle, Apa);
    if depth.Some? && sources.Some? && timeframe.Some? && background.Some? && language.Some?
       && maxSources.Some? && includeImages.Some? && includeVideos.Some? && citationStyle.Some?
    then Some(Options(depth.value, sources.value, timeframe.value, background.value, language.value,
                      maxSources.value, includeImages.value, includeVideos.value, citationStyle.value))
    else None
  }

  /** The `options` field: `.default({})` parses an omitted one as the empty object;
      anything but an object (`null` included) is refused. */
  function ParseOptions(v: Option<Js>): (r: Option<Options>)
    ensures v.Some? && !v.value.JObj? ==> r.None?
  {
    match v
    case None => OptionsOf(map[])
    case Some(JObj(f)) => OptionsOf(f)
    case Some(_) => None
  }

  /** `ResearchQuerySchema.safeParse`: an object whose `query` is a string of 1 to 1000
      characters and whose `options` parse. */
  function ParseResearchQuery(input: Js): (r: Option<ResearchQuery>)
    ensures r.Some? ==> 1 <= |r.value.query| <= MaxQueryLength
    ensures r.Some? ==> 1.0 <= r.value.options.maxSources <= 100.0
    ensures r.Some? ==> input.JObj? && "query" in input.fields && input.fields["query"] == JStr(r.value.query)
  {
    if !input.JObj? then None
    else
      var query := if "query" in input.fields then StringIn(input.fields["query"], 1, MaxQueryLength) else None;
      var options := ParseOptions(Field(input.fields, "options"));
      if query.Some? && options.Some? then Some(ResearchQuery(query.value, options.value)) else None
  }

  /** An omitted `options` and an empty one both give every default, with no timeframe. */
  lemma DefaultsApply()
    ensures ParseOptions(None) == Some(DefaultOptions)
    ensures ParseOptions(Some(EmptyObject)) == Some(DefaultOptions)
    ensures DefaultOptions.timeframe.None?
  {
  }

  /** A supplied `maxSources` outside 1..100, and a `null` options value, are refused. */
  lemma Refusals(f: map<string, Js>, n: real)
    requires n < 1.0 || n > 100.0
    ensures OptionsOf(f["maxSources" := JNum(n)]).None?
    ensures ParseOptions(Some(JNull)).None?
  {
  }

  /** The query string is bounded: an empty one or one over 1000 characters is refused. */
  lemma QueryBounds(f: map<string, Js>, q: string)
    requires |q| == 0 || |q| > MaxQueryLength
    ensures ParseResearchQuery(JObj(f["query" := JStr(q)])).None?
  {
  }

  /** Keys the schema does not name do not affect the outcome. */
  lemma UnknownKeysIgnored(f: map<string, Js>, key: string, v: Js)
    requires key != "query" && key != "options"
    ensures ParseResearchQuery(JObj(f[key := v])) == ParseResearchQuery(JObj(f))
  {
    assert Field(f[key := v], "options") == Field(f, "options");
  }

  function SourceTypeJson(t: SourceType): Js {
    JStr(SourceTypeName(t))
  }

  /** The JSON an options value is written as: every field, `timeframe` only when set. */
  function OptionsJson(o: Options): Js {
    var base := map[
      "depth" := JStr(DepthName(o.depth)),
      "sources" := JArr(EncodeAll(o.sources, SourceTypeJson)),
      "background" := JBool(o.background),
      "language" := JStr(o.language),
      "maxSources" := JNum(o.maxSources),
      "includeImages" := JBool(o.includeImages),
      "includeVideos" := JBool(o.includeVideos),
      "citationStyle" := JStr(CitationStyleName(o.citationStyle))];
    JObj(if o.timeframe.Some? then base["timeframe" := JStr(TimeframeName(o.timeframe.value))] else base)
  }

  /** The options an object yields once each of its fields is known to parse. */
  lemma OptionsOfFields(f: map<string, Js>, o: Options)
    requires Defaulted(f, "depth", ParseDepth, Standard) == Some(o.depth)
    requires Defaulted(f, "sources", SourcesOf, [Academic, Web]) == Some(o.sources)
    requires ZodSchema.Optional(f, "timeframe", ParseTimeframe) == Some(o.timeframe)
    requires Defaulted(f, "background", Boolean, false) == Some(o.background)
    requires Defaulted(f, "language", AnyString, "en") == Some(o.language)
    requires Defaulted(f, "maxSources", MaxSourcesOf, 20.0) == Some(o.maxSources)
    requires Defaulted(f, "includeImages", Boolean, false) == Some(o.includeImages)
    requires Defaulted(f, "includeVideos", Boolean, false) == Some(o.includeVideos)
    requires Defaulted(f, "citationStyle", ParseCitationStyle, Apa) == Some(o.citationStyle)
    ensures OptionsOf(f) == Some(o)
  {
  }

  lemma SourcesRoundTrip(sources: seq<SourceType>)
    ensures SourcesOf(JArr(EncodeAll(sources, SourceTypeJson))) == Some(sources)
  {
    forall k | 0 <= k < |sources| ensures SourceTypeOf(SourceTypeJson(sources[k])) == Some(sources[k]) {
      SourceTypeValues(sources[k]);
    }
    AllRoundTrip(sources, SourceTypeJson, SourceTypeOf);
  }

  lemma NamesRoundTrip(d: Depth, t: Timeframe, c: CitationStyle)
    ensures ParseDepth(JStr(DepthName(d))) == Some(d)
    ensures ParseTimeframe(JStr(TimeframeName(t))) == Some(t)
    ensures ParseCitationStyle(JStr(CitationStyleName(c))) == Some(c)
  {
    match d case Quick => case Standard => case Comprehensive =>
    match t case LastDay => case LastWeek => case LastMonth => case LastYear => case AllTime =>
    match c case Apa => case Mla => case Chicago => case Ieee =>
  }

  /** The enumerated fields of written options parse back. */
  lemma EnumFieldsRoundTrip(o: Options)
    ensures var f := OptionsJson(o).fields;
      && Defaulted(f, "depth", ParseDepth, Standard) == Some(o.depth)
      && ZodSchema.Optional(f, "timeframe", ParseTimeframe) == Some(o.timeframe)
      && Defaulted(f, "citationStyle", ParseCitationStyle, Apa) == Some(o.citationStyle)
  {
    var f := OptionsJson(o).fields;
    NamesRoundTrip(o.depth, o.timeframe.GetOr(AllTime), o.citationStyle);
    assert f["depth"] == JStr(DepthName(o.depth));
    assert f["citationStyle"] == JStr(CitationStyleName(o.citationStyle));
    if o.timeframe.Some? {
      assert f["timeframe"] == JStr(TimeframeName(o.timeframe.value));
    } else {
      assert "timeframe" !in f;
    }
  }

  /** The written source list parses back. */
  lemma SourcesFieldRoundTrip(o: Options)
    ensures Defaulted(OptionsJson(o).fields, "sources", SourcesOf, [Academic, Web]) == Some(o.sources)
  {
    SourcesRoundTrip(o.sources);
    assert OptionsJson(o).fields["sources"] == JArr(EncodeAll(o.sources, SourceTypeJson));
  }

  /** The written source maximum, within its range, and language parse back. */
  lemma ScalarFieldsRoundTrip(o: Options)
    requires 1.0 <= o.maxSources <= 100.0
    ensures var f := OptionsJson(o).fields;
      && Defaulted(f, "maxSources", MaxSourcesOf, 20.0) == Some(o.maxSources)
      && Defaulted(f, "language", AnyString, "en") == Some(o.language)
  {
    var f := OptionsJson(o).fields;
    assert f["maxSources"] == JNum(o.maxSources);
    assert f["language"] == JStr(o.language);
  }

  /** The flag fields of written options parse back. */
  lemma FlagFieldsRoundTrip(o: Options)
    ensures var f := OptionsJson(o).fields;
      && Defaulted(f, "background", Boolean, false) == Some(o.background)
      && Defaulted(f, "includeImages", Boolean, false) == Some(o.includeImages)
      && Defaulted(f, "includeVideos", Boolean, false) == Some(o.includeVideos)
  {
    var f := OptionsJson(o).fields;
    assert f["background"] == JBool(o.background);
    assert f["includeImages"] == JBool(o.includeImages);
    assert f["includeVideos"] == JBool(o.includeVideos);
  }

  /** Writing valid options as JSON and parsing them back gives the same options. */
  lemma OptionsRoundTrip(o: Options)
    requires 1.0 <= o.maxSources <= 100.0
    ensures ParseOptions(Some(OptionsJson(o))) == Some(o)
  {
    EnumFieldsRoundTrip(o);
    SourcesFieldRoundTrip(o);
    ScalarFieldsRoundTrip(o);
    FlagFieldsRoundTrip(o);
    OptionsOfFields(OptionsJson(o).fields, o);
  }

  /** A valid request written as JSON parses back to itself. */
  lemma ResearchQueryRoundTrip(q: ResearchQuery)
    requires 1 <= |q.query| <= MaxQueryLength && 1.0 <= q.options.maxSources <= 100.0
    ensures ParseResearchQuery(JObj(map["query" := JStr(q.query), "options" := OptionsJson(q.options)])) == Some(q)
  {
    OptionsRoundTrip(q.options);
  }

  // ---------------------------------------------------------------- error classes

  /** An error of the shared classes: `name`, `message`, `code`, `statusCode`, `details`. */
  datatype SharedError = SharedError(name: string, message: string, code: string, statusCode: nat, details: Option<Js>)

  /** `new ResearchError(message, code, statusCode?, details?)`: the status defaults to 500. */
  function NewResearchError(message: string, code: string, statusCode: Option<nat>, details: Option<Js>): (e: SharedError)
    ensures e.name == "ResearchError" && e.message == message && e.code == code && e.details == details
    ensures e.statusCode == if statusCode.Some? then statusCode.value else 500
  {
    SharedError("ResearchError", message, code, statusCode.GetOr(500), details)
  }

  /** `new ValidationError(message, details?)`. */
  function NewValidationError(message: string, details: Option<Js>): (e: SharedError)
    ensures e == SharedError("ValidationError", message, "VALIDATION_ERROR", 400, details)
  {
    NewResearchError(message, "VALIDATION_ERROR", Some(400), details).(name := "ValidationError")
  }

  /** `new RateLimitError(message?)`: the message defaults to `Rate limit exceeded`. */
  function NewRateLimitError(message: Option<string>): (e: SharedError)
    ensures e.name == "RateLimitError" && e.code == "RATE_LIMIT_ERROR" && e.statusCode == 429 && e.details.None?
    ensures message.None? ==> e.message == "Rate limit exceeded"
    ensures message.Some? ==> e.message == message.value
  {
    NewResearchError(message.GetOr("Rate limit exceeded"), "RATE_LIMIT_ERROR", Some(429), None).(name := "RateLimitError")
  }

  /** `new ExternalAPIError(message, service, details?)`: the details are `{service,
      ...details}`, so a `service` key inside the given details wins. */
  function NewExternalAPIError(message: string, service: string, details: Option<Js>): (e: SharedError)
    ensures e.name == "ExternalAPIError" && e.code == "EXTERNAL_API_ERROR" && e.statusCode == 502
    ensures e.message == message
  {
    var given := if details.Some? then OwnFields(details.value) else map[];
    NewResearchError(message, "EXTERNAL_API_ERROR", Some(502),
                     Some(JObj(map["service" := JStr(service)] + given))).(name := "ExternalAPIError")
  }

  /** The details of an external-API error always name a service: the given one, unless the
      details carry their own `service`; every other detail is kept. */
  lemma ExternalDetails(message: string, service: string, details: Option<Js>)
    ensures var d := NewExternalAPIError(message, service, details).details;
      var given := if details.Some? then OwnFields(details.value) else map[];
      && d.Some? && d.value.JObj? && "service" in d.value.fields
      && d.value.fields.Keys == given.Keys + {"service"}
      && ("service" !in given ==> d.value.fields["service"] == JStr(service))
      && (forall k :: k in given ==> d.value.fields[k] == given[k])
  {
  }

  /** The backend's error handler does not know these classes: it sees a foreign error by
      name and message, so a shared `ValidationError` becomes its 400 `INVALID_OPTIONS`. */
  lemma SharedValidationInBackend(message: string, details: Option<Js>)
    ensures var e := NewValidationError(message, details);
      ErrorHandler.Classify(ErrorHandler.Thrown(ErrorHandler.OtherClass, e.name, e.message, e.statusCode, e.code, e.details))
        == ErrorHandler.Classified(400, ErrorHandler.InvalidOptions, "Invalid request data", Some(JStr(message)))
  {
  }

  /** A shared rate-limit error with the default message is an unexpected 500 to the backend's
      error handler, not a 429. */
  lemma SharedRateLimitInBackend()
    ensures var e := NewRateLimitError(None);
      ErrorHandler.Classify(ErrorHandler.Thrown(ErrorHandler.OtherClass, e.name, e.message, e.statusCode, e.code, e.details))
        == ErrorHandler.Classified(500, ErrorHandler.InternalError, ErrorHandler.UnexpectedError, None)
  {
    var m := "Rate limit exceeded";
    assert forall k :: 0 <= k < |m| ==> m[k] != 'E' && m[k] != 'j';
    Absent(m, "ENOTFOUND", 'E');
    Absent(m, "ECONNREFUSED", 'E');
    Absent(m, "jwt", 'j');
    var e := NewRateLimitError(None);
    ErrorHandler.UnmatchedIsInternal(ErrorHandler.Thrown(ErrorHandler.OtherClass, e.name, e.message, e.statusCode, e.code, e.details));
  }

  /** A text without the first character of a pattern does not contain the pattern. */
  lemma Absent(m: string, pat: string, c: char)
    requires |pat| > 0 && pat[0] == c
    requires forall k :: 0 <= k < |m| ==> m[k] != c
    ensures !Contains(m, pat)
  {
    forall i: nat | i + |pat| <= |m| ensures !OccursAt(m, pat, i) {
      assert m[i..i + |pat|][0] == m[i];
    }
    ContainsIff(m, pat);
  }
}

=== FILE: socket_registry.dfy ===
/** The real-time layer's bookkeeping: which sockets each signed-in user has open, and which
    research sessions each socket follows.  Socket.IO itself (rooms, emission) is outside the
    model; the handshake's outcome and the join lookup are inputs. */
module SocketRegistry {
  import opened Wrappers
  import opened Text
  import Auth

  /** What the handshake middleware settles for a socket. */
  datatype SocketAuth = SocketAuth(authenticated: bool, userId: Option<string>)

  const Anonymous := SocketAuth(false, None)

  /** The handshake middleware: the token comes from the handshake's `auth.token`, else the
      `Authorization` header, with the first `Bearer ` anywhere in it removed.  No token
      admits the socket anonymously, a missing secret refuses the connection, and a failed
      verification or an unknown or inactive user admits it anonymously. */
  function Handshake(authToken: Option<string>, header: Option<string>,
                     jwtSecret: Option<string>, nextAuthSecret: Option<string>,
                     verify: (string, string) -> Result<Auth.Claims, Auth.Exception>,
                     findUser: Option<string> -> Result<Option<Auth.DbUser>, Auth.Exception>): (r: Result<SocketAuth, string>)
    ensures r.Failure? ==> r.error == "Authentication configuration error"
    ensures r.Success? && r.value.authenticated ==> r.value.userId.Some?
    ensures r.Success? && !r.value.authenticated ==> r.value == Anonymous
  {
    var token := if authToken.Some? && authToken.value != "" then authToken else header;
    if token.None? || token.value == "" then Success(Anonymous)
    else
      var secret := Auth.Secret(jwtSecret, nextAuthSecret);
      if secret.None? || secret.value == "" then Failure("Authentication configuration error")
      else
        match verify(ReplaceFirst(token.value, Auth.BearerPrefix, ""), secret.value)
        case Failure(_) => Success(Anonymous)
        case Success(claims) =>
          match findUser(Auth.UserKey(claims))
          case Success(Some(u)) =>
            if u.isActive then Success(SocketAuth(true, Some(u.id))) else Success(Anonymous)
          case _ => Success(Anonymous)
  }

  /** A connection is refused only for want of a secret, and a socket is authenticated
      exactly when its token verifies and names an active user, whose id it then carries. */
  lemma HandshakeOutcomes(authToken: Option<string>, header: Option<string>,
                          jwtSecret: Option<string>, nextAuthSecret: Option<string>,
                          verify: (string, string) -> Result<Auth.Claims, Auth.Exception>,
                          findUser: Option<string> -> Result<Option<Auth.DbUser>, Auth.Exception>)
    ensures var r := Handshake(authToken, header, jwtSecret, nextAuthSecret, verify, findUser);
      var token := if authToken.Some? && authToken.value != "" then authToken else header;
      var secret := Auth.Secret(jwtSecret, nextAuthSecret);
      && (token.None? || token.value == "" ==> r == Success(Anonymous))
      && (r.Failure? <==> token.Some? && token.value != "" && (secret.None? || secret.value == ""))
      && (r.Success? && r.value.authenticated <==>
            && token.Some? && token.value != "" && secret.Some? && secret.value != ""
            && var v := verify(ReplaceFirst(token.value, Auth.BearerPrefix, ""), secret.value);
               && v.Success? && findUser(Auth.UserKey(v.value)).Success?
               && findUser(Auth.UserKey(v.value)).value.Some?
               && findUser(Auth.UserKey(v.value)).value.value.isActive
               && r.value.userId == Some(findUser(Auth.UserKey(v.value)).value.value.id))
  {
  }

  /** Unlike the HTTP middleware, the handshake removes `Bearer ` wherever it first
      appears, not only as a prefix: a token whose first `Bearer ` sits after its first
      character loses those seven characters in the handshake, while the middleware keeps
      the whole header. */
  lemma HandshakeStripsInside(s: string, i: nat)
    requires 0 < i && OccursAt(s, Auth.BearerPrefix, i)
    requires forall k :: 0 <= k < i ==> !OccursAt(s, Auth.BearerPrefix, k)
    ensures ReplaceFirst(s, Auth.BearerPrefix, "") == s[..i] + s[i + |Auth.BearerPrefix|..]
    ensures Auth.ExtractToken(s) == s
    ensures ReplaceFirst(s, Auth.BearerPrefix, "") != Auth.ExtractToken(s)
  {
    var p := Auth.BearerPrefix;
    var f := FindFrom(s, p, 0);
    assert f.Some? && f.value == i;
    assert s[..i] + "" + s[i + |p|..] == s[..i] + s[i + |p|..];
    assert !StartsWith(s, p) by { assert !OccursAt(s, p, 0); }
  }

  /** What a join request leads to. */
  datatype JoinReply = AuthRequired | Joined(sessionId: string) | AccessDenied | JoinFailed | Ignored

  class Registry {
    /** `connectedUsers`: user id to the ids of that user's open sockets. */
    var connectedUsers: map<string, set<string>>
    /** `socketSessions`: socket id to the ids of the sessions it has joined. */
    var socketSessions: map<string, set<string>>

    /** No user is tracked with an empty set of sockets. */
    ghost predicate Valid()
      reads this
    {
      forall u :: u in connectedUsers ==> connectedUsers[u] != {}
    }

    constructor ()
      ensures Valid() && connectedUsers == map[] && socketSessions == map[]
    {
      connectedUsers := map[];
      socketSessions := map[];
    }

    /** The sockets a user has open, none for an unknown user: also the sockets `emitToUser`
        sends a message for that user to. */
    function SocketsOf(userId: string): (r: set<string>)
      reads this
      ensures r != {} ==> userId in connectedUsers && r == connectedUsers[userId]
      ensures Valid() ==> (r != {} <==> userId in connectedUsers)
    {
      if userId in connectedUsers then connectedUsers[userId] else {}
    }

    /** The connection handler: a socket with a user id joins that user's set (created on
        first use), and every socket starts with no sessions. */
    method Connect(socketId: string, auth: SocketAuth)
      requires Valid()
      modifies this
      ensures Valid()
      ensures socketSessions == old(socketSessions)[socketId := {}]
      ensures auth.userId.Some? && auth.userId.value != "" ==>
        connectedUsers == old(connectedUsers)[auth.userId.value := old(SocketsOf(auth.userId.value)) + {socketId}]
      ensures auth.userId.None? || auth.userId.value == "" ==> connectedUsers == old(connectedUsers)
    {
      if auth.userId.Some? && auth.userId.value != "" {
        var u := auth.userId.value;
        if u !in connectedUsers {
          connectedUsers := connectedUsers[u := {}];
        }
        connectedUsers := connectedUsers[u := connectedUsers[u] + {socketId}];
      }
      socketSessions := socketSessions[socketId := {}];
    }

    /** The join handler, once the access lookup has answered (`access` is whether a
        session with that id belongs to the user, absent when the lookup failed).  An
        anonymous socket is refused; an accepted join records the session for the socket,
        if the socket is still tracked. */
    method Join(socketId: string, auth: SocketAuth, sessionId: string, access: Option<bool>)
      returns (reply: JoinReply)
      requires Valid()
      modifies this
      ensures Valid()
      ensures connectedUsers == old(connectedUsers)
      ensures !auth.authenticated ==> reply == AuthRequired && socketSessions == old(socketSessions)
      ensures reply.Joined? <==> auth.authenticated && auth.userId.Some? && auth.userId.value != ""
                                 && access == Some(true)
      ensures reply.Joined? ==> reply.sessionId == sessionId
      ensures reply.Joined? && socketId in old(socketSessions) ==>
        socketSessions == old(socketSessions)[socketId := old(socketSessions[socketId]) + {sessionId}]
      ensures !(reply.Joined? && socketId in old(socketSessions)) ==> socketSessions == old(socketSessions)
    {
      if !auth.authenticated {
        return AuthRequired;
      }
      if auth.userId.None? || auth.userId.value == "" {
        return Ignored;
      }
      match access {
        case None =>
          reply := JoinFailed;
        case Some(found) =>
          if found {
            if socketId in socketSessions {
              socketSessions := socketSessions[socketId := socketSessions[socketId] + {sessionId}];
            }
            reply := Joined(sessionId);
          } else {
            reply := AccessDenied;
          }
      }
    }

    /** The leave handler: the session is dropped from the socket's set, if tracked;
        dropping one that is not there changes nothing. */
    method Leave(socketId: string, sessionId: string)
      requires Valid()
      modifies this
      ensures Valid()
      ensures connectedUsers == old(connectedUsers)
      ensures socketId in old(socketSessions) ==>
        socketSessions == old(socketSessions)[socketId := old(socketSessions[socketId]) - {sessionId}]
      ensures socketId !in old(socketSessions) ==> socketSessions == old(socketSessions)
    {
      if socketId in socketSessions {
        socketSessions := socketSessions[socketId := socketSessions[socketId] - {sessionId}];
      }
    }

    /** The disconnect handler: the socket leaves its user's set, the user is forgotten
        once no socket is left, and the socket's sessions are forgotten. */
    method Disconnect(socketId: string, auth: SocketAuth)
      requires Valid()
      modifies this
      ensures Valid()
      ensures socketSessions == old(socketSessions) - {socketId}
      ensures auth.userId.Some? && auth.userId.value != "" && auth.userId.value in old(connectedUsers) ==>
        var u := auth.userId.value;
        var rest := old(connectedUsers[u]) - {socketId};
        connectedUsers == if rest == {} then old(connectedUsers) - {u} else old(connectedUsers)[u := rest]
      ensures auth.userId.None? || auth.userId.value == "" || auth.userId.value !in old(connectedUsers) ==>
        connectedUsers == old(connectedUsers)
    {
      if auth.userId.Some? && auth.userId.value != "" {
        var u := auth.userId.value;
        if u in connectedUsers {
          var rest := connectedUsers[u] - {socketId};
          if rest == {} {
            connectedUsers := connectedUsers - {u};
          } else {
            connectedUsers := connectedUsers[u := rest];
          }
        }
      }
      socketSessions := socketSessions - {socketId};
    }

    /** `getConnectedUsersCount`: the number of tracked users. */
    function ConnectedUsersCount(): (n: nat)
      reads this
      ensures n == |connectedUsers.Keys|
      ensures Valid() ==> n == |set u | u in connectedUsers && SocketsOf(u) != {}|
    {
      assert Valid() ==> (set u | u in connectedUsers && SocketsOf(u) != {}) == connectedUsers.Keys;
      |connectedUsers|
    }

    /** `isUserConnected`: whether the user is tracked, which under the invariant is
        whether the user has an open socket. */
    function IsUserConnected(userId: string): (b: bool)
      reads this
      requires Valid()
      ensures b <==> SocketsOf(userId) != {}
    {
      userId in connectedUsers
    }
  }

  /** A signed-in user who connects is counted as connected until that very socket
      disconnects: connecting then disconnecting the same fresh socket restores the user
      map. */
  method ConnectDisconnect(r: Registry, socketId: string, userId: string)
    requires r.Valid() && userId != ""
    requires socketId !in r.SocketsOf(userId)
    modifies r
    ensures r.Valid()
    ensures r.connectedUsers == old(r.connectedUsers)
  {
    var auth := SocketAuth(true, Some(userId));
    r.Connect(socketId, auth);
    assert r.IsUserConnected(userId);
    r.Disconnect(socketId, auth);
    assert old(r.SocketsOf(userId)) + {socketId} - {socketId} == old(r.SocketsOf(userId));
  }
}

=== FILE: text.dfy ===
/** String operations of the JavaScript runtime that the modelled code relies on:
    `||` on optional text, `indexOf`, `includes`, `startsWith`, `split`, `trim`, `replace`, `toLowerCase`,
    template-literal formatting of integers, and the regular-expression rewrite
    `replace(/\n\s+/g, ' ')`.  Strings are sequences of characters. */
module Text {
  import opened Wrappers

  /** `a || b` on two optional strings: `a` unless it is absent or empty. */
  function OrElse(a: Option<string>, b: Option<string>): (r: Option<string>)
    ensures a.Some? && a.value != "" ==> r == a
    ensures a.None? || a.value == "" ==> r == b
  {
    if a.Some? && a.value != "" then a else b
  }

  /** `pat` occurs in `s` starting at index `i`. */
  predicate OccursAt(s: string, pat: string, i: nat) {
    i + |pat| <= |s| && s[i..i + |pat|] == pat
  }

  /** `s.indexOf(pat, from)`: the first occurrence of `pat` at or after `from`. */
  function FindFrom(s: string, pat: string, from: nat): (r: Option<nat>)
    decreases |s| - from
    ensures r.Some? ==> from <= r.value && OccursAt(s, pat, r.value)
    ensures r.Some? ==> forall j :: from <= j < r.value ==> !OccursAt(s, pat, j)
    ensures r.None? ==> forall j :: from <= j ==> !OccursAt(s, pat, j)
  {
    if from + |pat| > |s| then None
    else if s[from..from + |pat|] == pat then Some(from)
    else FindFrom(s, pat, from + 1)
  }

  /** `s.includes(pat)`. */
  predicate Contains(s: string, pat: string) {
    FindFrom(s, pat, 0).Some?
  }

  lemma ContainsIff(s: string, pat: string)
    ensures Contains(s, pat) <==> exists j: nat :: OccursAt(s, pat, j)
  {
    if !Contains(s, pat) {
      forall j: nat ensures !OccursAt(s, pat, j) { }
    }
  }

  /** A string contains each of its middle parts. */
  lemma ContainsMiddle(a: string, b: string, c: string)
    ensures Contains(a + b + c, b)
  {
    assert (a + b + c)[|a|..|a| + |b|] == b;
    assert OccursAt(a + b + c, b, |a|);
    ContainsIff(a + b + c, b);
  }

  /** `s.endsWith(suffix)`. */
  predicate EndsWith(s: string, suffix: string) {
    |suffix| <= |s| && s[|s| - |suffix|..] == suffix
  }

  /** `s.startsWith(prefix)`. */
  predicate StartsWith(s: string, prefix: string) {
    |prefix| <= |s| && s[..|prefix|] == prefix
  }

  /** `s.replace(pat, rep)` with a string pattern: only the first occurrence is replaced. */
  function ReplaceFirst(s: string, pat: string, rep: string): (r: string)
    ensures !Contains(s, pat) ==> r == s
    ensures Contains(s, pat) ==> |r| == |s| - |pat| + |rep|
    ensures Contains(s, pat) ==>
      exists i: nat :: OccursAt(s, pat, i) && (forall j :: 0 <= j < i ==> !OccursAt(s, pat, j))
        && r == s[..i] + rep + s[i + |pat|..]
  {
    match FindFrom(s, pat, 0)
    case None => s
    case Some(i) =>
      assert OccursAt(s, pat, i);
      s[..i] + rep + s[i + |pat|..]
  }

  /** `s.split(d)` with a non-empty string separator. */
  function Split(s: string, d: string): seq<string>
    requires d != []
    decreases |s|
  {
    match FindFrom(s, d, 0)
    case None => [s]
    case Some(i) => [s[..i]] + Split(s[i + |d|..], d)
  }

  /** Number of separator occurrences `split` consumes: leftmost, non-overlapping. */
  function CountOccurrences(s: string, d: string): (n: nat)
    requires d != []
    decreases |s|
    ensures n <= |s|
  {
    match FindFrom(s, d, 0)
    case None => 0
    case Some(i) => 1 + CountOccurrences(s[i + |d|..], d)
  }

  /** No separator is consumed exactly when the separator does not occur. */
  lemma CountOccurrencesZero(s: string, d: string)
    requires d != []
    ensures CountOccurrences(s, d) == 0 <==> !Contains(s, d)
  {
  }

  /** `parts.join(d)`. */
  function Join(parts: seq<string>, d: string): string {
    if |parts| == 0 then ""
    else if |parts| == 1 then parts[0]
    else parts[0] + d + Join(parts[1..], d)
  }

  /** Splitting yields one more piece than there are separators. */
  lemma {:induction false} SplitLength(s: string, d: string)
    requires d != []
    ensures |Split(s, d)| == CountOccurrences(s, d) + 1
    decreases |s|
  {
    match FindFrom(s, d, 0)
    case None =>
    case Some(i) =>
      var rest := s[i + |d|..];
      SplitLength(rest, d);
      assert Split(s, d) == [s[..i]] + Split(rest, d);
      assert CountOccurrences(s, d) == 1 + CountOccurrences(rest, d);
  }

  /** Joining the pieces with the separator gives back the original string. */
  lemma {:induction false} SplitJoin(s: string, d: string)
    requires d != []
    ensures Join(Split(s, d), d) == s
    decreases |s|
  {
    match FindFrom(s, d, 0)
    case None =>
    case Some(i) =>
      var rest := s[i + |d|..];
      SplitJoin(rest, d);
      assert Split(s, d) == [s[..i]] + Split(rest, d);
      assert |Split(rest, d)| >= 1 by { SplitLength(rest, d); }
      assert s == s[..i] + d + rest by {
        assert s[i..i + |d|] == d;
        assert s == s[..i] + s[i..i + |d|] + s[i + |d|..];
      }
  }

  /** No piece produced by `split` contains the separator. */
  lemma {:induction false} SplitPiecesFree(s: string, d: string)
    requires d != []
    ensures forall k :: 0 <= k < |Split(s, d)| ==> !Contains(Split(s, d)[k], d)
    decreases |s|
  {
    match FindFrom(s, d, 0)
    case None =>
      ContainsIff(s, d);
    case Some(i) =>
      var rest := s[i + |d|..];
      SplitPiecesFree(rest, d);
      var head := s[..i];
      forall j: nat | OccursAt(head, d, j) ensures false {
        assert head[j..j + |d|] == s[j..j + |d|];
        assert OccursAt(s, d, j);
      }
      ContainsIff(head, d);
      forall k | 0 <= k < |Split(s, d)| ensures !Contains(Split(s, d)[k], d) {
        if k > 0 {
          assert Split(s, d)[k] == Split(rest, d)[k - 1];
        }
      }
  }

  /** The characters ECMAScript counts as WhiteSpace or LineTerminator: what `trim()`
      removes and what the regular-expression class `\s` matches. */
  predicate IsSpace(c: char) {
    c == '\t' || c == '\n' || c == '\U{000B}' || c == '\U{000C}' || c == '\r' || c == ' '
    || c == '\U{00A0}' || c == '\U{1680}' || ('\U{2000}' <= c <= '\U{200A}')
    || c == '\U{2028}' || c == '\U{2029}' || c == '\U{202F}' || c == '\U{205F}'
    || c == '\U{3000}' || c == '\U{FEFF}'
  }

  /** The characters the regular-expression `.` does not match without the `s` flag. */
  predicate IsLineTerminator(c: char) {
    c == '\n' || c == '\r' || c == '\U{2028}' || c == '\U{2029}'
  }

  /** Leading whitespace removed. */
  function TrimStart(s: string): (r: string)
    ensures |r| <= |s| && r == s[|s| - |r|..]
    ensures r == [] || !IsSpace(r[0])
    ensures forall k :: 0 <= k < |s| - |r| ==> IsSpace(s[k])
  {
    s[SpaceRun(s)..]
  }

  /** Trailing whitespace removed. */
  function TrimEnd(s: string): (r: string)
    ensures |r| <= |s| && r == s[..|r|]
    ensures r == [] || !IsSpace(r[|r| - 1])
    ensures forall k :: |r| <= k < |s| ==> IsSpace(s[k])
  {
    if |s| > 0 && IsSpace(s[|s| - 1]) then TrimEnd(s[..|s| - 1]) else s
  }

  /** `s.trim()`: the part of `s` between its leading and its trailing white space. */
  function Trim(s: string): (r: string)
    ensures |r| <= |s|
    ensures r == [] || (!IsSpace(r[0]) && !IsSpace(r[|r| - 1]))
    ensures exists a, b ::
      && 0 <= a <= b <= |s| && r == s[a..b]
      && (forall k :: 0 <= k < a ==> IsSpace(s[k])) && (forall k :: b <= k < |s| ==> IsSpace(s[k]))
    ensures Visible(r) == Visible(s)
  {
    TrimSlice(s);
    TrimStartVisible(s);
    TrimEndVisible(TrimStart(s));
    TrimEnd(TrimStart(s))
  }

  /** Where the trimmed text sits in `s`, and that only white space lies outside it. */
  lemma {:induction false} TrimSlice(s: string)
    ensures var a := |s| - |TrimStart(s)|;
      var b := a + |TrimEnd(TrimStart(s))|;
      && 0 <= a <= b <= |s| && TrimEnd(TrimStart(s)) == s[a..b]
      && (forall k :: 0 <= k < a ==> IsSpace(s[k]))
      && (forall k :: b <= k < |s| ==> IsSpace(s[k]))
  {
    SliceOfSuffix(s, TrimStart(s), TrimEnd(TrimStart(s)));
  }

  /** A prefix `u` of a suffix `t` of `s` is a slice of `s`, and what follows `u` in `t`
      follows it in `s` too. */
  lemma SliceOfSuffix(s: string, t: string, u: string)
    requires |t| <= |s| && t == s[|s| - |t|..]
    requires |u| <= |t| && u == t[..|u|]
    requires forall k :: |u| <= k < |t| ==> IsSpace(t[k])
    ensures var a := |s| - |t|;
      && u == s[a..a + |u|]
      && forall k :: a + |u| <= k < |s| ==> IsSpace(s[k])
  {
    var a := |s| - |t|;
    forall k | a + |u| <= k < |s| ensures IsSpace(s[k]) {
      assert s[k] == t[k - a];
    }
  }

  /** Trimming drops white space only: at the start, ... */
  lemma TrimStartVisible(s: string)
    ensures Visible(TrimStart(s)) == Visible(s)
  {
    VisibleDropSpaces(s, |s| - |TrimStart(s)|);
  }

  /** ... and at the end. */
  lemma {:induction false} TrimEndVisible(t: string)
    ensures Visible(TrimEnd(t)) == Visible(t)
  {
    var u := TrimEnd(t);
    var tail := t[|u|..];
    assert t == u + tail;
    VisibleAppend(u, tail);
    forall k | 0 <= k < |tail| ensures IsSpace(tail[k]) {
      assert tail[k] == t[|u| + k];
    }
    VisibleDropSpaces(tail, |tail|);
    assert tail[|tail|..] == [];
  }

  /** A string with no leading or trailing whitespace is its own trim. */
  lemma TrimTrimmed(s: string)
    requires s == [] || (!IsSpace(s[0]) && !IsSpace(s[|s| - 1]))
    ensures Trim(s) == s
  {
  }

  /** Length of the whitespace run that starts `s`. */
  function SpaceRun(s: string): (n: nat)
    ensures n <= |s|
    ensures forall k :: 0 <= k < n ==> IsSpace(s[k])
    ensures n == |s| || !IsSpace(s[n])
  {
    if |s| > 0 && IsSpace(s[0]) then 1 + SpaceRun(s[1..]) else 0
  }

  /** A line break followed by whitespace starts at `k`: where `/\n\s+/` matches. */
  predicate BreakRunAt(s: string, k: nat) {
    k + 1 < |s| && s[k] == '\n' && IsSpace(s[k + 1])
  }

  /** `s` holds no line break followed by whitespace. */
  predicate NoBreakRun(s: string) {
    forall k :: 0 <= k < |s| ==> !BreakRunAt(s, k)
  }

  /** `s.replace(/\n\s+/g, ' ')`: scanning left to right, each line break followed by
      whitespace, together with the whole whitespace run after it, becomes one space;
      the scan resumes after the run. */
  function CollapseBreaks(s: string): (r: string)
    decreases |s|
    ensures |r| <= |s|
    ensures r == [] <==> s == []
  {
    if |s| == 0 then []
    else if BreakRunAt(s, 0) then [' '] + CollapseBreaks(s[1 + SpaceRun(s[1..])..])
    else [s[0]] + CollapseBreaks(s[1..])
  }

  /** The first character of the rewrite: a space where a break run starts, the original
      character otherwise. */
  lemma CollapseBreaksHead(s: string)
    requires s != []
    ensures CollapseBreaks(s) != []
    ensures CollapseBreaks(s)[0] == if BreakRunAt(s, 0) then ' ' else s[0]
  {
  }

  /** After the rewrite no line break is followed by whitespace, and the string is no longer. */
  lemma {:induction false} CollapseBreaksClean(s: string)
    ensures NoBreakRun(CollapseBreaks(s))
    ensures |CollapseBreaks(s)| <= |s|
    decreases |s|
  {
    if |s| == 0 {
    } else if BreakRunAt(s, 0) {
      var t := s[1 + SpaceRun(s[1..])..];
      CollapseBreaksClean(t);
      var r := CollapseBreaks(s);
      assert r == [' '] + CollapseBreaks(t);
      forall k | 0 <= k < |r| ensures !BreakRunAt(r, k) {
        if k > 0 {
          assert r[k..] == CollapseBreaks(t)[k - 1..];
          assert !BreakRunAt(CollapseBreaks(t), k - 1);
        }
      }
    } else {
      var t := s[1..];
      CollapseBreaksClean(t);
      var r := CollapseBreaks(s);
      assert r == [s[0]] + CollapseBreaks(t);
      forall k | 0 <= k < |r| ensures !BreakRunAt(r, k) {
        if k > 0 {
          assert !BreakRunAt(CollapseBreaks(t), k - 1);
        } else if |t| > 0 {
          CollapseBreaksHead(t);
        }
      }
    }
  }

  /** The rewrite leaves a string without break runs untouched. */
  lemma {:induction false} CollapseBreaksFixpoint(s: string)
    requires NoBreakRun(s)
    ensures CollapseBreaks(s) == s
    decreases |s|
  {
    if |s| > 0 {
      assert !BreakRunAt(s, 0);
      assert NoBreakRun(s[1..]) by {
        forall k | 0 <= k < |s| - 1 ensures !BreakRunAt(s[1..], k) {
          assert !BreakRunAt(s, k + 1);
        }
      }
      CollapseBreaksFixpoint(s[1..]);
    }
  }

  /** Applying the rewrite twice is the same as applying it once. */
  lemma CollapseBreaksIdempotent(s: string)
    ensures CollapseBreaks(CollapseBreaks(s)) == CollapseBreaks(s)
  {
    CollapseBreaksClean(s);
    CollapseBreaksFixpoint(CollapseBreaks(s));
  }

  /** A stretch without break runs that does not end in a line break passes through the
      rewrite unchanged, whatever follows it: other white space stays where it is. */
  lemma {:induction false} CollapseBreaksKeep(x: string, y: string)
    requires NoBreakRun(x) && (x == [] || x[|x| - 1] != '\n')
    ensures CollapseBreaks(x + y) == x + CollapseBreaks(y)
    decreases |x|
  {
    if |x| > 0 {
      var s := x + y;
      var rest := x[1..];
      assert s[0] == x[0];
      assert !BreakRunAt(s, 0) by {
        if |x| >= 2 {
          assert s[1] == x[1];
          assert !BreakRunAt(x, 0);
        }
      }
      assert s[1..] == rest + y;
      assert NoBreakRun(rest) by {
        forall k | 0 <= k < |rest| ensures !BreakRunAt(rest, k) {
          assert !BreakRunAt(x, k + 1);
        }
      }
      CollapseBreaksKeep(rest, y);
      assert x == [x[0]] + rest;
    } else {
      assert x + y == y;
    }
  }

  /** A white-space run followed by a non-space character, or by nothing, is matched whole. */
  lemma {:induction false} SpaceRunOf(w: string, y: string)
    requires forall k :: 0 <= k < |w| ==> IsSpace(w[k])
    requires y == [] || !IsSpace(y[0])
    ensures SpaceRun(w + y) == |w|
    decreases |w|
  {
    if |w| > 0 {
      assert (w + y)[0] == w[0];
      assert (w + y)[1..] == w[1..] + y;
      SpaceRunOf(w[1..], y);
    } else {
      assert w + y == y;
    }
  }

  /** A line break followed by a white-space run becomes exactly one space, and the rewrite
      resumes at the next non-space character. */
  lemma CollapseBreaksRun(w: string, y: string)
    requires w != [] && forall k :: 0 <= k < |w| ==> IsSpace(w[k])
    requires y == [] || !IsSpace(y[0])
    ensures CollapseBreaks("\n" + w + y) == " " + CollapseBreaks(y)
  {
    var s := "\n" + w + y;
    var t := w + y;
    assert s[1..] == t;
    assert BreakRunAt(s, 0) by {
      assert s[0] == '\n' && s[1] == t[0] == w[0];
    }
    SpaceRunOf(w, y);
    assert s[1 + SpaceRun(t)..] == y by {
      assert t[|w|..] == y;
    }
  }

  /** A line break before a non-space character, or at the very end, is kept. */
  lemma CollapseBreaksLoneBreak(y: string)
    requires y == [] || !IsSpace(y[0])
    ensures CollapseBreaks("\n" + y) == "\n" + CollapseBreaks(y)
  {
    assert ("\n" + y)[1..] == y;
  }

  /** In the middle of a text: everything before the break run is kept, the run becomes
      one space, and the rewrite goes on after it. */
  lemma CollapseBreaksMiddle(x: string, w: string, y: string)
    requires NoBreakRun(x) && (x == [] || x[|x| - 1] != '\n')
    requires w != [] && forall k :: 0 <= k < |w| ==> IsSpace(w[k])
    requires y == [] || !IsSpace(y[0])
    ensures CollapseBreaks(x + ("\n" + w + y)) == x + (" " + CollapseBreaks(y))
  {
    CollapseBreaksKeep(x, "\n" + w + y);
    CollapseBreaksRun(w, y);
  }

  /** In the middle of a text, a line break directly before a non-space character stays. */
  lemma CollapseBreaksMiddleKept(x: string, y: string)
    requires NoBreakRun(x) && (x == [] || x[|x| - 1] != '\n')
    requires y == [] || !IsSpace(y[0])
    ensures CollapseBreaks(x + ("\n" + y)) == x + ("\n" + CollapseBreaks(y))
  {
    CollapseBreaksKeep(x, "\n" + y);
    CollapseBreaksLoneBreak(y);
  }

  /** The non-whitespace characters of `s`, in order. */
  function Visible(s: string): string {
    if |s| == 0 then [] else (if IsSpace(s[0]) then [] else [s[0]]) + Visible(s[1..])
  }

  lemma {:induction false} VisibleAppend(x: string, y: string)
    ensures Visible(x + y) == Visible(x) + Visible(y)
    decreases |x|
  {
    if |x| > 0 {
      var xy := x + y;
      assert xy[0] == x[0];
      assert xy[1..] == x[1..] + y;
      VisibleAppend(x[1..], y);
    } else {
      assert x + y == y;
    }
  }

  lemma {:induction false} VisibleDropSpaces(s: string, m: nat)
    requires m <= |s|
    requires forall k :: 0 <= k < m ==> IsSpace(s[k])
    ensures Visible(s) == Visible(s[m..])
    decreases m
  {
    if m > 0 {
      VisibleDropSpaces(s[1..], m - 1);
      assert s[1..][m - 1..] == s[m..];
    }
  }

  /** The rewrite only touches whitespace: every other character survives, in order. */
  lemma {:induction false} CollapseBreaksVisible(s: string)
    ensures Visible(CollapseBreaks(s)) == Visible(s)
    decreases |s|
  {
    if |s| == 0 {
    } else if BreakRunAt(s, 0) {
      var n := SpaceRun(s[1..]);
      var t := s[1 + n..];
      CollapseBreaksVisible(t);
      VisibleDropSpaces(s, 1 + n);
      var r := CollapseBreaks(s);
      assert r == [' '] + CollapseBreaks(t);
      assert r[1..] == CollapseBreaks(t);
    } else {
      CollapseBreaksVisible(s[1..]);
      var r := CollapseBreaks(s);
      assert r[1..] == CollapseBreaks(s[1..]);
    }
  }

  /** ASCII letters lowered; every other character unchanged. */
  function LowerChar(c: char): char {
    if 'A' <= c <= 'Z' then (c as int + 32) as char else c
  }

  /** `s.toLowerCase()` restricted to ASCII letters. */
  function ToLower(s: string): (r: string)
    ensures |r| == |s|
    ensures forall k :: 0 <= k < |s| ==> r[k] == LowerChar(s[k])
  {
    seq(|s|, k requires 0 <= k < |s| => LowerChar(s[k]))
  }

  /** `s` holds no upper-case ASCII letter. */
  predicate IsLower(s: string) {
    forall k :: 0 <= k < |s| ==> !('A' <= s[k] <= 'Z')
  }

  /** A lower-case pattern found in `s` is still found after lowering `s`. */
  lemma ContainsAfterLower(s: string, pat: string)
    requires IsLower(pat) && Contains(s, pat)
    ensures Contains(ToLower(s), pat)
  {
    ContainsIff(s, pat);
    var j: nat :| OccursAt(s, pat, j);
    assert ToLower(s)[j..j + |pat|] == pat by {
      forall k | 0 <= k < |pat| ensures ToLower(s)[j + k] == pat[k] {
        assert s[j + k] == pat[k];
      }
    }
    assert OccursAt(ToLower(s), pat, j);
    ContainsIff(ToLower(s), pat);
  }

  /** The decimal digit for `d`. */
  function DigitChar(d: nat): (c: char)
    requires d < 10
    ensures '0' <= c <= '9'
  {
    (48 + d) as char
  }

  /** The decimal text of `n`, as a template literal `${n}` renders a non-negative integer. */
  function NatToString(n: nat): (r: string)
    ensures |r| >= 1
    ensures n >= 10 ==> |r| >= 2
    ensures forall k :: 0 <= k < |r| ==> '0' <= r[k] <= '9'
  {
    if n < 10 then [DigitChar(n)] else NatToString(n / 10) + [DigitChar(n % 10)]
  }

  /** Different numbers have different decimal texts. */
  lemma {:induction false} NatToStringInjective(a: nat, b: nat)
    requires NatToString(a) == NatToString(b)
    ensures a == b
    decreases a
  {
    if a >= 10 && b >= 10 {
      var sa, sb := NatToString(a), NatToString(b);
      assert sa[|sa| - 1] == sb[|sb| - 1];
      assert DigitChar(a % 10) == DigitChar(b % 10);
      assert sa[..|sa| - 1] == NatToString(a / 10);
      assert sb[..|sb| - 1] == NatToString(b / 10);
      NatToStringInjective(a / 10, b / 10);
    } else if a < 10 && b < 10 {
      assert NatToString(a)[0] == NatToString(b)[0];
    }
  }

  /** A common prefix can be cancelled. */
  lemma PrefixCancel(p: string, x: string, y: string)
    requires p + x == p + y
    ensures x == y
  {
    assert x == (p + x)[|p|..];
    assert y == (p + y)[|p|..];
  }
}

=== FILE: wrappers.dfy ===
/** Option and Result values used for absent fields, oracle answers and error paths. */
module Wrappers {

  datatype Option<+T> = None | Some(value: T) {
    /** The value, or `default` when absent. */
    function GetOr(default: T): T {
      match this
      case Some(v) => v
      case None => default
    }
  }

  datatype Result<+R, +E> = Success(value: R) | Failure(error: E)
}

=== FILE: zod_schema.dfy ===
/** The handful of zod validators the request schemas are built from, on parsed JSON:
    objects keep only the keys their shape names, an absent key is `undefined`, `.optional()`
    admits an absent key, `.default(v)` substitutes `v` for it, and `null` is never absent. */
module ZodSchema {
  import opened Wrappers
  import opened Json

  /** The value under `key`, absent when the object has no such key. */
  function Field(fields: map<string, Js>, key: string): (r: Option<Js>)
    ensures r.Some? <==> key in fields
    ensures r.Some? ==> r.value == fields[key]
  {
    if key in fields then Some(fields[key]) else None
  }

  /** `z.string().min(lo).max(hi)`. */
  function StringIn(v: Js, lo: nat, hi: nat): (r: Option<string>)
    ensures r.Some? <==> v.JStr? && lo <= |v.s| <= hi
    ensures r.Some? ==> r.value == v.s
  {
    if v.JStr? && lo <= |v.s| <= hi then Some(v.s) else None
  }

  /** `z.string()`. */
  function AnyString(v: Js): (r: Option<string>)
    ensures r.Some? <==> v.JStr?
    ensures r.Some? ==> r.value == v.s
  {
    if v.JStr? then Some(v.s) else None
  }

  /** `z.boolean()`. */
  function Boolean(v: Js): (r: Option<bool>)
    ensures r.Some? <==> v.JBool?
    ensures r.Some? ==> r.value == v.b
  {
    if v.JBool? then Some(v.b) else None
  }

  /** `z.number().min(lo).max(hi)`. */
  function NumberIn(v: Js, lo: real, hi: real): (r: Option<real>)
    ensures r.Some? <==> v.JNum? && lo <= v.n <= hi
    ensures r.Some? ==> r.value == v.n
  {
    if v.JNum? && lo <= v.n <= hi then Some(v.n) else None
  }

  /** `z.array(item)`: an array all of whose elements pass `item`. */
  function ArrayOf<T>(v: Js, item: Js -> Option<T>): (r: Option<seq<T>>)
    ensures r.Some? <==> v.JArr? && forall k :: 0 <= k < |v.items| ==> item(v.items[k]).Some?
    ensures r.Some? ==> |r.value| == |v.items| && forall k :: 0 <= k < |r.value| ==> Some(r.value[k]) == item(v.items[k])
  {
    if v.JArr? then All(v.items, item) else None
  }

  /** Every element parsed, or nothing when one element fails. */
  function All<T>(items: seq<Js>, item: Js -> Option<T>): (r: Option<seq<T>>)
    ensures r.Some? <==> forall k :: 0 <= k < |items| ==> item(items[k]).Some?
    ensures r.Some? ==> |r.value| == |items| && forall k :: 0 <= k < |r.value| ==> Some(r.value[k]) == item(items[k])
  {
    if |items| == 0 then Some([])
    else
      match item(items[0])
      case None => None
      case Some(x) =>
        match All(items[1..], item)
        case None => None
        case Some(rest) => Some([x] + rest)
  }

  /** Each element of a list written as JSON. */
  function EncodeAll<T>(xs: seq<T>, encode: T -> Js): (r: seq<Js>)
    ensures |r| == |xs| && forall k :: 0 <= k < |xs| ==> r[k] == encode(xs[k])
  {
    if |xs| == 0 then [] else [encode(xs[0])] + EncodeAll(xs[1..], encode)
  }

  /** Parsing the encodings of a list gives the list back, when parsing inverts the
      encoding element by element. */
  lemma {:induction false} AllRoundTrip<T>(xs: seq<T>, encode: T -> Js, item: Js -> Option<T>)
    requires forall k :: 0 <= k < |xs| ==> item(encode(xs[k])) == Some(xs[k])
    ensures All(EncodeAll(xs, encode), item) == Some(xs)
  {
    if |xs| > 0 {
      AllRoundTrip(xs[1..], encode, item);
      assert EncodeAll(xs, encode)[1..] == EncodeAll(xs[1..], encode);
      assert [xs[0]] + xs[1..] == xs;
    }
  }

  /** A field with `.default(d)`: `d` when absent, else the parsed value. */
  function Defaulted<T>(fields: map<string, Js>, key: string, parse: Js -> Option<T>, d: T): (r: Option<T>)
    ensures key !in fields ==> r == Some(d)
    ensures key in fields ==> r == parse(fields[key])
  {
    if key in fields then parse(fields[key]) else Some(d)
  }

  /** A field with `.optional()`: absent stays absent, a present value must parse.  The
      outer option is success, the inner one presence. */
  function Optional<T>(fields: map<string, Js>, key: string, parse: Js -> Option<T>): (r: Option<Option<T>>)
    ensures key !in fields ==> r == Some(None)
    ensures key in fields ==> (r.Some? <==> parse(fields[key]).Some?)
    ensures key in fields && r.Some? ==> r.value == parse(fields[key])
  {
    if key !in fields then Some(None)
    else match parse(fields[key])
      case None => None
      case Some(x) => Some(Some(x))
  }
}
